=== FILE: README.md ===
# Angular Material / CDK decision logic in Dafny

This project models the small, sequential decision procedures inside the
Angular Material and CDK component library. It leaves out the framework
glue around them: rendering, change detection, rxjs streams and the DOM
API. Each core source file becomes one Dafny module. State is an
immutable record, and each operation is a step function or a pure
function over that record.

| module | models |
|---|---|
| `CdkTable` (`table.dfy`) | column and row definition caches, row-definition choice, row index contexts, cell templates, the content check, the data-source switch |
| `DragSession` (`drag_session.dfy`) | the experimental `CdkDrag` item: handle choice, pointer down/move/up guards, free-drag transforms, container hand-off, drop index, preview and placeholder teardown |
| `DragDirective` (`drag_directive.dfy`) | the `CdkDrag` directive: config thresholds and defaults, `disabled`, closest matching ancestor, root and boundary elements, start delay, `ngOnChanges` |
| `Dom` (`dom.dfy`) | an abstract DOM: node ids, a parent map, the set of element nodes, and a depth witness that makes parent chains finite |
| `DatepickerCalendar` (`calendar.dfy`) | `MdCalendar`: clamped active date, selectability filter, month/year keyboard navigation, previous/next buttons |
| `CalendarDate` (`calendar_date.dfy`) | a proleptic Gregorian date with the adapter operations the calendar calls |
| `InputContainer` (`input_container.dfy`) | `MdInputDirective` and `MdInputContainer`: type check, `empty`, value/focus notifications, hint and placeholder validation, `aria-describedby`, floating placeholder |
| `SelectionList` (`selection_list.dfy`) | `MdListOption` and `MdSelectionList`: toggling, select/deselect all, SPACE handling, focus fallback on destroy |
| `ScrollDispatcher` (`scroll_dispatcher.dfy`) | the registry of scrollables, the `scrolled` subscriber count and global listener, containment |
| `MenuDirective`, `MenuTrigger` | menu position parsing, class list, first-item focus; the trigger's open/close state machine |
| `SnackBar` (`snack_bar.dfy`) | the snack-bar container's animation state and exit notification |
| `Platform` (`platform.dfy`) | the browser flags as a function of the user agent and a few globals |
| `SliderTemplate` (`slider_template.dfy`) | the MDC migration's slider template updates and binding classification |
| `ComponentWalker` (`component_walker.dfy`) | the update schematic's decorator walker: metadata lookup, property dispatch, missing and extra resource files |
| `PaginatorIntl` (`paginator_intl.dfy`) | the custom paginator labels and the "Page x of y" range label |
| `Wrappers`, `Strings` | `Option`/`Result`, and the JavaScript string operations the models use (`split`, `join`, case-insensitive search, decimal rendering) |

Errors that the source throws are `Err`/`Some(error)` values. An
operation that reads a browser service takes that service's answer as a
parameter: the supported input types, the sibling container under the
pointer, the transition duration, whether a file exists.

## Model

| member | source | states |
|---|---|---|
| CdkTable.AddDef | src/cdk/table/table.ts:378-380 | adding a definition keeps insertion order and leaves a set that already has it unchanged |
| CdkTable.RemoveDef | src/cdk/table/table.ts:383-385 | removing a definition drops exactly it and keeps every other definition; removing an absent one changes nothing |
| CdkTable.RemoveOfConcat | src/cdk/table/table.ts:383-385 | deleting from two runs of definitions joined is deleting from each run |
| CdkTable.RemoveKeepsOrder | src/cdk/table/table.ts:383-385 | removing a definition that occurs once leaves the definitions before and after it in their order |
| CdkTable.AddThenRemove | src/cdk/table/table.ts:378-395 | removing a definition just added gives back the set that lacked it |
| CdkTable.Names | src/cdk/table/table.ts:398-410 | the names of a list of column definitions are exactly the names that occur in it |
| CdkTable.CacheColumnDefs | src/cdk/table/table.ts:398-410 | content then custom column definitions are keyed by name; the map is built iff no name repeats, every definition is found under its own name, and a failure names a duplicated pair |
| CdkTable.FirstDefault | src/cdk/table/table.ts:413-420 | the default row definition is a predicate-less one, and there is none iff no definition lacks `when` |
| CdkTable.CacheRowDefs | src/cdk/table/table.ts:413-420 | more than one predicate-less row definition throws; otherwise the default is the predicate-less definition, or none |
| CdkTable.UniqueDefault | src/cdk/table/table.ts:413-420 | with at most one predicate-less definition, the cached default is that definition wherever it stands |
| CdkTable.NoDefaultsAllWhen | src/cdk/table/table.ts:413-420 | without a default every row definition has a `when` predicate |
| CdkTable.FirstMatching | src/cdk/table/table.ts:540-547 | the chosen definition is the earliest whose `when` holds for (index, data), as `find` returns it; none is chosen iff no `when` holds |
| CdkTable.GetRowDef | src/cdk/table/table.ts:540-547 | a single definition is used unconditionally; otherwise the earliest definition whose `when` holds, else the default; the missing-definition error iff neither exists |
| CdkTable.UpdateRowIndexContext | src/cdk/table/table.ts:582-593 | row k of n gets index k, count n, first iff k = 0, last iff k = n-1, even iff k is even, and odd iff not even |
| CdkTable.GetCellTemplates | src/cdk/table/table.ts:596-607 | no row definition or no column list gives no templates; otherwise one template per column name in order, and an unknown name is an error |
| CdkTable.TemplatesFor | src/cdk/table/table.ts:598-606 | looking up column names succeeds iff every name is known, giving each column's template for the row kind in order; otherwise it names an unknown column |
| CdkTable.OnInit | src/cdk/table/table.ts:261-273 | content header and footer definitions are marked changed so that the first check renders them |
| CdkTable.SetHeaderRowDef | src/cdk/table/table.ts:362-365 | the header definition is replaced and marked changed; the footer is untouched |
| CdkTable.SetFooterRowDef | src/cdk/table/table.ts:372-375 | the footer definition is replaced and marked changed; the header is untouched |
| CdkTable.AfterContentChecked | src/cdk/table/table.ts:275-305 | the row and column caches are rebuilt with their errors; the column map holds exactly the content and custom column names, each mapped to its definition; the cached rows and default are those of `_cacheRowDefs`; no header, footer or row definition throws; a changed header or footer naming an unknown column throws that error, and otherwise rendering succeeds; changed header and footer rows are rendered and their flags cleared; the data subscription starts once there is a source |
| CdkTable.SetDataSource | src/cdk/table/table.ts:206-210 | the same source is a no-op; a different one disconnects the old one, clears data and the subscription, and clears the rendered rows when the new source is null |
| CdkTable.SetDataSourceIdempotent | src/cdk/table/table.ts:454-475 | setting a source twice is the same as setting it once |
| Dom.ParentElement | src/cdk/scrolling/scroll-dispatcher.ts:122 | `parentElement` is the parent node when that node is an element, and nothing otherwise |
| Dom.ElementChain | src/cdk/drag-drop/directives/drag.ts:479-493 | the chain of parent elements starts at the node itself |
| Dom.ElementChainLinks | src/cdk/drag-drop/directives/drag.ts:490 | each step of the element chain is a `parentElement` link |
| Dom.ElementChainInNodeChain | src/cdk-experimental/drag-drop/drag.ts:172 | every element ancestor is a `parentNode` ancestor, so an element reached by the chain `contains` the start |
| Dom.Contains | src/cdk-experimental/drag-drop/drag.ts:173 | `a.contains(b)` holds iff `a` is `b` or one of its `parentNode` ancestors |
| Dom.FirstIn | src/cdk/drag-drop/directives/drag.ts:482-490 | the found node matches and lies in the searched chain; when nothing is found, nothing in the chain matches |
| Dom.FirstInIsEarliest | src/cdk/drag-drop/directives/drag.ts:482-490 | the found node is the nearest match: every node before it fails to match |
| DragDirective.ThresholdOr5 | src/cdk/drag-drop/directives/drag.ts:196-199 | a supplied threshold is used as is and a missing one becomes 5 |
| DragDirective.ConstructorThresholds | src/cdk/drag-drop/directives/drag.ts:195-200 | both thresholds default to 5 unless the config supplies a non-null value |
| DragDirective.Disabled | src/cdk/drag-drop/directives/drag.ts:123-125 | the item is disabled iff its own flag is set or its drop list is disabled |
| DragDirective.DelayOrZero | src/cdk/drag-drop/directives/drag.ts:452 | a missing start delay becomes 0 and a given one, number or per-pointer object, is kept; `_syncInputs` (lines 378-379) hands the drag reference the same value |
| DragDirective.AssignDefaults | src/cdk/drag-drop/directives/drag.ts:445-473 | disabled comes from the config's flag, the delay is the config's or 0, and every other input is overwritten only by a truthy config value |
| DragDirective.ConstructorInputs | src/cdk/drag-drop/directives/drag.ts:204-206 | without a config the inputs are untouched; with one, the item is disabled iff the config disables dragging, the delay is the config's or 0, and the result is the defaults assignment |
| DragDirective.ClosestMatchingAncestor | src/cdk/drag-drop/directives/drag.ts:479-493 | the search starts at the parent element, never the element, and returns the nearest matching ancestor element or nothing |
| DragDirective.UpdateRootElement | src/cdk/drag-drop/directives/drag.ts:324-335 | with a selector the root is the matching ancestor, falling back to the element; without one, the element, and a non-element node is an error |
| DragDirective.ElementChainMembersAreElements | src/cdk/drag-drop/directives/drag.ts:480-491 | every ancestor the search visits is an element |
| DragDirective.GetBoundaryElement | src/cdk/drag-drop/directives/drag.ts:338-356 | no boundary gives nothing; a selector resolves by ancestor search; an element that does not contain the draggable is an error in dev mode |
| DragDirective.SelectorBoundaryContainsElement | src/cdk/drag-drop/directives/drag.ts:345-347 | a boundary found by selector always contains the draggable, so the dev-mode check cannot fail for it |
| DragDirective.OnChanges | src/cdk/drag-drop/directives/drag.ts:297-311 | first changes of the root selector and the free position are ignored and later ones are applied |
| DragSession.Initial | src/cdk-experimental/drag-drop/drag.ts:80-86 | a new item is not dragging, has not moved, and has zero transforms |
| DragSession.ReferenceElement | src/cdk-experimental/drag-drop/drag.ts:167-181 | with handles the drag starts only from the first handle, in handle order, that is or contains the target; with none it starts from the element |
| DragSession.FirstContaining | src/cdk-experimental/drag-drop/drag.ts:170-174 | the found handle is the earliest that is or contains the target, and none is found iff no handle does |
| DragSession.PointerDownAsWritten | src/cdk-experimental/drag-drop/drag.ts:185-227 | a press while dragging is ignored; otherwise dragging starts and the moved flag keeps its old value |
| DragSession.PointerDown | src/cdk-experimental/drag-drop/drag.ts:185-227 | corrected press (see "## Findings"): a press while dragging is ignored; otherwise dragging starts with the pickup position and the moved flag cleared, `started` is emitted, and inside a container the preview and placeholder are created |
| DragSession.PointerMove | src/cdk-experimental/drag-drop/drag.ts:230-250 | a move outside a drag is ignored; inside one the item has moved, and a free drag's active transform is pointer minus pickup plus passive on each axis |
| DragSession.UpdateActiveDropContainer | src/cdk-experimental/drag-drop/drag.ts:299-320 | reaching a sibling container emits `exited` for the old one before `entered` for the new one and switches container; the preview follows the pointer |
| DragSession.AnimatePreviewToPlaceholder | src/cdk-experimental/drag-drop/drag.ts:431-455 | the drop animation resolves at once iff the item never moved or the transition lasts 0 ms |
| DragSession.DestroyPreview | src/cdk-experimental/drag-drop/drag.ts:510-520 | the preview and its view are gone, the element is removed, the placeholder is untouched |
| DragSession.DestroyPlaceholder | src/cdk-experimental/drag-drop/drag.ts:523-533 | the placeholder and its view are gone, the element is removed, the preview is untouched |
| DragSession.DestroyIsIdempotent | src/cdk-experimental/drag-drop/drag.ts:510-533 | destroying both proxies nulls them and can be repeated with no further effect |
| DragSession.PointerUp | src/cdk-experimental/drag-drop/drag.ts:252-270 | a release outside a drag is ignored; a free drag copies the active transform into the passive one and ends; in a container the drop animation runs |
| DragSession.CleanupDragArtifacts | src/cdk-experimental/drag-drop/drag.ts:273-296 | the proxies are removed, then `ended` and `dropped` are emitted with the indices and containers |
| DragSession.Destroy | src/cdk-experimental/drag-drop/drag.ts:149-160 | destroying the item removes both proxies, and the element too while it is being dragged |
| DragSession.IndexOf | src/cdk-experimental/drag-drop/drag.ts:394-396 | the index is the first position holding the element, or -1 iff it is absent |
| DragSession.ElementIndexInDom | src/cdk-experimental/drag-drop/drag.ts:372-402 | -1 without a parent or when the element is not among its siblings; otherwise the number of earlier siblings that are other draggables of the container |
| DragSession.FreeDragContinues | src/cdk-experimental/drag-drop/drag.ts:243-266 | after a free drag ends, the next drag continues from the dropped position |
| DragSession.GuardsIgnoreOutOfSessionEvents | src/cdk-experimental/drag-drop/drag.ts:187-189 | a press while dragging, and a move or release while not dragging, change nothing |
| DragSession.ContainerSwitchOrder | src/cdk-experimental/drag-drop/drag.ts:303-315 | switching container appends exactly `exited(old)` then `entered(new)` |
| DragSession.MovedFlagSurvivesNewPress | src/cdk-experimental/drag-drop/drag.ts:433-435 | as written, a press released without moving still animates when the previous drag moved |
| DragSession.UnmovedReleaseResolvesImmediately | src/cdk-experimental/drag-drop/drag.ts:433-435 | with the flag cleared on each press, a release without a move resolves the drop at once |
| CalendarDate.DaysInMonth | src/lib/datepicker/calendar.ts:246-250 | a month has 28 to 31 days, and February has 29 exactly in leap years |
| CalendarDate.NextDay | src/lib/datepicker/calendar.ts:233-235 | one day forward stays in the month or rolls to day 1 of the next month |
| CalendarDate.PrevDay | src/lib/datepicker/calendar.ts:230-232 | one day back stays in the month or rolls to the last day of the previous month |
| CalendarDate.NextPrevInverse | src/lib/datepicker/calendar.ts:230-235 | a day forward and a day back cancel out |
| CalendarDate.AddCalendarDays | src/lib/datepicker/calendar.ts:230-250 | adding days yields a valid date |
| CalendarDate.AddDaysForwardStep | src/lib/datepicker/calendar.ts:233-241 | adding n+1 days is adding n days and one more |
| CalendarDate.AddDaysBackwardStep | src/lib/datepicker/calendar.ts:230-238 | subtracting n+1 days is subtracting n days and one more |
| CalendarDate.AddDaysInverse | src/lib/datepicker/calendar.ts:230-241 | adding n days and then -n days gives the date back |
| CalendarDate.AddDaysForwardAdditive | src/lib/datepicker/calendar.ts:233-241 | adding m days and then n days is adding m+n days |
| CalendarDate.AddDaysBackwardAdditive | src/lib/datepicker/calendar.ts:230-238 | subtracting m days and then n days is subtracting m+n days |
| CalendarDate.AddDaysIntoNextMonth | src/lib/datepicker/calendar.ts:238-240 | moving forward past the month end by less than four weeks lands in the next month, on the day that overflowed |
| CalendarDate.AddDaysIntoPreviousMonth | src/lib/datepicker/calendar.ts:235-237 | moving back past day 1 by less than four weeks lands in the previous month, counted back from its last day |
| CalendarDate.AddDaysBackWithinMonth | src/lib/datepicker/calendar.ts:242-245 | moving back no further than day 1 only changes the day |
| CalendarDate.AddDaysForwardWithinMonth | src/lib/datepicker/calendar.ts:246-250 | moving forward no further than the month's last day only changes the day |
| CalendarDate.AddCalendarMonths | src/lib/datepicker/calendar.ts:281-286 | adding n months moves the month index by n and clamps the day to the new month's length |
| CalendarDate.AddCalendarYears | src/lib/datepicker/calendar.ts:301-308 | adding n years keeps the month and clamps the day |
| CalendarDate.CompareDate | src/lib/datepicker/calendar.ts:84-89 | the comparison is negative iff `a` comes first by year, then month, then day; positive iff `b` does; and 0 exactly for equal dates |
| CalendarDate.CompareAntisymmetric | src/lib/datepicker/calendar.ts:84-89 | swapping the arguments negates the comparison |
| CalendarDate.CompareTransitive | src/lib/datepicker/calendar.ts:84-89 | the order on dates is transitive |
| CalendarDate.SameDate | src/lib/datepicker/calendar.ts:156-160 | two optional dates are the same iff they are equal |
| CalendarDate.ClampDate | src/lib/datepicker/calendar.ts:96-98 | the clamped date is the date, the minimum or the maximum; it is not before the minimum nor after the maximum; a date within the bounds is unchanged |
| DatepickerCalendar.SetActiveDate | src/lib/datepicker/calendar.ts:96-98 | the active date is clamped into the bounds, a date within them is kept, and nothing else changes |
| DatepickerCalendar.DateFilterForViews | src/lib/datepicker/calendar.ts:84-89 | a date is selectable iff it is present, the filter accepts it, and it is not before the minimum nor after the maximum |
| DatepickerCalendar.SelectableIsFixedByClamp | src/lib/datepicker/calendar.ts:84-98 | a date the filter accepts lies within the bounds, so clamping keeps it |
| DatepickerCalendar.AfterContentInit | src/lib/datepicker/calendar.ts:145-149 | the active date starts at `startAt` or today, clamped; month view iff the start view is not 'year'; the active cell is focused |
| DatepickerCalendar.DateSelected | src/lib/datepicker/calendar.ts:156-160 | a date is emitted iff it differs from the current selection |
| DatepickerCalendar.MonthSelected | src/lib/datepicker/calendar.ts:163-166 | picking a month makes it active, clamped, and switches to month view |
| DatepickerCalendar.CurrentPeriodClicked | src/lib/datepicker/calendar.ts:169-171 | clicking the period label flips the view and changes nothing else |
| DatepickerCalendar.PreviousClicked | src/lib/datepicker/calendar.ts:174-178 | the previous button sets the active date to one month back in month view or one year back in year view, clamped; within the bounds that is the previous month index or year with the same month; nothing else changes |
| DatepickerCalendar.NextClicked | src/lib/datepicker/calendar.ts:181-185 | the next button sets the active date to one month forward in month view or one year forward in year view, clamped; within the bounds that is the next month index or year with the same month; nothing else changes |
| DatepickerCalendar.IsSameView | src/lib/datepicker/calendar.ts:220-225 | same view is same year and month in month view and same year in year view |
| DatepickerCalendar.PreviousEnabled | src/lib/datepicker/calendar.ts:188-193 | previous is enabled iff there is no minimum or the active date is not in the minimum's view |
| DatepickerCalendar.NextEnabled | src/lib/datepicker/calendar.ts:196-198 | next is enabled iff there is no maximum or the active date is not in the maximum's view |
| DatepickerCalendar.PreviousDisabledLandsOnMin | src/lib/datepicker/calendar.ts:174-193 | when previous is disabled in month view, clicking it anyway lands on the minimum |
| DatepickerCalendar.NextDisabledLandsOnMax | src/lib/datepicker/calendar.ts:181-198 | when next is disabled in month view, clicking it anyway lands on the maximum |
| DatepickerCalendar.PrevMonthInSameCol | src/lib/datepicker/calendar.ts:326-331 | UP in year view moves -5 months for months up to 4, -7 from 7, and -12 otherwise |
| DatepickerCalendar.NextMonthInSameCol | src/lib/datepicker/calendar.ts:337-342 | DOWN in year view moves +7 months for months up to 4, +5 from 7, and +12 otherwise |
| DatepickerCalendar.SameColumnRoundTrip | src/lib/datepicker/calendar.ts:326-344 | UP then DOWN, and DOWN then UP, return to the same month |
| DatepickerCalendar.Moved | src/lib/datepicker/calendar.ts:272-275 | a handled move sets the clamped active date, focuses the active cell and prevents the default action |
| DatepickerCalendar.MonthViewKeydown | src/lib/datepicker/calendar.ts:228-276 | LEFT and RIGHT move a day, UP and DOWN seven days, HOME to day 1, END to the month's last day, PAGE_UP and PAGE_DOWN a month (a year with Alt), each clamped and focused; ENTER selects the active date only if the filter accepts it, and only then prevents the default action; other keys change nothing; every key keeps the view |
| DatepickerCalendar.YearViewKeydown | src/lib/datepicker/calendar.ts:279-320 | LEFT and RIGHT move a month, UP and DOWN to the same column of the previous or next row, HOME to month 0, END to month 11, PAGE_UP and PAGE_DOWN a year (ten with Alt), each clamped and focused; ENTER selects the active month, switches to month view and focuses it; other keys change nothing; every key but ENTER keeps the view |
| DatepickerCalendar.Keydown | src/lib/datepicker/calendar.ts:201-210 | in month view the key goes to the month handler and otherwise to the year handler, and the result is well formed |
| DatepickerCalendar.UnhandledKeyChangesNothing | src/lib/datepicker/calendar.ts:268-270 | an unhandled key changes nothing and does not prevent the default action |
| DatepickerCalendar.KeydownKeepsActiveInBounds | src/lib/datepicker/calendar.ts:96-98 | with ordered bounds, every key leaves the active date within them |
| DatepickerCalendar.MonthViewMovesWithoutBounds | src/lib/datepicker/calendar.ts:230-250 | unbounded, LEFT is the previous day, RIGHT the next day, UP seven days back and DOWN seven days forward; opposite arrows undo each other; HOME goes to day 1, END to the month's last day |
| DatepickerCalendar.DayStepsUndo | src/lib/datepicker/calendar.ts:230-241 | unbounded, each arrow key moves by its day step (-1, +1, -7, +7) and the opposite arrow undoes it |
| DatepickerCalendar.MonthViewWeekSteps | src/lib/datepicker/calendar.ts:235-240 | unbounded, DOWN moves to the same weekday seven days later, within the month or into the next one, and UP seven days earlier, within the month or into the previous one |
| DatepickerCalendar.MonthViewHomeEnd | src/lib/datepicker/calendar.ts:242-250 | unbounded, HOME goes to the month's first day and END to its last |
| DatepickerCalendar.MonthViewPagingWithoutBounds | src/lib/datepicker/calendar.ts:251-260 | unbounded, PAGE_UP and PAGE_DOWN move one month, or one year with Alt |
| DatepickerCalendar.YearViewMovesWithoutBounds | src/lib/datepicker/calendar.ts:281-308 | unbounded, LEFT and RIGHT move a month, HOME goes to month 0, END to month 11, PAGE_UP and PAGE_DOWN move 1 year, or 10 with Alt |
| DatepickerCalendar.MonthViewEnterEmits | src/lib/datepicker/calendar.ts:261-267 | ENTER in month view emits the active date iff the filter accepts it and it is not already selected |
| InputContainer.SetType | src/lib/input/input-container.ts:193-203 | a falsy type becomes 'text'; the invalid types throw; a supported type is written to the native element unless it is a textarea |
| InputContainer.EmptyTypeIsText | src/lib/input/input-container.ts:194 | an unset or empty type is accepted as 'text' |
| InputContainer.NeverEmptyTypes | src/lib/input/input-container.ts:232-239 | the never-empty types are the six date/time candidates that the browser supports |
| InputContainer.FilterSupported | src/lib/input/input-container.ts:239 | filtering keeps exactly the supported types |
| InputContainer.Empty | src/lib/input/input-container.ts:223-230 | `empty` is false for never-empty types; otherwise true iff the value is null or '' and the input has no bad input |
| InputContainer.SetValue | src/lib/input/input-container.ts:215-220 | a new value is written and notified; the same value changes nothing |
| InputContainer.FocusChanged | src/lib/input/input-container.ts:304-309 | a new focus state is recorded and notified; the same state changes nothing |
| InputContainer.ChangesAreIdempotent | src/lib/input/input-container.ts:215-220 | repeating a value or focus change notifies nothing more |
| InputContainer.OnFocus | src/lib/input/input-container.ts:292-296 | a readonly input does not become focused by `_onFocus` |
| InputContainer.CountAlignPrefix | src/lib/input/input-container.ts:568-582 | hints seen so far never outnumber all hints of that alignment |
| InputContainer.ValidateHints | src/lib/input/input-container.ts:565-583 | no error iff at most one start hint, at most one end hint and no start hint beside a hint label; an error names the alignment that repeats |
| InputContainer.GetDisplayedMessages | src/lib/input/input-container.ts:537-541 | errors are shown iff there is an error child and the input is in error state |
| InputContainer.FindHint | src/lib/input/input-container.ts:594-597 | the found hint is the first with the alignment, and none is found iff no hint has it |
| InputContainer.CountZeroIffNone | src/lib/input/input-container.ts:568-582 | no hint of an alignment is counted iff none has it |
| InputContainer.DescribedByIds | src/lib/input/input-container.ts:589-614 | in hint mode the start hint's id, else the label id when the label is non-empty, then the end hint's id; in error mode every error id |
| InputContainer.ErrorIds | src/lib/input/input-container.ts:609-610 | the error ids in order |
| InputContainer.AriaDescribedby | src/lib/input/input-container.ts:613 | no ids give the empty attribute |
| InputContainer.AriaDescribedbySplitsIntoIds | src/lib/input/input-container.ts:613 | splitting the attribute on spaces gives back the listed ids |
| InputContainer.HintModeListsAtMostTwo | src/lib/input/input-container.ts:593-606 | in hint mode at most two ids are listed, and the label id only without a start hint |
| InputContainer.ValidatePlaceholders | src/lib/input/input-container.ts:547-551 | a placeholder attribute together with a placeholder child throws |
| InputContainer.HasPlaceholder | src/lib/input/input-container.ts:527-529 | there is a placeholder iff the attribute is truthy or a child exists |
| InputContainer.ValidPlaceholdersAreSingle | src/lib/input/input-container.ts:527-551 | a valid configuration with a placeholder has exactly one |
| InputContainer.SetFloatPlaceholder | src/lib/input/input-container.ts:455-460 | a different value is stored, a falsy one replaced by the global option or 'auto'; the same value changes nothing |
| InputContainer.NewContainer | src/lib/input/input-container.ts:473-479 | the container starts with the global float option or 'auto' |
| InputContainer.ShouldAlwaysFloat | src/lib/input/input-container.ts:432 | the placeholder always floats iff the setting is 'always' |
| InputContainer.CanPlaceholderFloat | src/lib/input/input-container.ts:435 | the placeholder can float iff the setting is not 'never' |
| InputContainer.AlwaysFloatCanFloat | src/lib/input/input-container.ts:432-435 | a placeholder that always floats can float |
| InputContainer.ValidateInputChild | src/lib/input/input-container.ts:619-623 | a container without an input child throws |
| SelectionList.Ids | src/lib/list/selection-list.ts:257-272 | the option ids are exactly the ids of the options |
| SelectionList.OptionDisabled | src/lib/list/selection-list.ts:104 | an option is disabled iff the list or the option itself is disabled |
| SelectionList.ToggleIn | src/lib/list/selection-list.ts:153 | the selection model toggles exactly the option's membership |
| SelectionList.Toggle | src/lib/list/selection-list.ts:151-155 | `toggle` flips the option's `selected`, toggles its membership in the model, and leaves other options alone |
| SelectionList.ToggleKeepsSynced | src/lib/list/selection-list.ts:151-155 | toggling keeps the model in step with the options' flags |
| SelectionList.ToggleTwice | src/lib/list/selection-list.ts:151-155 | toggling twice restores the list |
| SelectionList.HandleClick | src/lib/list/selection-list.ts:168-172 | clicking a disabled option does nothing and clicking an enabled one toggles it |
| SelectionList.OptionInit | src/lib/list/selection-list.ts:132-136 | an option marked selected is added to the model on init; others change nothing |
| SelectionList.OptionInitsSync | src/lib/list/selection-list.ts:132-136 | starting from an empty model, after every option's init the model holds exactly the ids of the selected options |
| SelectionList.InitAll | src/lib/list/selection-list.ts:132-136 | initialising options does not change them |
| SelectionList.AfterContentInit | src/lib/list/selection-list.ts:138-144 | a disabled list disables every option and takes the list out of the tab order |
| SelectionList.DisableAll | src/lib/list/selection-list.ts:141-143 | every option becomes disabled and is otherwise unchanged |
| SelectionList.SelectAll | src/lib/list/selection-list.ts:257-263 | after `selectAll` every option is selected and the model gains every id |
| SelectionList.DeselectAll | src/lib/list/selection-list.ts:266-272 | after `deselectAll` no option is selected and the model loses every id |
| SelectionList.SetSelected | src/lib/list/selection-list.ts:257-270 | only the option's flag changes, to the target value; the others are untouched |
| SelectionList.SetSelectedKeepsSynced | src/lib/list/selection-list.ts:257-270 | toggling an option whose flag differs keeps a synced list synced and adds or removes exactly its id |
| SelectionList.SetAll | src/lib/list/selection-list.ts:257-272 | the shared loop brings every flag to the target and adds or removes every id from the model |
| SelectionList.ToggleFocusedAsWritten | src/lib/list/selection-list.ts:320-330 | as written, the focused option is toggled when the index is valid, whether or not it is disabled |
| SelectionList.ToggleFocused | src/lib/list/selection-list.ts:320-330 | the focused option at a valid index is clicked, which respects `disabled`; an invalid index does nothing |
| SelectionList.KeydownAsWritten | src/lib/list/selection-list.ts:307-317 | SPACE toggles the focused option and prevents the default; other keys go to the key manager |
| SelectionList.Keydown | src/lib/list/selection-list.ts:307-317 | SPACE toggles the focused option when its index is valid and it is enabled, leaves the list alone when it is disabled or no valid option is focused, and prevents the default; other keys go to the key manager |
| SelectionList.SpaceTogglesDisabledOption | src/lib/list/selection-list.ts:320-330 | as written, SPACE selects a focused disabled option |
| SelectionList.SpaceRespectsDisabled | src/lib/list/selection-list.ts:168-172 | SPACE on a focused option acts as a click: a disabled option and the model stay unchanged, and an enabled one flips its `selected` flag and its membership in the model |
| SelectionList.SpaceKeepsSynced | src/lib/list/selection-list.ts:307-330 | SPACE keeps the model in step with the options' flags |
| SelectionList.IndexOfOption | src/lib/list/selection-list.ts:281 | the index is the first option with the id, or -1 iff none has it |
| SelectionList.OptionFocused | src/lib/list/selection-list.ts:293-302 | a focused option becomes the key manager's active item |
| SelectionList.OptionDestroyed | src/lib/list/selection-list.ts:278-291 | destroying an option that does not have focus changes nothing; when it has focus, focus moves to the same index if it was not last, else to the previous one |
| SelectionList.HandleFocus | src/lib/list/selection-list.ts:174-177 | focusing an option sets its focus flag and changes nothing else |
| SelectionList.HandleBlur | src/lib/list/selection-list.ts:179-181 | blurring an option changes no state, since only the CSS class is removed |
| SelectionList.FocusFlagSurvivesBlur | src/lib/list/selection-list.ts:174-181 | an option that was focused keeps its focus flag after a blur |
| SelectionList.IsValidIndex | src/lib/list/selection-list.ts:338-340 | an index is valid iff it is within the options |
| SelectionList.DestroyedFocusStaysInRange | src/lib/list/selection-list.ts:282-289 | after a focused option is destroyed, focus stays at its index, or moves to index-1 when it was last |
| ScrollDispatcher.Keys | src/cdk/scrolling/scroll-dispatcher.ts:41-45 | every registered scrollable is a key |
| ScrollDispatcher.Lookup | src/cdk/scrolling/scroll-dispatcher.ts:62 | a lookup finds the entry of a registered scrollable and nothing for an unknown one |
| ScrollDispatcher.MapSet | src/cdk/scrolling/scroll-dispatcher.ts:53 | setting an entry keeps keys unique, adds the key, overwrites its value and leaves every other entry alone; a new key goes last |
| ScrollDispatcher.MapDelete | src/cdk/scrolling/scroll-dispatcher.ts:64 | deleting drops the key, leaves every other entry alone, and is a no-op for an unknown key |
| ScrollDispatcher.Register | src/cdk/scrolling/scroll-dispatcher.ts:51-54 | `register` inserts or overwrites the scrollable's entry with a new subscription |
| ScrollDispatcher.Deregister | src/cdk/scrolling/scroll-dispatcher.ts:60-67 | `deregister` unsubscribes and removes the entry, and is a no-op for an unknown scrollable |
| ScrollDispatcher.RegisterThenDeregister | src/cdk/scrolling/scroll-dispatcher.ts:51-67 | registering a new scrollable and deregistering it restores the registry and the live subscriptions |
| ScrollDispatcher.Subscribe | src/cdk/scrolling/scroll-dispatcher.ts:74-98 | in a browser a subscription adds the global listener if absent and increments the count; outside one it touches nothing |
| ScrollDispatcher.Unsubscribe | src/cdk/scrolling/scroll-dispatcher.ts:89-95 | unsubscribing decrements the count and removes the global listener iff nothing is registered and the count reaches 0 |
| ScrollDispatcher.SubscribeUnsubscribeBalances | src/cdk/scrolling/scroll-dispatcher.ts:86-95 | with nothing registered and no subscriber, one subscription and its teardown leave the count as it was and no listener |
| ScrollDispatcher.RegisteredKeepsListener | src/cdk/scrolling/scroll-dispatcher.ts:92-95 | while a scrollable is registered, unsubscribing keeps the global listener |
| ScrollDispatcher.ScrollableContainsElement | src/cdk/scrolling/scroll-dispatcher.ts:114-125 | a scrollable contains an element iff its element is the element or one of its parent elements |
| ScrollDispatcher.ContainedElementIsDescendant | src/cdk/scrolling/scroll-dispatcher.ts:114-125 | a contained element is a DOM descendant of the scrollable's element |
| ScrollDispatcher.ContainersIn | src/cdk/scrolling/scroll-dispatcher.ts:101-111 | the containers of a list of entries are exactly the scrollables whose element is the element or a parent element of it |
| ScrollDispatcher.ContainersInOrder | src/cdk/scrolling/scroll-dispatcher.ts:104-108 | the containers of two runs of entries joined are those of the first run, then those of the second |
| ScrollDispatcher.GetScrollContainers | src/cdk/scrolling/scroll-dispatcher.ts:101-111 | the result is exactly the registered scrollables that contain the element, in registration order, as the reference definition lists them |
| MenuDirective.ParsePositionX | src/lib/menu/menu-directive.ts:86-91 | 'before' and 'after' are accepted and anything else throws |
| MenuDirective.ParsePositionY | src/lib/menu/menu-directive.ts:93-98 | 'above' and 'below' are accepted and anything else throws |
| MenuDirective.NewMenu | src/lib/menu/menu-directive.ts:35-45 | positions default to 'after' and 'below' when the attributes are absent or empty; given ones are validated |
| MenuDirective.ClassMap | src/lib/menu/menu-directive.ts:60-63 | the class map's keys are exactly the names, each mapped to true |
| MenuDirective.ClassList | src/lib/menu/menu-directive.ts:58-64 | the class map's keys are exactly the tokens of splitting on ' ', each mapped to true |
| MenuDirective.EmptyClassStringHasEmptyKey | src/lib/menu/menu-directive.ts:60 | an empty class string and doubled spaces give the empty class name |
| MenuDirective.ClassListOfJoinedNames | src/lib/menu/menu-directive.ts:58-64 | classes joined by single spaces come back as exactly those names |
| MenuDirective.FocusFirstItem | src/lib/menu/menu-directive.ts:73-77 | focusing the first item sets the focused index to 0 and fails without items |
| MenuTrigger.SetIsMenuOpen | src/lib/menu/menu-trigger.ts:140-143 | the open flag is set and the matching open or close event is emitted |
| MenuTrigger.CreateOverlay | src/lib/menu/menu-trigger.ts:159-164 | an overlay is created only when there is none |
| MenuTrigger.OpenMenu | src/lib/menu/menu-trigger.ts:70-77 | opening an open menu is a no-op; otherwise it attaches the overlay, subscribes the backdrop, emits the open event and focuses the first item after a keyboard open |
| MenuTrigger.CloseMenu | src/lib/menu/menu-trigger.ts:79-85 | closing acts only with an overlay: it detaches, emits the close event, returns focus after a keyboard open, and clears the keyboard flag |
| MenuTrigger.ToggleMenu | src/lib/menu/menu-trigger.ts:66-68 | toggling closes an open menu and opens a closed one |
| MenuTrigger.ToggleFlips | src/lib/menu/menu-trigger.ts:66-68 | toggling a consistent trigger flips the open state |
| MenuTrigger.OpenIsIdempotent | src/lib/menu/menu-trigger.ts:70-71 | opening twice is the same as opening once |
| MenuTrigger.OverlayCreatedOnce | src/lib/menu/menu-trigger.ts:159-164 | reopening reuses the existing overlay |
| MenuTrigger.DestroyMenu | src/lib/menu/menu-trigger.ts:87-96 | destroying drops the overlay, is safe without one, and keeps the open flag |
| MenuTrigger.DestroyedOpenMenuIsInert | src/lib/menu/menu-trigger.ts:87-96 | after destroying an open menu it stays marked open, and both opening and closing it do nothing |
| MenuTrigger.HandleKeydown | src/lib/menu/menu-trigger.ts:195-199 | only ENTER and SPACE mark the menu as opened from the keyboard |
| MenuTrigger.KeyboardOpenCloseFocus | src/lib/menu/menu-trigger.ts:118-137 | after a keyboard open the first item is focused; closing returns focus to the trigger and clears the flag |
| MenuTrigger.CheckMenu | src/lib/menu/menu-trigger.ts:149-153 | a trigger without a menu throws |
| MenuTrigger.GetPosition | src/lib/menu/menu-trigger.ts:183-192 | 'before' maps to end and otherwise start; 'above' maps to bottom and otherwise top |
| SnackBar.AttachComponentPortal | src/lib/snack-bar/snack-bar-container.ts:73-79 | attaching a component when one is attached throws; otherwise the content is attached |
| SnackBar.AttachTemplatePortal | src/lib/snack-bar/snack-bar-container.ts:82-84 | attaching a template portal always throws |
| SnackBar.Enter | src/lib/snack-bar/snack-bar-container.ts:104-106 | `enter` sets the state to visible and changes nothing else |
| SnackBar.Exit | src/lib/snack-bar/snack-bar-container.ts:87-90 | `exit` sets the state to complete and changes nothing else |
| SnackBar.MarkAsExited | src/lib/snack-bar/snack-bar-container.ts:93-101 | only a transition from visible to void or complete notifies exit, and only before the stream has completed |
| SnackBar.ExitNotifiesAtMostOnce | src/lib/snack-bar/snack-bar-container.ts:93-101 | every operation keeps the exit notification count at most one |
| SnackBar.EnterExitNotifiesOnce | src/lib/snack-bar/snack-bar-container.ts:63-106 | from the initial state, enter, exit and the finished animation notify exit exactly once |
| Platform.Detect | src/cdk/platform/platform.ts:39-78 | outside a browser every flag is false; BLINK excludes EDGE and TRIDENT; WEBKIT needs "AppleWebKit" and excludes the other engines; SAFARI implies WEBKIT; ANDROID excludes TRIDENT; IOS needs iPad, iPhone or iPod and no MSStream |
| Platform.EnginesExclusive | src/cdk/platform/platform.ts:50-57 | at most one of BLINK and WEBKIT holds, and neither together with EDGE or TRIDENT |
| Platform.LowerIdempotent | src/cdk/platform/platform.ts:43 | lower-casing twice is lower-casing once |
| Platform.CaseInsensitiveFlags | src/cdk/platform/platform.ts:43-68 | EDGE, TRIDENT and FIREFOX do not change when the user agent changes case |
| Platform.IOSIsCaseSensitive | src/cdk/platform/platform.ts:60-61 | "iPad" sets IOS but "ipad" does not |
| SliderTemplate.Slice | src/material/schematics/ng-generate/mdc-migration/rules/components/slider/slider-template.ts:83-84 | a slice is the substring between the offsets, and empty when they are reversed |
| SliderTemplate.GetUpdates | src/material/schematics/ng-generate/mdc-migration/rules/components/slider/slider-template.ts:35-49 | one update per `mat-slider` element, at its start offset, with an identity update function |
| SliderTemplate.NoSliderNoUpdate | src/material/schematics/ng-generate/mdc-migration/rules/components/slider/slider-template.ts:38-40 | a template without sliders produces no updates |
| SliderTemplate.UpdatesOfConcat | src/material/schematics/ng-generate/mdc-migration/rules/components/slider/slider-template.ts:35-49 | the updates of two element runs are the updates of each, in order |
| SliderTemplate.GetInputs | src/material/schematics/ng-generate/mdc-migration/rules/components/slider/slider-template.ts:93-107 | one input binding per bound attribute, keeping its name and its source text as value |
| SliderTemplate.GetOutputs | src/material/schematics/ng-generate/mdc-migration/rules/components/slider/slider-template.ts:77-91 | one output binding per bound event, keeping its name and its handler text as value |
| SliderTemplate.GetAttributes | src/material/schematics/ng-generate/mdc-migration/rules/components/slider/slider-template.ts:110-117 | one attribute binding per text attribute, with name and value unchanged |
| SliderTemplate.GetTwoWayBindings | src/material/schematics/ng-generate/mdc-migration/rules/components/slider/slider-template.ts:71-75 | the two-way bindings are exactly the inputs named like some output, retyped with the other fields copied |
| SliderTemplate.WithoutNames | src/material/schematics/ng-generate/mdc-migration/rules/components/slider/slider-template.ts:62-65 | filtering keeps exactly the bindings whose name is not a two-way name |
| SliderTemplate.TwoWayNames | src/material/schematics/ng-generate/mdc-migration/rules/components/slider/slider-template.ts:71-75 | a name is two-way iff it is both an input and an output name |
| SliderTemplate.GroupBindings | src/material/schematics/ng-generate/mdc-migration/rules/components/slider/slider-template.ts:52-68 | the groups hold the inputs and outputs that are not two-way, the attributes, and the two-way bindings, each of its own type |
| SliderTemplate.GetBindings | src/material/schematics/ng-generate/mdc-migration/rules/components/slider/slider-template.ts:52-68 | the result lists inputs, then outputs, then attributes, then two-way bindings, each group in its own order |
| SliderTemplate.BindingsClassified | src/material/schematics/ng-generate/mdc-migration/rules/components/slider/slider-template.ts:60-67 | no plain input or output in the result has a two-way name, and every two-way binding is present |
| ComponentWalker.Dedup | src/lib/schematics/update/tslint/component-walker.ts:35 | the set holds exactly the given paths, each once, ordered by where each first occurs |
| ComponentWalker.NewWalker | src/lib/schematics/update/tslint/component-walker.ts:32-36 | the extra files are exactly the resolved given paths, each once |
| ComponentWalker.FindMetadata | src/lib/schematics/update/tslint/component-walker.ts:154-162 | an object literal is the metadata, parentheses are looked through, and any other expression has none |
| ComponentWalker.MetadataThroughParentheses | src/lib/schematics/update/tslint/component-walker.ts:154-162 | any number of parentheses around an object literal still yields its properties, and around anything else yields nothing |
| ComponentWalker.ReportResource | src/lib/schematics/update/tslint/component-walker.ts:85-103 | an extra file is skipped, a missing file is reported as not found, and an existing one is visited |
| ComponentWalker.InlineStyles | src/lib/schematics/update/tslint/component-walker.ts:105-111 | every string element of `styles`, and nothing else, becomes an inline stylesheet |
| ComponentWalker.InlineStylesInOrder | src/lib/schematics/update/tslint/component-walker.ts:105-111 | the visits of an array are those of each element in turn: one inline stylesheet per string element, none for another |
| ComponentWalker.ExternalStyles | src/lib/schematics/update/tslint/component-walker.ts:113-131 | every report comes from a string element of `styleUrls`, resolved against the file; every such element that is not an extra file is reported as not found or visited, as it exists |
| ComponentWalker.ExternalStylesInOrder | src/lib/schematics/update/tslint/component-walker.ts:113-131 | the reports of two runs of elements joined are the reports of each run, in order |
| ComponentWalker.ExternalStylesOfOne | src/lib/schematics/update/tslint/component-walker.ts:113-131 | a one-element array is reported as its element alone |
| ComponentWalker.PropertyVisits | src/lib/schematics/update/tslint/component-walker.ts:64-82 | `template` and `templateUrl` act only on string literals, `styles` and `styleUrls` only on array literals, and any other property does nothing |
| ComponentWalker.VisitDirectiveCall | src/lib/schematics/update/tslint/component-walker.ts:51-83 | a call with other than one argument, or without object-literal metadata, is ignored; otherwise its properties are visited in order |
| ComponentWalker.VisitCall | src/lib/schematics/update/tslint/component-walker.ts:38-49 | only calls named `Component` or `Directive` are inspected |
| ComponentWalker.ExternalStylesRespect | src/lib/schematics/update/tslint/component-walker.ts:118-127 | a visited stylesheet exists and is not an extra file; a missing one is not an extra file |
| ComponentWalker.PropertiesRespect | src/lib/schematics/update/tslint/component-walker.ts:64-82 | every resource a metadata object leads to respects the extra files and the file system |
| ComponentWalker.Walk | src/lib/schematics/update/tslint/component-walker.ts:38-49 | the visits of a file are the visits of its calls: each call's visits occur, and nothing else does |
| ComponentWalker.WalkInOrder | src/lib/schematics/update/tslint/component-walker.ts:38-49 | the visits of two runs of calls joined are those of the first run, then those of the second |
| ComponentWalker.WalkRespectsFiles | src/lib/schematics/update/tslint/component-walker.ts:88-97 | over a whole file, extra files are never reported through `templateUrl` or `styleUrls`, a visited file exists, and a not-found report names a missing file |
| ComponentWalker.MissingResourcesReported | src/lib/schematics/update/tslint/component-walker.ts:64-82 | a `templateUrl` or `styleUrls` entry of a decorator that names a missing file that is not an extra file makes the walk report it as not found |
| ComponentWalker.OtherCallsIgnored | src/lib/schematics/update/tslint/component-walker.ts:43-45 | a file without `Component` or `Directive` calls produces nothing |
| ComponentWalker.ReportFiles | src/lib/schematics/update/tslint/component-walker.ts:133-138 | files are read and visited in order until the first missing one, whose read throws; no throw iff every file exists |
| ComponentWalker.ReportExtraStylesheetFiles | src/lib/schematics/update/tslint/component-walker.ts:143-145 | the extra files are visited as stylesheets in set order, and reading a missing one throws and stops the report |
| ComponentWalker.ExtraFilesReportedOnce | src/lib/schematics/update/tslint/component-walker.ts:32-36 | no extra file is visited twice |
| PaginatorIntl.AmountPages | src/components-examples/material/legacy-paginator/legacy-paginator-intl/legacy-paginator-intl-example.ts:24 | the page count times the page size covers the length and one page fewer does not; a zero page size gives Infinity |
| PaginatorIntl.AmountPagesIsLeast | src/components-examples/material/legacy-paginator/legacy-paginator-intl/legacy-paginator-intl-example.ts:24 | the ceiling is the only count with that property |
| PaginatorIntl.GetRangeLabel | src/components-examples/material/legacy-paginator/legacy-paginator-intl/legacy-paginator-intl-example.ts:20-26 | an empty list is "Page 1 of 1"; otherwise the label shows page+1 and the page count |
| PaginatorIntl.LabelPartsDetermined | src/components-examples/material/legacy-paginator/legacy-paginator-intl/legacy-paginator-intl-example.ts:25 | the "Page x of y" form is unambiguous for decimal page numbers |
| PaginatorIntl.LabelDeterminesPage | src/components-examples/material/legacy-paginator/legacy-paginator-intl/legacy-paginator-intl-example.ts:25 | different pages of a non-empty list never share a label |
| PaginatorIntl.LabelDeterminesCount | src/components-examples/material/legacy-paginator/legacy-paginator-intl/legacy-paginator-intl-example.ts:24-25 | the label of a non-empty list tells the page count back |
| Strings.Split | src/lib/menu/menu-directive.ts:60 | `split(' ')` yields at least one piece, and no piece contains the separator |
| Strings.SplitJoin | src/lib/input/input-container.ts:613 | splitting ids joined by a separator they do not contain gives back the ids |
| Strings.NatToString | src/components-examples/material/legacy-paginator/legacy-paginator-intl/legacy-paginator-intl-example.ts:25 | a number renders as a non-empty string of decimal digits |
| Strings.ParseNatToString | src/components-examples/material/legacy-paginator/legacy-paginator-intl/legacy-paginator-intl-example.ts:25 | parsing a rendered number gives the number back |
| Strings.NatToStringInjective | src/components-examples/material/legacy-paginator/legacy-paginator-intl/legacy-paginator-intl-example.ts:25 | different numbers render differently |
| Strings.ContainsIsOccurs | src/cdk/platform/platform.ts:43 | the substring search answers true iff the pattern occurs at some position |

## Left out

- Rendering and change detection are not modelled: view containers, embedded views, the `IterableDiffer` behind `renderRows`, `_renderUpdatedColumns`, `markForCheck`, `NgZone`. Only the decisions that feed them are.
- rxjs plumbing is not modelled. Subscriptions are counters or flags, and `takeUntil`/`switchMap` chains are left out.
- `FocusKeyManager` and `SelectionModel` are not modelled. Their code is not part of this model, so each becomes a field: the active index, and the set of selected option ids.
- The `DateAdapter` is not part of this model. `CalendarDate` stands in for the native adapter's proleptic Gregorian semantics; the JavaScript `Date` range limits are not modelled.
- Geometry and floating point are not modelled: `getBoundingClientRect`, parsing of transition durations and their timeout, and the pointer position inside an element. They enter as parameters; coordinates are integers.
- Selector matching is not modelled. It is a given set of matching nodes; DOM mutation on drag start and drop (`replaceChild`, `appendChild`) is recorded only as detached nodes.
- ComponentWalker.VisitDirectiveCall: only `name: value` members of the metadata object are modelled. The source casts every member to a property assignment, so a spread member (`...base`) throws when its name is read, and a shorthand or method member named `template`, `templateUrl`, `styles` or `styleUrls` throws when its missing initializer is inspected. The model has no such members and states nothing about that throw.
- In the component walker, TypeScript and TSLint AST traversal is reduced to the ordered list of call expressions in the file. Path resolution and file existence are parameters. Reading a file is modelled only as far as whether it throws; file contents and `createComponentFile` are not modelled.
- Slider template updates assume the template parser's element visit order. Parsing and tree traversal are not part of this model.
- `$localize` is not modelled: the paginator labels are the untranslated strings.
- CdkTable.AfterContentChecked: the column-change re-render of `_renderUpdatedColumns` is not modelled, because it depends on the external differ.
- ScrollDispatcher.Register: overwriting a registered scrollable keeps the old subscription live, as the source does. The model records it but states nothing more about it.
- MenuTrigger.DestroyMenu: a menu destroyed while open stays marked open, as the source leaves `_menuOpen` untouched.
- PaginatorIntl.GetRangeLabel: pages, page sizes and lengths are natural numbers. Negative and fractional values, which JavaScript would render as "-1" or "2.5", are not modelled.
- MenuTrigger.OpenMenu: the trigger calls `menu.focusFirstItem()` while the menu directive defines `_focusFirstItem`. The model follows the directive's behaviour and counts the focus request.

## Findings

| source | as written | input that shows it | evidently intended | confidence | as-written member | corrected member |
|---|---|---|---|---|---|---|
| src/cdk-experimental/drag-drop/drag.ts:185-227 | `_hasMoved` is set on the first pointer move and never cleared by the next `_pointerDown` | drag inside a container and move, drop, then press again and release without moving: the drop still waits for an animation | each drag gesture starts with `_hasMoved` false, so a release without movement resolves the drop at once (line 433-435) | medium, not executed | DragSession.MovedFlagSurvivesNewPress | DragSession.UnmovedReleaseResolvesImmediately |
| src/lib/list/selection-list.ts:320-330 | SPACE calls `toggle()` on the focused option without checking `disabled` | a list with one disabled, unselected option focused by the key manager; press SPACE: it becomes selected | SPACE respects `disabled` as a click does (lines 168-172) | medium, not executed | SelectionList.SpaceTogglesDisabledOption | SelectionList.SpaceRespectsDisabled |

=== FILE: calendar.dfy ===
/** The datepicker calendar (`MdCalendar`) as a state machine: the
    clamped active date, month/year view, selection events, the previous
    and next buttons, and keyboard navigation in both views. The date
    adapter is the Gregorian arithmetic of `CalendarDate`. */
module DatepickerCalendar {
  import opened Wrappers
  import opened CalendarDate

  const ENTER := 13
  const PAGE_UP := 33
  const PAGE_DOWN := 34
  const END := 35
  const HOME := 36
  const LEFT_ARROW := 37
  const UP_ARROW := 38
  const RIGHT_ARROW := 39
  const DOWN_ARROW := 40

  datatype StartView = MonthStart | YearStart

  /** Calendar state; `emitted` lists the `selectedChange` events in
      order and `focusRequests` counts calls of `_focusActiveCell`. */
  datatype Calendar = Calendar(
    activeDate: Date,
    monthView: bool,
    selected: Option<Date>,
    minDate: Option<Date>,
    maxDate: Option<Date>,
    dateFilter: Option<Date -> bool>,
    emitted: seq<Date>,
    focusRequests: nat)

  /** All dates in the state are real calendar dates. */
  ghost predicate Wellformed(c: Calendar)
  {
    c.activeDate.Valid() && (c.minDate.Some? ==> c.minDate.value.Valid()) && (c.maxDate.Some? ==> c.maxDate.value.Valid())
  }

  /** No minimum after the maximum. */
  predicate BoundsOrdered(c: Calendar)
  {
    c.minDate.None? || c.maxDate.None? || CompareDate(c.minDate.value, c.maxDate.value) <= 0
  }

  /** `d` is not before the minimum and not after the maximum. */
  predicate InBounds(c: Calendar, d: Date)
  {
    && (c.minDate.None? || CompareDate(c.minDate.value, d) <= 0)
    && (c.maxDate.None? || CompareDate(d, c.maxDate.value) <= 0)
  }

  /** The `_activeDate` setter: the stored date is clamped to the bounds. */
  function SetActiveDate(c: Calendar, d: Date): (r: Calendar)
    requires Wellformed(c) && d.Valid()
    ensures Wellformed(r)
    ensures BoundsOrdered(c) ==> InBounds(r, r.activeDate)
    ensures InBounds(c, d) ==> r.activeDate == d
    ensures r == c.(activeDate := r.activeDate)
  {
    c.(activeDate := ClampDate(d, c.minDate, c.maxDate))
  }

  /** `_dateFilterForViews`: present, accepted by the user filter if one
      is set, not before the minimum and not after the maximum. */
  predicate DateFilterForViews(c: Calendar, date: Option<Date>)
  {
    && date.Some?
    && (c.dateFilter.None? || c.dateFilter.value(date.value))
    && (c.minDate.None? || CompareDate(date.value, c.minDate.value) >= 0)
    && (c.maxDate.None? || CompareDate(date.value, c.maxDate.value) <= 0)
  }

  /** A selectable date is one the active-date clamp leaves alone. */
  lemma SelectableIsFixedByClamp(c: Calendar, d: Date)
    requires Wellformed(c) && d.Valid() && DateFilterForViews(c, Some(d))
    ensures SetActiveDate(c, d).activeDate == d
  {
    if c.minDate.Some? { CompareAntisymmetric(d, c.minDate.value); }
  }

  /** `ngAfterContentInit`: start at `startAt`, else today; month view
      unless the start view is the year view. */
  function AfterContentInit(c: Calendar, startAt: Option<Date>, today: Date, startView: StartView): (r: Calendar)
    requires Wellformed(c) && today.Valid() && (startAt.Some? ==> startAt.value.Valid())
    ensures Wellformed(r)
    ensures r.monthView <==> startView == MonthStart
    ensures BoundsOrdered(c) ==> InBounds(r, r.activeDate)
    ensures startAt.Some? && InBounds(c, startAt.value) ==> r.activeDate == startAt.value
    ensures startAt.None? && InBounds(c, today) ==> r.activeDate == today
    ensures r.focusRequests == c.focusRequests + 1 && r.emitted == c.emitted
  {
    var a := SetActiveDate(c, startAt.OrElse(Some(today)).value);
    a.(focusRequests := a.focusRequests + 1, monthView := startView != YearStart)
  }

  /** `_dateSelected`: emit the date unless it is the current selection. */
  function DateSelected(c: Calendar, date: Date): (r: Calendar)
    ensures r.emitted == c.emitted + [date] || r.emitted == c.emitted
    ensures |r.emitted| == |c.emitted| + 1 <==> c.selected != Some(date)
    ensures r == c.(emitted := r.emitted)
  {
    if !SameDate(Some(date), c.selected) then c.(emitted := c.emitted + [date]) else c
  }

  /** `_monthSelected`: make the month active and show the month view. */
  function MonthSelected(c: Calendar, month: Date): (r: Calendar)
    requires Wellformed(c) && month.Valid()
    ensures Wellformed(r) && r.monthView
    ensures InBounds(c, month) ==> r.activeDate == month
    ensures r.emitted == c.emitted && r.selected == c.selected
  {
    SetActiveDate(c, month).(monthView := true)
  }

  /** `_currentPeriodClicked`. */
  function CurrentPeriodClicked(c: Calendar): (r: Calendar)
    ensures r.monthView == !c.monthView
    ensures r.(monthView := c.monthView) == c
  {
    c.(monthView := !c.monthView)
  }

  /** `_previousClicked`: one month back in month view, one year back in
      year view. */
  function PreviousClicked(c: Calendar): (r: Calendar)
    requires Wellformed(c)
    ensures Wellformed(r)
    ensures BoundsOrdered(c) ==> InBounds(r, r.activeDate)
    ensures r == c.(activeDate := r.activeDate)
    ensures c.monthView ==> r.activeDate == ClampDate(AddCalendarMonths(c.activeDate, -1), c.minDate, c.maxDate)
    ensures !c.monthView ==> r.activeDate == ClampDate(AddCalendarYears(c.activeDate, -1), c.minDate, c.maxDate)
    ensures c.monthView && InBounds(c, AddCalendarMonths(c.activeDate, -1)) ==>
              r.activeDate.MonthIndex() == c.activeDate.MonthIndex() - 1
    ensures !c.monthView && InBounds(c, AddCalendarYears(c.activeDate, -1)) ==>
              r.activeDate.year == c.activeDate.year - 1 && r.activeDate.month == c.activeDate.month
  {
    SetActiveDate(c, if c.monthView then AddCalendarMonths(c.activeDate, -1) else AddCalendarYears(c.activeDate, -1))
  }

  /** `_nextClicked`: one month forward in month view, one year forward in
      year view. */
  function NextClicked(c: Calendar): (r: Calendar)
    requires Wellformed(c)
    ensures Wellformed(r)
    ensures BoundsOrdered(c) ==> InBounds(r, r.activeDate)
    ensures r == c.(activeDate := r.activeDate)
    ensures c.monthView ==> r.activeDate == ClampDate(AddCalendarMonths(c.activeDate, 1), c.minDate, c.maxDate)
    ensures !c.monthView ==> r.activeDate == ClampDate(AddCalendarYears(c.activeDate, 1), c.minDate, c.maxDate)
    ensures c.monthView && InBounds(c, AddCalendarMonths(c.activeDate, 1)) ==>
              r.activeDate.MonthIndex() == c.activeDate.MonthIndex() + 1
    ensures !c.monthView && InBounds(c, AddCalendarYears(c.activeDate, 1)) ==>
              r.activeDate.year == c.activeDate.year + 1 && r.activeDate.month == c.activeDate.month
  {
    SetActiveDate(c, if c.monthView then AddCalendarMonths(c.activeDate, 1) else AddCalendarYears(c.activeDate, 1))
  }

  /** `_isSameView`: same year and month in month view, same year in year
      view. */
  function IsSameView(c: Calendar, a: Date, b: Date): (r: bool)
    ensures c.monthView ==> (r <==> a.MonthIndex() == b.MonthIndex()) || !(0 <= a.month < 12 && 0 <= b.month < 12)
    ensures !c.monthView ==> (r <==> a.year == b.year)
  {
    if c.monthView then a.year == b.year && a.month == b.month else a.year == b.year
  }

  /** `_previousEnabled`. */
  function PreviousEnabled(c: Calendar): (r: bool)
    ensures r <==> c.minDate.None? || !IsSameView(c, c.activeDate, c.minDate.value)
  {
    if c.minDate.None? then true else !IsSameView(c, c.activeDate, c.minDate.value)
  }

  /** `_nextEnabled`. */
  function NextEnabled(c: Calendar): (r: bool)
    ensures r <==> c.maxDate.None? || !IsSameView(c, c.activeDate, c.maxDate.value)
  {
    c.maxDate.None? || !IsSameView(c, c.activeDate, c.maxDate.value)
  }

  /** A date in an earlier month compares before any date of a later one. */
  lemma EarlierMonthIsBefore(a: Date, b: Date)
    requires a.Valid() && b.Valid() && a.MonthIndex() < b.MonthIndex()
    ensures CompareDate(a, b) < 0
  {
  }

  /** A disabled previous button means the previous period lies wholly
      before the minimum: clicking it anyway lands on the minimum. */
  lemma PreviousDisabledLandsOnMin(c: Calendar)
    requires Wellformed(c) && !PreviousEnabled(c)
    ensures PreviousClicked(c).activeDate == c.minDate.value
  {
    var target := if c.monthView then AddCalendarMonths(c.activeDate, -1) else AddCalendarYears(c.activeDate, -1);
    if c.monthView {
      EarlierMonthIsBefore(target, c.minDate.value);
    }
  }

  /** A disabled next button means the next period lies wholly after the
      maximum: clicking it anyway from a date not before the minimum lands
      on the maximum. */
  lemma NextDisabledLandsOnMax(c: Calendar)
    requires Wellformed(c) && !NextEnabled(c)
    requires c.minDate.Some? ==> CompareDate(c.minDate.value, c.activeDate) <= 0
    ensures NextClicked(c).activeDate == c.maxDate.value
  {
    var target := if c.monthView then AddCalendarMonths(c.activeDate, 1) else AddCalendarYears(c.activeDate, 1);
    EarlierMonthIsBefore(c.maxDate.value, target);
    CompareAntisymmetric(c.maxDate.value, target);
    EarlierMonthIsBefore(c.activeDate, target);
    if c.minDate.Some? {
      CompareTransitive(c.minDate.value, c.activeDate, target);
      CompareAntisymmetric(c.minDate.value, target);
    }
  }

  /** `_prevMonthInSameCol`: the month above in the four-column year
      table, whose first row starts with two empty cells. */
  function PrevMonthInSameCol(d: Date): (r: Date)
    requires d.Valid()
    ensures r.Valid()
    ensures d.month <= 4 ==> r.MonthIndex() == d.MonthIndex() - 5
    ensures d.month >= 7 ==> r.MonthIndex() == d.MonthIndex() - 7
    ensures 4 < d.month < 7 ==> r.MonthIndex() == d.MonthIndex() - 12
  {
    var increment := if d.month <= 4 then -5 else if d.month >= 7 then -7 else -12;
    AddCalendarMonths(d, increment)
  }

  /** `_nextMonthInSameCol`: the month below in the same column. */
  function NextMonthInSameCol(d: Date): (r: Date)
    requires d.Valid()
    ensures r.Valid()
    ensures d.month <= 4 ==> r.MonthIndex() == d.MonthIndex() + 7
    ensures d.month >= 7 ==> r.MonthIndex() == d.MonthIndex() + 5
    ensures 4 < d.month < 7 ==> r.MonthIndex() == d.MonthIndex() + 12
  {
    var increment := if d.month <= 4 then 7 else if d.month >= 7 then 5 else 12;
    AddCalendarMonths(d, increment)
  }

  /** Up then down, or down then up, in the year table returns to the
      same month. */
  lemma SameColumnRoundTrip(d: Date)
    requires d.Valid()
    ensures NextMonthInSameCol(PrevMonthInSameCol(d)).MonthIndex() == d.MonthIndex()
    ensures PrevMonthInSameCol(NextMonthInSameCol(d)).MonthIndex() == d.MonthIndex()
  {
    var up := PrevMonthInSameCol(d);
    var down := NextMonthInSameCol(d);
    if d.month <= 4 {
      MonthIndexSplit(up, d.year - 1, d.month + 7);
      MonthIndexSplit(down, d.year, d.month + 7);
    } else if d.month >= 7 {
      MonthIndexSplit(up, d.year, d.month - 7);
      MonthIndexSplit(down, d.year + 1, d.month - 7);
    } else {
      MonthIndexSplit(up, d.year - 1, d.month);
      MonthIndexSplit(down, d.year + 1, d.month);
    }
  }

  /** The year and month of a date are determined by its month index. */
  lemma MonthIndexSplit(x: Date, year: int, month: int)
    requires 0 <= x.month < 12 && 0 <= month < 12 && x.MonthIndex() == year * 12 + month
    ensures x.year == year && x.month == month
  {
  }

  /** The outcome of a keydown: the new state and whether the event's
      default action was prevented. */
  datatype KeyOutcome = KeyOutcome(cal: Calendar, preventDefault: bool)

  /** Handled keys move the active date, then focus it and prevent the
      default action. */
  function Moved(c: Calendar, target: Date): (r: KeyOutcome)
    requires Wellformed(c) && target.Valid()
    ensures Wellformed(r.cal) && r.preventDefault
    ensures BoundsOrdered(c) ==> InBounds(r.cal, r.cal.activeDate)
    ensures InBounds(c, target) ==> r.cal.activeDate == target
    ensures r.cal.focusRequests == c.focusRequests + 1
    ensures r.cal.emitted == c.emitted && r.cal.monthView == c.monthView
  {
    var a := SetActiveDate(c, target);
    KeyOutcome(a.(focusRequests := a.focusRequests + 1), true)
  }

  /** `_handleCalendarBodyKeydownInMonthView`. */
  function MonthViewKeydown(c: Calendar, keyCode: int, altKey: bool): (r: KeyOutcome)
    requires Wellformed(c)
    ensures Wellformed(r.cal)
    ensures r.cal.monthView == c.monthView
    ensures keyCode == ENTER ==> r.cal.activeDate == c.activeDate && r.cal.focusRequests == c.focusRequests
    ensures keyCode == ENTER ==> (r.preventDefault <==> DateFilterForViews(c, Some(c.activeDate)))
    ensures keyCode == ENTER && DateFilterForViews(c, Some(c.activeDate)) ==> r.cal == DateSelected(c, c.activeDate)
    ensures keyCode == ENTER && !DateFilterForViews(c, Some(c.activeDate)) ==> r.cal == c
    ensures keyCode == LEFT_ARROW ==> r == Moved(c, PrevDay(c.activeDate))
    ensures keyCode == RIGHT_ARROW ==> r == Moved(c, NextDay(c.activeDate))
    ensures keyCode == UP_ARROW ==> r == Moved(c, AddCalendarDays(c.activeDate, -7))
    ensures keyCode == DOWN_ARROW ==> r == Moved(c, AddCalendarDays(c.activeDate, 7))
    ensures keyCode == HOME ==> r == Moved(c, c.activeDate.(day := 1))
    ensures keyCode == END ==> r == Moved(c, c.activeDate.(day := DaysInMonth(c.activeDate.year, c.activeDate.month)))
    ensures keyCode == PAGE_UP ==>
              r == Moved(c, if altKey then AddCalendarYears(c.activeDate, -1) else AddCalendarMonths(c.activeDate, -1))
    ensures keyCode == PAGE_DOWN ==>
              r == Moved(c, if altKey then AddCalendarYears(c.activeDate, 1) else AddCalendarMonths(c.activeDate, 1))
    ensures !HandledKey(keyCode) ==> r == KeyOutcome(c, false)
  {
    var a := c.activeDate;
    AddDaysBackWithinMonth(a, a.day - 1);
    AddDaysForwardWithinMonth(a, DaysInMonth(a.year, a.month) - a.day);
    if keyCode == LEFT_ARROW then Moved(c, AddCalendarDays(a, -1))
    else if keyCode == RIGHT_ARROW then Moved(c, AddCalendarDays(a, 1))
    else if keyCode == UP_ARROW then Moved(c, AddCalendarDays(a, -7))
    else if keyCode == DOWN_ARROW then Moved(c, AddCalendarDays(a, 7))
    else if keyCode == HOME then Moved(c, AddCalendarDays(a, 1 - a.day))
    else if keyCode == END then Moved(c, AddCalendarDays(a, DaysInMonth(a.year, a.month) - a.day))
    else if keyCode == PAGE_UP then Moved(c, if altKey then AddCalendarYears(a, -1) else AddCalendarMonths(a, -1))
    else if keyCode == PAGE_DOWN then Moved(c, if altKey then AddCalendarYears(a, 1) else AddCalendarMonths(a, 1))
    else if keyCode == ENTER then
      if DateFilterForViews(c, Some(a)) then KeyOutcome(DateSelected(c, a), true) else KeyOutcome(c, false)
    else KeyOutcome(c, false)
  }

  /** `_handleCalendarBodyKeydownInYearView`. */
  function YearViewKeydown(c: Calendar, keyCode: int, altKey: bool): (r: KeyOutcome)
    requires Wellformed(c)
    ensures Wellformed(r.cal)
    ensures keyCode == ENTER ==> r.preventDefault && r.cal.monthView && r.cal.focusRequests == c.focusRequests + 1
    ensures keyCode == ENTER && InBounds(c, c.activeDate) ==> r.cal.activeDate == c.activeDate
    ensures keyCode != ENTER ==> r.cal.monthView == c.monthView
    ensures keyCode == LEFT_ARROW ==> r == Moved(c, AddCalendarMonths(c.activeDate, -1))
    ensures keyCode == RIGHT_ARROW ==> r == Moved(c, AddCalendarMonths(c.activeDate, 1))
    ensures keyCode == UP_ARROW ==> r == Moved(c, PrevMonthInSameCol(c.activeDate))
    ensures keyCode == DOWN_ARROW ==> r == Moved(c, NextMonthInSameCol(c.activeDate))
    ensures keyCode == HOME ==> r == Moved(c, AddCalendarMonths(c.activeDate, -c.activeDate.month))
    ensures keyCode == END ==> r == Moved(c, AddCalendarMonths(c.activeDate, 11 - c.activeDate.month))
    ensures keyCode == PAGE_UP ==> r == Moved(c, AddCalendarYears(c.activeDate, if altKey then -10 else -1))
    ensures keyCode == PAGE_DOWN ==> r == Moved(c, AddCalendarYears(c.activeDate, if altKey then 10 else 1))
    ensures keyCode == ENTER ==> r.cal == MonthSelected(c, c.activeDate).(focusRequests := c.focusRequests + 1)
    ensures !HandledKey(keyCode) ==> r == KeyOutcome(c, false)
  {
    var a := c.activeDate;
    if keyCode == LEFT_ARROW then Moved(c, AddCalendarMonths(a, -1))
    else if keyCode == RIGHT_ARROW then Moved(c, AddCalendarMonths(a, 1))
    else if keyCode == UP_ARROW then Moved(c, PrevMonthInSameCol(a))
    else if keyCode == DOWN_ARROW then Moved(c, NextMonthInSameCol(a))
    else if keyCode == HOME then Moved(c, AddCalendarMonths(a, -a.month))
    else if keyCode == END then Moved(c, AddCalendarMonths(a, 11 - a.month))
    else if keyCode == PAGE_UP then Moved(c, AddCalendarYears(a, if altKey then -10 else -1))
    else if keyCode == PAGE_DOWN then Moved(c, AddCalendarYears(a, if altKey then 10 else 1))
    else if keyCode == ENTER then
      var m := MonthSelected(c, a);
      KeyOutcome(m.(focusRequests := m.focusRequests + 1), true)
    else KeyOutcome(c, false)
  }

  /** `_handleCalendarBodyKeydown`: dispatch on the current view. */
  function Keydown(c: Calendar, keyCode: int, altKey: bool): (r: KeyOutcome)
    requires Wellformed(c)
    ensures Wellformed(r.cal)
    ensures c.monthView ==> r == MonthViewKeydown(c, keyCode, altKey)
    ensures !c.monthView ==> r == YearViewKeydown(c, keyCode, altKey)
  {
    if c.monthView then MonthViewKeydown(c, keyCode, altKey) else YearViewKeydown(c, keyCode, altKey)
  }

  predicate HandledKey(keyCode: int)
  {
    keyCode in {ENTER, PAGE_UP, PAGE_DOWN, END, HOME, LEFT_ARROW, UP_ARROW, RIGHT_ARROW, DOWN_ARROW}
  }

  /** Keys neither view handles change nothing and keep the default
      action. */
  lemma UnhandledKeyChangesNothing(c: Calendar, keyCode: int, altKey: bool)
    requires Wellformed(c) && !HandledKey(keyCode)
    ensures Keydown(c, keyCode, altKey) == KeyOutcome(c, false)
  {
  }

  /** Every key keeps an in-bounds active date in bounds. */
  lemma KeydownKeepsActiveInBounds(c: Calendar, keyCode: int, altKey: bool)
    requires Wellformed(c) && BoundsOrdered(c) && InBounds(c, c.activeDate)
    ensures InBounds(Keydown(c, keyCode, altKey).cal, Keydown(c, keyCode, altKey).cal.activeDate)
  {
  }

  /** Without bounds, the month view's arrow keys move by one day and one
      week, and HOME and END reach the first and last day of the month. */
  lemma MonthViewMovesWithoutBounds(c: Calendar, altKey: bool)
    requires Wellformed(c) && c.monthView && c.minDate.None? && c.maxDate.None?
    ensures Keydown(Keydown(c, LEFT_ARROW, altKey).cal, RIGHT_ARROW, altKey).cal.activeDate == c.activeDate
    ensures Keydown(Keydown(c, RIGHT_ARROW, altKey).cal, LEFT_ARROW, altKey).cal.activeDate == c.activeDate
    ensures Keydown(Keydown(c, UP_ARROW, altKey).cal, DOWN_ARROW, altKey).cal.activeDate == c.activeDate
    ensures Keydown(Keydown(c, DOWN_ARROW, altKey).cal, UP_ARROW, altKey).cal.activeDate == c.activeDate
    ensures Keydown(c, HOME, altKey).cal.activeDate == c.activeDate.(day := 1)
    ensures Keydown(c, END, altKey).cal.activeDate == c.activeDate.(day := DaysInMonth(c.activeDate.year, c.activeDate.month))
    ensures Keydown(c, LEFT_ARROW, altKey).cal.activeDate == PrevDay(c.activeDate)
    ensures Keydown(c, RIGHT_ARROW, altKey).cal.activeDate == NextDay(c.activeDate)
    ensures Keydown(c, UP_ARROW, altKey).cal.activeDate == AddCalendarDays(c.activeDate, -7)
    ensures Keydown(c, DOWN_ARROW, altKey).cal.activeDate == AddCalendarDays(c.activeDate, 7)
  {
    DayStepsUndo(c, altKey, LEFT_ARROW, RIGHT_ARROW, -1);
    DayStepsUndo(c, altKey, RIGHT_ARROW, LEFT_ARROW, 1);
    DayStepsUndo(c, altKey, UP_ARROW, DOWN_ARROW, -7);
    DayStepsUndo(c, altKey, DOWN_ARROW, UP_ARROW, 7);
    MonthViewHomeEnd(c, altKey);
  }

  /** A month-view key that moves the active date by `days`, followed by
      the key that moves it back, returns to the same date. */
  lemma DayStepsUndo(c: Calendar, altKey: bool, there: int, back: int, days: int)
    requires Wellformed(c) && c.monthView && c.minDate.None? && c.maxDate.None?
    requires (there, back, days) in {(LEFT_ARROW, RIGHT_ARROW, -1), (RIGHT_ARROW, LEFT_ARROW, 1),
                                     (UP_ARROW, DOWN_ARROW, -7), (DOWN_ARROW, UP_ARROW, 7)}
    ensures Keydown(c, there, altKey).cal.activeDate == AddCalendarDays(c.activeDate, days)
    ensures Keydown(Keydown(c, there, altKey).cal, back, altKey).cal.activeDate == c.activeDate
  {
    AddDaysInverse(c.activeDate, days);
  }

  /** Without bounds, DOWN in month view goes a week forward: the same
      month seven days on, or into the next month on the day left over;
      UP goes a week back, into the previous month when needed. */
  lemma MonthViewWeekSteps(c: Calendar, altKey: bool)
    requires Wellformed(c) && c.monthView && c.minDate.None? && c.maxDate.None?
    ensures var a := c.activeDate;
            var down := Keydown(c, DOWN_ARROW, altKey).cal.activeDate;
            && (a.day + 7 <= DaysInMonth(a.year, a.month) ==> down == a.(day := a.day + 7))
            && (a.day + 7 > DaysInMonth(a.year, a.month) ==>
                  down.MonthIndex() == a.MonthIndex() + 1 && down.day == a.day + 7 - DaysInMonth(a.year, a.month))
    ensures var a := c.activeDate;
            var up := Keydown(c, UP_ARROW, altKey).cal.activeDate;
            && (a.day > 7 ==> up == a.(day := a.day - 7))
            && (a.day <= 7 ==> up.MonthIndex() == a.MonthIndex() - 1 && up.day == DaysInMonth(up.year, up.month) + a.day - 7)
  {
    var a := c.activeDate;
    if a.day + 7 <= DaysInMonth(a.year, a.month) {
      AddDaysForwardWithinMonth(a, 7);
    } else {
      AddDaysIntoNextMonth(a, 7);
    }
    if a.day > 7 {
      AddDaysBackWithinMonth(a, 7);
    } else {
      AddDaysIntoPreviousMonth(a, 7);
    }
  }

  /** HOME and END in month view go to the first and last day of the
      month. */
  lemma MonthViewHomeEnd(c: Calendar, altKey: bool)
    requires Wellformed(c) && c.monthView && c.minDate.None? && c.maxDate.None?
    ensures Keydown(c, HOME, altKey).cal.activeDate == c.activeDate.(day := 1)
    ensures Keydown(c, END, altKey).cal.activeDate == c.activeDate.(day := DaysInMonth(c.activeDate.year, c.activeDate.month))
  {
    var a := c.activeDate;
    AddDaysBackWithinMonth(a, a.day - 1);
    AddDaysForwardWithinMonth(a, DaysInMonth(a.year, a.month) - a.day);
  }

  /** Without bounds, PAGE_UP and PAGE_DOWN in month view move one month,
      or one year with Alt. */
  lemma MonthViewPagingWithoutBounds(c: Calendar)
    requires Wellformed(c) && c.monthView && c.minDate.None? && c.maxDate.None?
    ensures Keydown(c, PAGE_UP, false).cal.activeDate.MonthIndex() == c.activeDate.MonthIndex() - 1
    ensures Keydown(c, PAGE_DOWN, false).cal.activeDate.MonthIndex() == c.activeDate.MonthIndex() + 1
    ensures Keydown(c, PAGE_UP, true).cal.activeDate.year == c.activeDate.year - 1
    ensures Keydown(c, PAGE_DOWN, true).cal.activeDate.year == c.activeDate.year + 1
    ensures Keydown(c, PAGE_UP, true).cal.activeDate.month == c.activeDate.month
  {
  }

  /** Without bounds, the year view's keys: LEFT/RIGHT one month, HOME and
      END the first and last month of the year, PAGE_UP/PAGE_DOWN one
      year or ten with Alt, and UP then DOWN back to the same month. */
  lemma YearViewMovesWithoutBounds(c: Calendar, altKey: bool)
    requires Wellformed(c) && !c.monthView && c.minDate.None? && c.maxDate.None?
    ensures Keydown(c, LEFT_ARROW, altKey).cal.activeDate.MonthIndex() == c.activeDate.MonthIndex() - 1
    ensures Keydown(c, RIGHT_ARROW, altKey).cal.activeDate.MonthIndex() == c.activeDate.MonthIndex() + 1
    ensures Keydown(c, HOME, altKey).cal.activeDate.year == c.activeDate.year
    ensures Keydown(c, HOME, altKey).cal.activeDate.month == 0
    ensures Keydown(c, END, altKey).cal.activeDate.year == c.activeDate.year
    ensures Keydown(c, END, altKey).cal.activeDate.month == 11
    ensures Keydown(c, PAGE_UP, altKey).cal.activeDate.year == c.activeDate.year - (if altKey then 10 else 1)
    ensures Keydown(c, PAGE_DOWN, altKey).cal.activeDate.year == c.activeDate.year + (if altKey then 10 else 1)
    ensures Keydown(Keydown(c, UP_ARROW, altKey).cal, DOWN_ARROW, altKey).cal.activeDate.MonthIndex() == c.activeDate.MonthIndex()
  {
    SameColumnRoundTrip(c.activeDate);
  }

  /** ENTER in the month view emits the active date exactly when it is
      selectable and not already selected. */
  lemma MonthViewEnterEmits(c: Calendar)
    requires Wellformed(c) && c.monthView
    ensures var r := Keydown(c, ENTER, false);
            |r.cal.emitted| == |c.emitted| + 1 <==> DateFilterForViews(c, Some(c.activeDate)) && c.selected != Some(c.activeDate)
  {
  }
}

=== FILE: calendar_date.dfy ===
/** The date arithmetic the calendar asks of its date adapter, on
    proleptic Gregorian (year, month, day) dates with months numbered
    0..11 as in JavaScript. Adding months keeps the day of the month when
    the target month has it and otherwise moves to that month's last day;
    adding years adds twelve times as many months; adding days walks the
    calendar. */
module CalendarDate {
  import opened Wrappers

  datatype Date = Date(year: int, month: int, day: int)
  {
    ghost predicate Valid()
    {
      0 <= month < 12 && 1 <= day <= DaysInMonth(year, month)
    }

    /** Months since month 0 of year 0; two dates are in the same month
        iff their month indices agree. */
    function MonthIndex(): int
    {
      year * 12 + month
    }
  }

  predicate IsLeapYear(year: int)
  {
    (year % 4 == 0 && year % 100 != 0) || year % 400 == 0
  }

  function DaysInMonth(year: int, month: int): (r: int)
    ensures 28 <= r <= 31
    ensures month == 1 ==> (r == 29 <==> IsLeapYear(year))
  {
    if month == 1 then (if IsLeapYear(year) then 29 else 28)
    else if month == 3 || month == 5 || month == 8 || month == 10 then 30
    else 31
  }

  /** The following calendar day. */
  function NextDay(d: Date): (r: Date)
    requires d.Valid()
    ensures r.Valid()
    ensures d.day < DaysInMonth(d.year, d.month) ==> r == d.(day := d.day + 1)
    ensures d.day == DaysInMonth(d.year, d.month) ==> r.day == 1 && r.MonthIndex() == d.MonthIndex() + 1
  {
    if d.day < DaysInMonth(d.year, d.month) then d.(day := d.day + 1)
    else if d.month < 11 then Date(d.year, d.month + 1, 1)
    else Date(d.year + 1, 0, 1)
  }

  /** The preceding calendar day. */
  function PrevDay(d: Date): (r: Date)
    requires d.Valid()
    ensures r.Valid()
    ensures d.day > 1 ==> r == d.(day := d.day - 1)
    ensures d.day == 1 ==> r.day == DaysInMonth(r.year, r.month) && r.MonthIndex() == d.MonthIndex() - 1
  {
    if d.day > 1 then d.(day := d.day - 1)
    else if d.month > 0 then Date(d.year, d.month - 1, DaysInMonth(d.year, d.month - 1))
    else Date(d.year - 1, 11, 31)
  }

  lemma NextPrevInverse(d: Date)
    requires d.Valid()
    ensures PrevDay(NextDay(d)) == d
    ensures NextDay(PrevDay(d)) == d
  {
  }

  /** `addCalendarDays`: `n` days later (earlier for negative `n`). */
  function AddCalendarDays(d: Date, n: int): (r: Date)
    requires d.Valid()
    ensures r.Valid()
    decreases if n < 0 then -n else n
  {
    if n == 0 then d
    else if n > 0 then AddCalendarDays(NextDay(d), n - 1)
    else AddCalendarDays(PrevDay(d), n + 1)
  }

  lemma {:induction false} AddDaysForwardStep(d: Date, n: nat)
    requires d.Valid()
    ensures AddCalendarDays(d, n + 1) == NextDay(AddCalendarDays(d, n))
    decreases n
  {
    if n > 0 {
      AddDaysForwardStep(NextDay(d), n - 1);
    }
  }

  lemma {:induction false} AddDaysBackwardStep(d: Date, n: nat)
    requires d.Valid()
    ensures AddCalendarDays(d, -(n as int) - 1) == PrevDay(AddCalendarDays(d, -(n as int)))
    decreases n
  {
    if n > 0 {
      AddDaysBackwardStep(PrevDay(d), n - 1);
    }
  }

  /** Moving `n` days and then `-n` days returns to the start. */
  lemma {:induction false} AddDaysInverse(d: Date, n: int)
    requires d.Valid()
    ensures AddCalendarDays(AddCalendarDays(d, n), -n) == d
    decreases if n < 0 then -n else n
  {
    if n > 0 {
      var e := AddCalendarDays(d, n - 1);
      AddDaysForwardStep(d, n - 1);
      NextPrevInverse(e);
      AddDaysInverse(d, n - 1);
    } else if n < 0 {
      var e := AddCalendarDays(d, n + 1);
      AddDaysBackwardStep(d, -n - 1);
      NextPrevInverse(e);
      AddDaysInverse(d, n + 1);
    }
  }

  /** Going back fewer days than the day of the month stays in the month. */
  lemma {:induction false} AddDaysBackWithinMonth(d: Date, k: nat)
    requires d.Valid() && k < d.day
    ensures AddCalendarDays(d, -(k as int)) == d.(day := d.day - k)
    decreases k
  {
    if k > 0 {
      AddDaysBackWithinMonth(PrevDay(d), k - 1);
    }
  }

  /** Going forward up to the month's last day stays in the month. */
  lemma {:induction false} AddDaysForwardWithinMonth(d: Date, k: nat)
    requires d.Valid() && d.day + k <= DaysInMonth(d.year, d.month)
    ensures AddCalendarDays(d, k) == d.(day := d.day + k)
    decreases k
  {
    if k > 0 {
      AddDaysForwardWithinMonth(NextDay(d), k - 1);
    }
  }

  /** Walking forward `m` then `n` days is walking `m + n` days. */
  lemma {:induction false} AddDaysForwardAdditive(d: Date, m: nat, n: nat)
    requires d.Valid()
    ensures AddCalendarDays(d, m + n) == AddCalendarDays(AddCalendarDays(d, m), n)
    decreases m
  {
    if m > 0 {
      AddDaysForwardAdditive(NextDay(d), m - 1, n);
    }
  }

  /** Walking back `m` then `n` days is walking back `m + n` days. */
  lemma {:induction false} AddDaysBackwardAdditive(d: Date, m: nat, n: nat)
    requires d.Valid()
    ensures AddCalendarDays(d, -((m + n) as int)) == AddCalendarDays(AddCalendarDays(d, -(m as int)), -(n as int))
    decreases m
  {
    if m > 0 {
      AddDaysBackwardAdditive(PrevDay(d), m - 1, n);
    }
  }

  /** Going forward past the month's last day, by less than four weeks
      more, lands in the next month on the day that is left over. */
  lemma AddDaysIntoNextMonth(d: Date, k: nat)
    requires d.Valid() && DaysInMonth(d.year, d.month) < d.day + k <= DaysInMonth(d.year, d.month) + 28
    ensures var r := AddCalendarDays(d, k);
            r.MonthIndex() == d.MonthIndex() + 1 && r.day == d.day + k - DaysInMonth(d.year, d.month)
  {
    var toLast := DaysInMonth(d.year, d.month) - d.day;
    AddDaysForwardWithinMonth(d, toLast);
    var last := d.(day := DaysInMonth(d.year, d.month));
    AddDaysForwardAdditive(d, toLast, k - toLast);
    var first := NextDay(last);
    assert AddCalendarDays(last, k - toLast) == AddCalendarDays(first, k - toLast - 1);
    AddDaysForwardWithinMonth(first, k - toLast - 1);
  }

  /** Going back past the month's first day, by less than four weeks more,
      lands in the previous month, that many days before its end. */
  lemma AddDaysIntoPreviousMonth(d: Date, k: nat)
    requires d.Valid() && d.day <= k < d.day + 28
    ensures var r := AddCalendarDays(d, -(k as int));
            r.MonthIndex() == d.MonthIndex() - 1 && r.day == DaysInMonth(r.year, r.month) + d.day - k
  {
    var toFirst := d.day - 1;
    AddDaysBackWithinMonth(d, toFirst);
    var first := d.(day := 1);
    AddDaysBackwardAdditive(d, toFirst, k - toFirst);
    var last := PrevDay(first);
    assert AddCalendarDays(first, -((k - toFirst) as int)) == AddCalendarDays(last, -((k - toFirst - 1) as int));
    AddDaysBackWithinMonth(last, k - toFirst - 1);
  }

  function Min(a: int, b: int): int
  {
    if a <= b then a else b
  }

  /** `addCalendarMonths`. */
  function AddCalendarMonths(d: Date, n: int): (r: Date)
    requires d.Valid()
    ensures r.Valid()
    ensures r.MonthIndex() == d.MonthIndex() + n
    ensures r.day == Min(d.day, DaysInMonth(r.year, r.month))
  {
    var total := d.MonthIndex() + n;
    var year := total / 12;
    var month := total % 12;
    Date(year, month, Min(d.day, DaysInMonth(year, month)))
  }

  /** `addCalendarYears`. */
  function AddCalendarYears(d: Date, n: int): (r: Date)
    requires d.Valid()
    ensures r.Valid()
    ensures r.year == d.year + n && r.month == d.month
    ensures r.day == Min(d.day, DaysInMonth(r.year, r.month))
  {
    AddCalendarMonths(d, n * 12)
  }

  /** `compareDate`: negative, zero or positive as `a` is before, on or
      after `b`. */
  function CompareDate(a: Date, b: Date): (r: int)
    ensures r == 0 <==> a == b
    ensures r < 0 <==> a.year < b.year || (a.year == b.year && (a.month < b.month || (a.month == b.month && a.day < b.day)))
    ensures r > 0 <==> a.year > b.year || (a.year == b.year && (a.month > b.month || (a.month == b.month && a.day > b.day)))
  {
    if a.year != b.year then (if a.year < b.year then -1 else 1)
    else if a.month != b.month then (if a.month < b.month then -1 else 1)
    else if a.day != b.day then (if a.day < b.day then -1 else 1)
    else 0
  }

  predicate Before(a: Date, b: Date)
  {
    CompareDate(a, b) < 0
  }

  lemma CompareAntisymmetric(a: Date, b: Date)
    ensures CompareDate(a, b) == -CompareDate(b, a)
  {
  }

  lemma CompareTransitive(a: Date, b: Date, c: Date)
    requires CompareDate(a, b) <= 0 && CompareDate(b, c) <= 0
    ensures CompareDate(a, c) <= 0
  {
  }

  /** `sameDate`: both present and equal, or both absent. */
  function SameDate(a: Option<Date>, b: Option<Date>): (r: bool)
    ensures r <==> a == b
  {
    if a.Some? && b.Some? then CompareDate(a.value, b.value) == 0 else a.None? && b.None?
  }

  /** `clampDate`: below the minimum gives the minimum, above the
      maximum gives the maximum, otherwise the date itself. */
  function ClampDate(d: Date, min: Option<Date>, max: Option<Date>): (r: Date)
    ensures r == d || Some(r) == min || Some(r) == max
    ensures min.Some? && (max.None? || CompareDate(min.value, max.value) <= 0) ==> CompareDate(min.value, r) <= 0
    ensures max.Some? ==> CompareDate(r, max.value) <= 0 || Some(r) == min
    ensures (min.None? || CompareDate(min.value, d) <= 0) && (max.None? || CompareDate(d, max.value) <= 0) ==> r == d
  {
    if min.Some? && CompareDate(d, min.value) < 0 then min.value
    else if max.Some? && CompareDate(d, max.value) > 0 then max.value
    else d
  }
}

=== FILE: component_walker.dfy ===
/** The TSLint `ComponentWalker` of the update schematic: which call
    expressions it treats as Angular decorators, how it finds their
    metadata object, and which inline and external templates and
    stylesheets it visits or reports as missing. The TypeScript AST is
    reduced to the expression kinds the walker distinguishes; the file
    system is the set of existing paths; path resolution is a parameter. */
module ComponentWalker {
  import opened Wrappers

  datatype Expr =
    | ObjectLiteral(properties: seq<Property>)
    | Parenthesized(inner: Expr)
    | StringLiteral(text: string)
    | ArrayLiteral(elements: seq<Expr>)
    | OtherExpr

  datatype Property = Property(name: string, initializer: Expr)

  /** A call expression: the callee's source text and the arguments. */
  datatype Call = Call(callee: string, arguments: seq<Expr>)

  /** What the walker visits or reports, in order. */
  datatype Visit =
    | InlineTemplate(text: string)
    | ExternalTemplate(path: string)
    | InlineStylesheet(text: string)
    | ExternalStylesheet(path: string)
    | ResourceNotFound(path: string)

  /** The walker: the extra files in `Set` order, the existing paths, and
      how a URL in the source file resolves to a path. */
  datatype Walker = Walker(extraFiles: seq<string>, existing: set<string>, resolveUrl: string -> string)

  /** Where `x` first occurs in `xs`. */
  function FirstIndex(xs: seq<string>, x: string): (k: nat)
    requires x in xs
    ensures k < |xs| && xs[k] == x && x !in xs[..k]
  {
    if xs[0] == x then 0 else 1 + FirstIndex(xs[1..], x)
  }

  /** A prefix that already holds `x` has it first at the same place. */
  lemma {:induction false} FirstIndexOfPrefix(xs: seq<string>, n: nat, x: string)
    requires n <= |xs| && x in xs[..n]
    ensures FirstIndex(xs[..n], x) == FirstIndex(xs, x)
    decreases n
  {
    if xs[0] != x {
      assert xs[..n][1..] == xs[1..][..n - 1];
      FirstIndexOfPrefix(xs[1..], n - 1, x);
    }
  }

  /** `new Set(list)`: every element once, ordered by where it is first
      seen. */
  function Dedup(xs: seq<string>): (r: seq<string>)
    ensures forall x :: x in r <==> x in xs
    ensures forall i, j :: 0 <= i < j < |r| ==> r[i] != r[j]
    ensures |r| <= |xs|
    ensures forall i, j :: 0 <= i < j < |r| ==> FirstIndex(xs, r[i]) < FirstIndex(xs, r[j])
  {
    if |xs| == 0 then []
    else
      var prefix := xs[..|xs| - 1];
      var last := xs[|xs| - 1];
      var rest := Dedup(prefix);
      assert xs == prefix + [last];
      forall y | y in prefix ensures FirstIndex(prefix, y) == FirstIndex(xs, y) {
        FirstIndexOfPrefix(xs, |xs| - 1, y);
      }
      if last in rest then rest
      else
        assert FirstIndex(xs, last) == |xs| - 1;
        rest + [last]
  }

  /** The constructor: the extra files resolved, duplicates dropped. */
  function NewWalker(extraFiles: seq<string>, resolveCwd: string -> string, existing: set<string>,
                     resolveUrl: string -> string): (w: Walker)
    ensures forall f :: f in w.extraFiles <==> exists k :: 0 <= k < |extraFiles| && resolveCwd(extraFiles[k]) == f
    ensures forall i, j :: 0 <= i < j < |w.extraFiles| ==> w.extraFiles[i] != w.extraFiles[j]
  {
    var resolved := seq(|extraFiles|, k requires 0 <= k < |extraFiles| => resolveCwd(extraFiles[k]));
    assert forall f :: f in resolved <==> exists k :: 0 <= k < |extraFiles| && resolveCwd(extraFiles[k]) == f by {
      forall f | f in resolved ensures exists k :: 0 <= k < |extraFiles| && resolveCwd(extraFiles[k]) == f {
        var k :| 0 <= k < |resolved| && resolved[k] == f;
      }
      forall f | exists k :: 0 <= k < |extraFiles| && resolveCwd(extraFiles[k]) == f ensures f in resolved {
        var k :| 0 <= k < |extraFiles| && resolveCwd(extraFiles[k]) == f;
        assert resolved[k] == f;
      }
    }
    Walker(Dedup(resolved), existing, resolveUrl)
  }

  /** `_findMetadataFromExpression`: through any parentheses to an
      object literal; any other expression has no metadata. */
  function FindMetadata(e: Expr): (r: Option<seq<Property>>)
    ensures e.ObjectLiteral? ==> r == Some(e.properties)
    ensures e.StringLiteral? || e.ArrayLiteral? || e.OtherExpr? ==> r == None
    ensures e.Parenthesized? ==> r == FindMetadata(e.inner)
  {
    match e
    case ObjectLiteral(props) => Some(props)
    case Parenthesized(inner) => FindMetadata(inner)
    case _ => None
  }

  /** `e` wrapped in `n` pairs of parentheses. */
  function Wrap(e: Expr, n: nat): Expr
  {
    if n == 0 then e else Parenthesized(Wrap(e, n - 1))
  }

  /** Parentheses do not hide metadata: an object literal in any number of
      them is found, and anything else in any number of them is not. */
  lemma {:induction false} MetadataThroughParentheses(e: Expr, n: nat)
    ensures FindMetadata(Wrap(e, n)) == FindMetadata(e)
    ensures e.ObjectLiteral? ==> FindMetadata(Wrap(e, n)) == Some(e.properties)
    ensures !e.ObjectLiteral? && !e.Parenthesized? ==> FindMetadata(Wrap(e, n)).None?
    decreases n
  {
    if n > 0 {
      MetadataThroughParentheses(e, n - 1);
    }
  }

  /** A resolved template or stylesheet path: extra files are skipped,
      missing files reported, existing files visited. */
  function ReportResource(w: Walker, path: string, isTemplate: bool): (r: seq<Visit>)
    ensures path in w.extraFiles ==> r == []
    ensures path !in w.extraFiles && path !in w.existing ==> r == [ResourceNotFound(path)]
    ensures path !in w.extraFiles && path in w.existing ==>
              r == [if isTemplate then ExternalTemplate(path) else ExternalStylesheet(path)]
  {
    if path in w.extraFiles then []
    else if path !in w.existing then [ResourceNotFound(path)]
    else [if isTemplate then ExternalTemplate(path) else ExternalStylesheet(path)]
  }

  /** `_reportInlineStyles`: every string element is an inline
      stylesheet; other elements are skipped. */
  function InlineStyles(elements: seq<Expr>): (r: seq<Visit>)
    ensures |r| <= |elements|
    ensures forall v :: v in r ==> v.InlineStylesheet? && StringLiteral(v.text) in elements
    ensures forall k :: 0 <= k < |elements| && elements[k].StringLiteral? ==> InlineStylesheet(elements[k].text) in r
  {
    if |elements| == 0 then []
    else
      var rest := InlineStyles(elements[1..]);
      assert forall k :: 1 <= k < |elements| ==> elements[k] == elements[1..][k - 1];
      (if elements[0].StringLiteral? then [InlineStylesheet(elements[0].text)] else []) + rest
  }

  /** Inline styles are visited element by element, in array order. */
  lemma {:induction false} InlineStylesInOrder(a: seq<Expr>, b: seq<Expr>)
    ensures InlineStyles(a + b) == InlineStyles(a) + InlineStyles(b)
    ensures |a| == 1 ==> InlineStyles(a) == if a[0].StringLiteral? then [InlineStylesheet(a[0].text)] else []
    decreases |a|
  {
    if |a| == 0 {
      assert a + b == b;
    } else {
      assert (a + b)[0] == a[0] && (a + b)[1..] == a[1..] + b;
      InlineStylesInOrder(a[1..], b);
    }
  }

  /** `_visitExternalStylesArrayLiteral`. */
  function ExternalStyles(w: Walker, elements: seq<Expr>): (r: seq<Visit>)
    ensures |r| <= |elements|
    ensures forall v :: v in r ==>
              && (v.ExternalStylesheet? || v.ResourceNotFound?)
              && exists k :: 0 <= k < |elements| && elements[k].StringLiteral? && w.resolveUrl(elements[k].text) == v.path
    ensures forall k :: 0 <= k < |elements| && elements[k].StringLiteral? ==>
              var path := w.resolveUrl(elements[k].text);
              && (path !in w.extraFiles && path !in w.existing ==> ResourceNotFound(path) in r)
              && (path !in w.extraFiles && path in w.existing ==> ExternalStylesheet(path) in r)
  {
    if |elements| == 0 then []
    else
      var first := StyleUrlReport(w, elements[0]);
      var rest := ExternalStyles(w, elements[1..]);
      assert forall v :: v in rest ==> exists k :: 0 <= k < |elements| && elements[k].StringLiteral? && w.resolveUrl(elements[k].text) == v.path by {
        forall v | v in rest ensures exists k :: 0 <= k < |elements| && elements[k].StringLiteral? && w.resolveUrl(elements[k].text) == v.path {
          var j :| 0 <= j < |elements[1..]| && elements[1..][j].StringLiteral? && w.resolveUrl(elements[1..][j].text) == v.path;
          assert elements[j + 1] == elements[1..][j];
        }
      }
      assert forall k :: 1 <= k < |elements| ==> elements[k] == elements[1..][k - 1];
      first + rest
  }

  /** What one `styleUrls` element leads to: a string is resolved and
      reported, anything else is skipped. */
  function StyleUrlReport(w: Walker, e: Expr): (r: seq<Visit>)
    ensures !e.StringLiteral? ==> r == []
    ensures e.StringLiteral? ==> r == ReportResource(w, w.resolveUrl(e.text), false)
  {
    if e.StringLiteral? then ReportResource(w, w.resolveUrl(e.text), false) else []
  }

  /** One element is reported as `StyleUrlReport` decides. */
  lemma ExternalStylesOfOne(w: Walker, e: Expr)
    ensures ExternalStyles(w, [e]) == StyleUrlReport(w, e)
  {
    assert [e][1..] == [];
  }

  /** External stylesheets are reported element by element, in array
      order. */
  lemma {:induction false} ExternalStylesInOrder(w: Walker, a: seq<Expr>, b: seq<Expr>)
    ensures ExternalStyles(w, a + b) == ExternalStyles(w, a) + ExternalStyles(w, b)
    decreases |a|
  {
    if |a| == 0 {
      assert a + b == b;
    } else {
      assert (a + b)[0] == a[0] && (a + b)[1..] == a[1..] + b;
      ExternalStylesInOrder(w, a[1..], b);
      assert ExternalStyles(w, a + b) == StyleUrlReport(w, a[0]) + ExternalStyles(w, a[1..] + b);
    }
  }

  /** What one metadata property leads to. */
  function PropertyVisits(w: Walker, p: Property): (r: seq<Visit>)
    ensures p.name == "template" && p.initializer.StringLiteral? ==> r == [InlineTemplate(p.initializer.text)]
    ensures p.name == "templateUrl" && p.initializer.StringLiteral? ==>
              r == ReportResource(w, w.resolveUrl(p.initializer.text), true)
    ensures p.name == "styles" && p.initializer.ArrayLiteral? ==> r == InlineStyles(p.initializer.elements)
    ensures p.name == "styleUrls" && p.initializer.ArrayLiteral? ==> r == ExternalStyles(w, p.initializer.elements)
    ensures (&& !(p.name in {"template", "templateUrl"} && p.initializer.StringLiteral?)
             && !(p.name in {"styles", "styleUrls"} && p.initializer.ArrayLiteral?)) ==> r == []
  {
    if p.name == "template" && p.initializer.StringLiteral? then [InlineTemplate(p.initializer.text)]
    else if p.name == "templateUrl" && p.initializer.StringLiteral? then ReportResource(w, w.resolveUrl(p.initializer.text), true)
    else if p.name == "styles" && p.initializer.ArrayLiteral? then InlineStyles(p.initializer.elements)
    else if p.name == "styleUrls" && p.initializer.ArrayLiteral? then ExternalStyles(w, p.initializer.elements)
    else []
  }

  function PropertiesVisits(w: Walker, props: seq<Property>): seq<Visit>
  {
    if |props| == 0 then [] else PropertyVisits(w, props[0]) + PropertiesVisits(w, props[1..])
  }

  /** `_visitDirectiveCallExpression`: a call with exactly one argument
      whose metadata is an object literal has its properties visited in
      order; anything else is ignored. */
  function VisitDirectiveCall(w: Walker, c: Call): (r: seq<Visit>)
    ensures |c.arguments| != 1 ==> r == []
    ensures |c.arguments| == 1 && FindMetadata(c.arguments[0]).None? ==> r == []
    ensures |c.arguments| == 1 && FindMetadata(c.arguments[0]).Some? ==>
              r == PropertiesVisits(w, FindMetadata(c.arguments[0]).value)
  {
    if |c.arguments| != 1 then []
    else match FindMetadata(c.arguments[0])
      case None => []
      case Some(props) => PropertiesVisits(w, props)
  }

  /** `visitNode` on a call expression: only `Component` and `Directive`
      calls are inspected. */
  function VisitCall(w: Walker, c: Call): (r: seq<Visit>)
    ensures c.callee != "Component" && c.callee != "Directive" ==> r == []
    ensures c.callee == "Component" || c.callee == "Directive" ==> r == VisitDirectiveCall(w, c)
  {
    if c.callee == "Component" || c.callee == "Directive" then VisitDirectiveCall(w, c) else []
  }

  /** The walk over the file: every call expression in traversal order. */
  function Walk(w: Walker, calls: seq<Call>): (r: seq<Visit>)
    ensures forall k, v :: 0 <= k < |calls| && v in VisitCall(w, calls[k]) ==> v in r
    ensures forall v :: v in r ==> exists k :: 0 <= k < |calls| && v in VisitCall(w, calls[k])
  {
    if |calls| == 0 then []
    else
      var rest := Walk(w, calls[1..]);
      assert forall k :: 1 <= k < |calls| ==> calls[k] == calls[1..][k - 1];
      VisitCall(w, calls[0]) + rest
  }

  /** The walk visits the calls in traversal order: the visits of two
      runs of calls are those of the first run, then the second. */
  lemma {:induction false} WalkInOrder(w: Walker, a: seq<Call>, b: seq<Call>)
    ensures Walk(w, a + b) == Walk(w, a) + Walk(w, b)
    decreases |a|
  {
    if |a| == 0 {
      assert a + b == b;
    } else {
      assert (a + b)[0] == a[0] && (a + b)[1..] == a[1..] + b;
      WalkInOrder(w, a[1..], b);
      assert Walk(w, a + b) == VisitCall(w, a[0]) + Walk(w, a[1..] + b);
    }
  }

  /** Every property of a metadata object contributes its visits. */
  lemma {:induction false} PropertyVisitsIncluded(w: Walker, props: seq<Property>, j: int)
    requires 0 <= j < |props|
    ensures forall v :: v in PropertyVisits(w, props[j]) ==> v in PropertiesVisits(w, props)
    decreases |props|
  {
    if j > 0 {
      PropertyVisitsIncluded(w, props[1..], j - 1);
    }
  }

  /** A decorator with one argument whose metadata names a template or
      stylesheet file that is neither an extra file nor on disk makes the
      walk report that file as not found. */
  lemma MissingResourcesReported(w: Walker, calls: seq<Call>, i: int, j: int)
    requires 0 <= i < |calls| && (calls[i].callee == "Component" || calls[i].callee == "Directive")
    requires |calls[i].arguments| == 1 && FindMetadata(calls[i].arguments[0]).Some?
    requires 0 <= j < |FindMetadata(calls[i].arguments[0]).value|
    ensures var p := FindMetadata(calls[i].arguments[0]).value[j];
            p.name == "templateUrl" && p.initializer.StringLiteral? ==>
              var path := w.resolveUrl(p.initializer.text);
              path !in w.extraFiles && path !in w.existing ==> ResourceNotFound(path) in Walk(w, calls)
    ensures var p := FindMetadata(calls[i].arguments[0]).value[j];
            p.name == "styleUrls" && p.initializer.ArrayLiteral? ==>
              forall k :: 0 <= k < |p.initializer.elements| && p.initializer.elements[k].StringLiteral? ==>
                var path := w.resolveUrl(p.initializer.elements[k].text);
                path !in w.extraFiles && path !in w.existing ==> ResourceNotFound(path) in Walk(w, calls)
  {
    PropertyVisitsIncluded(w, FindMetadata(calls[i].arguments[0]).value, j);
  }

  /** What a visit says about the file system and the extra files: an
      external resource exists and is not an extra file, a missing one
      is not an extra file either. */
  ghost predicate Respects(w: Walker, v: Visit)
  {
    && (v.ExternalTemplate? || v.ExternalStylesheet? ==> v.path in w.existing && v.path !in w.extraFiles)
    && (v.ResourceNotFound? ==> v.path !in w.existing && v.path !in w.extraFiles)
  }

  lemma ExternalStylesRespect(w: Walker, elements: seq<Expr>)
    ensures forall v :: v in ExternalStyles(w, elements) ==> Respects(w, v)
    decreases |elements|
  {
    if |elements| > 0 {
      ExternalStylesRespect(w, elements[1..]);
    }
  }

  lemma {:induction false} PropertiesRespect(w: Walker, props: seq<Property>)
    ensures forall v :: v in PropertiesVisits(w, props) ==> Respects(w, v)
    decreases |props|
  {
    if |props| > 0 {
      PropertiesRespect(w, props[1..]);
      var p := props[0];
      if p.name == "styleUrls" && p.initializer.ArrayLiteral? {
        ExternalStylesRespect(w, p.initializer.elements);
      }
      if p.name == "styles" && p.initializer.ArrayLiteral? {
        assert forall v :: v in InlineStyles(p.initializer.elements) ==> v.InlineStylesheet?;
      }
    }
  }

  /** Extra files are never reported through `templateUrl` or
      `styleUrls`, files that exist are visited and missing ones
      reported. */
  lemma {:induction false} WalkRespectsFiles(w: Walker, calls: seq<Call>)
    ensures forall v :: v in Walk(w, calls) ==> Respects(w, v)
    decreases |calls|
  {
    if |calls| > 0 {
      WalkRespectsFiles(w, calls[1..]);
      var c := calls[0];
      if |c.arguments| == 1 && FindMetadata(c.arguments[0]).Some? {
        PropertiesRespect(w, FindMetadata(c.arguments[0]).value);
      }
    }
  }

  /** Calls that are not `Component` or `Directive` decorators contribute
      nothing to the walk. */
  lemma {:induction false} OtherCallsIgnored(w: Walker, calls: seq<Call>)
    requires forall k :: 0 <= k < |calls| ==> calls[k].callee != "Component" && calls[k].callee != "Directive"
    ensures Walk(w, calls) == []
    decreases |calls|
  {
    if |calls| > 0 {
      OtherCallsIgnored(w, calls[1..]);
    }
  }

  /** The outcome of reporting files: the stylesheets visited, and the
      path whose read threw, if one did. */
  datatype Report = Report(visits: seq<Visit>, thrown: Option<string>)

  /** `_reportExternalStyle` on each file in turn: an existing file is
      read and visited as a stylesheet; reading a missing one throws and
      ends the report. */
  function ReportFiles(w: Walker, files: seq<string>): (r: Report)
    ensures |r.visits| <= |files|
    ensures forall k :: 0 <= k < |r.visits| ==> r.visits[k] == ExternalStylesheet(files[k])
    ensures r.thrown.None? <==> forall k :: 0 <= k < |files| ==> files[k] in w.existing
    ensures r.thrown.None? ==>
              |r.visits| == |files| && forall k :: 0 <= k < |files| ==> r.visits[k] == ExternalStylesheet(files[k])
    ensures r.thrown.Some? ==>
              exists k :: 0 <= k < |files| && files[k] == r.thrown.value && files[k] !in w.existing &&
                          (forall j :: 0 <= j < k ==> files[j] in w.existing) &&
                          |r.visits| == k && forall j :: 0 <= j < k ==> r.visits[j] == ExternalStylesheet(files[j])
  {
    if |files| == 0 then Report([], None)
    else if files[0] !in w.existing then Report([], Some(files[0]))
    else
      var rest := ReportFiles(w, files[1..]);
      assert forall k :: 1 <= k < |files| ==> files[k] == files[1..][k - 1];
      if rest.thrown.Some? then
        var k :| 0 <= k < |files[1..]| && files[1..][k] == rest.thrown.value && files[1..][k] !in w.existing &&
                 (forall j :: 0 <= j < k ==> files[1..][j] in w.existing) &&
                 |rest.visits| == k && forall j :: 0 <= j < k ==> rest.visits[j] == ExternalStylesheet(files[1..][j]);
        var r := Report([ExternalStylesheet(files[0])] + rest.visits, rest.thrown);
        assert files[k + 1] == r.thrown.value && |r.visits| == k + 1;
        r
      else
        Report([ExternalStylesheet(files[0])] + rest.visits, rest.thrown)
  }

  /** `_reportExtraStylesheetFiles`: each extra file in set order, until
      one that does not exist makes the read throw. */
  function ReportExtraStylesheetFiles(w: Walker): (r: Report)
    ensures r.thrown.None? <==> forall k :: 0 <= k < |w.extraFiles| ==> w.extraFiles[k] in w.existing
    ensures r.thrown.None? ==> |r.visits| == |w.extraFiles|
    ensures r.thrown.Some? ==> r.thrown.value in w.extraFiles && r.thrown.value !in w.existing
    ensures |r.visits| <= |w.extraFiles|
    ensures forall k :: 0 <= k < |r.visits| ==> r.visits[k] == ExternalStylesheet(w.extraFiles[k])
  {
    ReportFiles(w, w.extraFiles)
  }

  /** No extra file is visited twice by the final report. */
  lemma ExtraFilesReportedOnce(extraFiles: seq<string>, resolveCwd: string -> string, existing: set<string>,
                               resolveUrl: string -> string, i: int, j: int)
    requires var r := ReportExtraStylesheetFiles(NewWalker(extraFiles, resolveCwd, existing, resolveUrl));
             0 <= i < j < |r.visits|
    ensures var r := ReportExtraStylesheetFiles(NewWalker(extraFiles, resolveCwd, existing, resolveUrl));
            r.visits[i] != r.visits[j]
  {
  }
}

=== FILE: dom.dfy ===
/** An abstract document tree: node ids, each node's parent, and which
    nodes are elements. Only the parent relation of the DOM is modelled; a
    depth witness makes every parent chain finite, which a real document
    guarantees by being a tree. */
module Dom {
  import opened Wrappers

  type NodeId = nat

  datatype Tree = Tree(parent: map<NodeId, NodeId>, elements: set<NodeId>, depth: map<NodeId, nat>)

  /** Every parent link goes strictly up in depth, so parent chains end. */
  ghost predicate Valid(t: Tree)
  {
    forall n :: n in t.parent ==> n in t.depth && t.parent[n] in t.depth && t.depth[t.parent[n]] < t.depth[n]
  }

  function Depth(t: Tree, n: NodeId): nat
  {
    if n in t.depth then t.depth[n] else 0
  }

  /** `node.parentNode`. */
  function ParentNode(t: Tree, n: NodeId): Option<NodeId>
  {
    if n in t.parent then Some(t.parent[n]) else None
  }

  /** `node.parentElement`: the parent, when it is an element. */
  function ParentElement(t: Tree, n: NodeId): (r: Option<NodeId>)
    ensures r.Some? ==> r == ParentNode(t, n) && r.value in t.elements
    ensures r.None? ==> ParentNode(t, n).None? || ParentNode(t, n).value !in t.elements
  {
    if n in t.parent && t.parent[n] in t.elements then Some(t.parent[n]) else None
  }

  /** `n`, its parent element, that one's parent element, and so on. */
  function ElementChain(t: Tree, n: NodeId): (r: seq<NodeId>)
    requires Valid(t)
    ensures |r| >= 1 && r[0] == n
    decreases Depth(t, n)
  {
    match ParentElement(t, n)
    case None => [n]
    case Some(p) => [n] + ElementChain(t, p)
  }

  /** `n` and all its ancestors through `parentNode`. */
  function NodeChain(t: Tree, n: NodeId): (r: seq<NodeId>)
    requires Valid(t)
    ensures |r| >= 1 && r[0] == n
    decreases Depth(t, n)
  {
    match ParentNode(t, n)
    case None => [n]
    case Some(p) => [n] + NodeChain(t, p)
  }

  /** `a.contains(b)`: `b` is `a` or one of its descendants. */
  predicate Contains(t: Tree, a: NodeId, b: NodeId)
    requires Valid(t)
  {
    a in NodeChain(t, b)
  }

  /** Every link of the element chain is a parent link. */
  lemma {:induction false} ElementChainLinks(t: Tree, n: NodeId, k: nat)
    requires Valid(t)
    requires k + 1 < |ElementChain(t, n)|
    ensures ParentElement(t, ElementChain(t, n)[k]) == Some(ElementChain(t, n)[k + 1])
    decreases Depth(t, n)
  {
    if k > 0 {
      ElementChainLinks(t, ParentElement(t, n).value, k - 1);
    }
  }

  /** The element chain is a prefix of the node chain: whatever an element
      chain reaches, `contains` sees too. */
  lemma {:induction false} ElementChainInNodeChain(t: Tree, n: NodeId, a: NodeId)
    requires Valid(t)
    requires a in ElementChain(t, n)
    ensures a in NodeChain(t, n)
    decreases Depth(t, n)
  {
    if a != n {
      ElementChainInNodeChain(t, ParentElement(t, n).value, a);
    }
  }

  /** The first element of `s` that belongs to `matching`, if any: the
      reference meaning of every "walk up until something matches" loop. */
  function FirstIn(s: seq<NodeId>, matching: set<NodeId>): (r: Option<NodeId>)
    ensures r.Some? ==> r.value in matching && r.value in s
    ensures r.None? ==> forall k :: 0 <= k < |s| ==> s[k] !in matching
  {
    if |s| == 0 then None
    else if s[0] in matching then Some(s[0])
    else FirstIn(s[1..], matching)
  }

  /** `FirstIn` picks the earliest match: nothing before it matches. */
  lemma {:induction false} FirstInIsEarliest(s: seq<NodeId>, matching: set<NodeId>)
    requires FirstIn(s, matching).Some?
    ensures exists k :: 0 <= k < |s| && s[k] == FirstIn(s, matching).value &&
                        forall j :: 0 <= j < k ==> s[j] !in matching
    decreases |s|
  {
    if s[0] !in matching {
      FirstInIsEarliest(s[1..], matching);
      var k :| 0 <= k < |s[1..]| && s[1..][k] == FirstIn(s, matching).value &&
               forall j :: 0 <= j < k ==> s[1..][j] !in matching;
      assert s[k + 1] == FirstIn(s, matching).value;
      assert forall j :: 0 <= j < k + 1 ==> s[j] !in matching by {
        forall j | 0 <= j < k + 1 ensures s[j] !in matching {
          if j > 0 { assert s[j] == s[1..][j - 1]; }
        }
      }
    } else {
      assert s[0] == FirstIn(s, matching).value;
    }
  }
}

=== FILE: drag_directive.dfy ===
/** The configuration logic of the `cdkDrag` directive: threshold and input
    defaults from the injected drag-drop config, the disabled state, root and
    boundary element resolution over the document tree, and which input
    changes are acted on after the first change-detection pass. The
    underlying drag reference is reduced to the values the directive hands
    it. */
module DragDirective {
  import opened Wrappers
  import opened Dom

  /** Threshold used when the config does not supply one. */
  const DefaultThreshold: int := 5

  datatype Axis = AxisX | AxisY

  /** A start delay is either one number or one number per pointer kind. */
  datatype StartDelay = DelayMillis(ms: int) | DelayPerPointer(touch: int, mouse: int)

  /** `string | string[]`: any array is truthy, a string only when non-empty. */
  datatype PreviewClass = ClassName(name: string) | ClassNames(names: seq<string>)

  /** `string | HTMLElement`: a selector or a concrete node. */
  datatype Boundary = NoBoundary | BoundarySelector(selector: string) | BoundaryNode(node: NodeId)

  /** The injected `DragDropConfig`; every field is optional (`None` is
      `null`/`undefined`). `constrainPosition` is an opaque callback id. */
  datatype Config = Config(
    dragStartThreshold: Option<int>,
    pointerDirectionChangeThreshold: Option<int>,
    lockAxis: Option<Axis>,
    dragStartDelay: Option<StartDelay>,
    constrainPosition: Option<nat>,
    previewClass: Option<PreviewClass>,
    boundaryElement: Option<Boundary>,
    draggingDisabled: Option<bool>,
    rootElementSelector: Option<string>)

  /** The inputs of the directive that the config can default. */
  datatype Inputs = Inputs(
    disabled: bool,
    dragStartDelay: Option<StartDelay>,
    lockAxis: Option<Axis>,
    constrainPosition: Option<nat>,
    previewClass: Option<PreviewClass>,
    boundaryElement: Boundary,
    rootElementSelector: string)

  datatype Thresholds = Thresholds(dragStart: int, pointerDirectionChange: int)

  datatype DragError =
    | NotAnElementNode(node: NodeId)
    | NotInsideBoundary(boundary: NodeId)

  /** `config && config.x != null ? config.x : 5`. */
  function ThresholdOr5(v: Option<int>): (r: int)
    ensures v.Some? ==> r == v.value
    ensures v.None? ==> r == DefaultThreshold
  {
    match v
    case Some(x) => x
    case None => 5
  }

  /** The thresholds the constructor passes to the drag reference. */
  function ConstructorThresholds(config: Option<Config>): (r: Thresholds)
    ensures config.Some? && config.value.dragStartThreshold.Some? ==>
              r.dragStart == config.value.dragStartThreshold.value
    ensures config.None? || config.value.dragStartThreshold.None? ==> r.dragStart == 5
    ensures config.Some? && config.value.pointerDirectionChangeThreshold.Some? ==>
              r.pointerDirectionChange == config.value.pointerDirectionChangeThreshold.value
    ensures config.None? || config.value.pointerDirectionChangeThreshold.None? ==>
              r.pointerDirectionChange == 5
  {
    match config
    case None => Thresholds(5, 5)
    case Some(c) => Thresholds(ThresholdOr5(c.dragStartThreshold),
                               ThresholdOr5(c.pointerDirectionChangeThreshold))
  }

  /** The `disabled` getter: the item's own flag, or its drop list's. */
  function Disabled(ownDisabled: bool, dropListDisabled: Option<bool>): (r: bool)
    ensures r <==> ownDisabled || dropListDisabled == Some(true)
  {
    ownDisabled || (dropListDisabled.Some? && dropListDisabled.value)
  }

  /** JavaScript truthiness of the optional config values. */
  predicate PreviewClassTruthy(p: PreviewClass)
  {
    match p
    case ClassName(n) => n != ""
    case ClassNames(_) => true
  }

  predicate BoundaryTruthy(b: Boundary)
  {
    match b
    case NoBoundary => false
    case BoundarySelector(s) => s != ""
    case BoundaryNode(_) => true
  }

  /** `dragStartDelay || 0` in `_assignDefaults`, and the delay
      `_syncInputs` hands to the drag reference: an object delay is kept
      as is, a number is kept, and a missing delay becomes 0. */
  function DelayOrZero(d: Option<StartDelay>): (r: StartDelay)
    ensures d.None? ==> r == DelayMillis(0)
    ensures d.Some? ==> r == d.value
  {
    match d
    case None => DelayMillis(0)
    case Some(v) => v
  }

  /** `_assignDefaults`. */
  function AssignDefaults(inputs: Inputs, config: Config): (r: Inputs)
    ensures r.disabled == (config.draggingDisabled == Some(true))
    ensures r.dragStartDelay == Some(DelayOrZero(config.dragStartDelay))
    ensures r.lockAxis == if config.lockAxis.Some? then config.lockAxis else inputs.lockAxis
    ensures r.constrainPosition ==
              if config.constrainPosition.Some? then config.constrainPosition else inputs.constrainPosition
    ensures r.previewClass ==
              if config.previewClass.Some? && PreviewClassTruthy(config.previewClass.value)
              then config.previewClass else inputs.previewClass
    ensures r.boundaryElement ==
              if config.boundaryElement.Some? && BoundaryTruthy(config.boundaryElement.value)
              then config.boundaryElement.value else inputs.boundaryElement
    ensures r.rootElementSelector ==
              if config.rootElementSelector.Some? && config.rootElementSelector.value != ""
              then config.rootElementSelector.value else inputs.rootElementSelector
  {
    var disabled := match config.draggingDisabled
                    case None => false
                    case Some(b) => b;
    var afterAxis := if config.lockAxis.Some? then config.lockAxis else inputs.lockAxis;
    var afterConstrain :=
      if config.constrainPosition.Some? then config.constrainPosition else inputs.constrainPosition;
    var afterPreview :=
      match config.previewClass
      case Some(p) => if PreviewClassTruthy(p) then config.previewClass else inputs.previewClass
      case None => inputs.previewClass;
    var afterBoundary :=
      match config.boundaryElement
      case Some(b) => if BoundaryTruthy(b) then b else inputs.boundaryElement
      case None => inputs.boundaryElement;
    var afterRoot :=
      match config.rootElementSelector
      case Some(s) => if s != "" then s else inputs.rootElementSelector
      case None => inputs.rootElementSelector;
    Inputs(disabled, Some(DelayOrZero(config.dragStartDelay)), afterAxis, afterConstrain,
           afterPreview, afterBoundary, afterRoot)
  }

  /** An absent config leaves the inputs alone; defaults apply only when
      one is injected. */
  function ConstructorInputs(inputs: Inputs, config: Option<Config>): (r: Inputs)
    ensures config.None? ==> r == inputs
    ensures config.Some? ==> (r.disabled <==> config.value.draggingDisabled == Some(true))
    ensures config.Some? ==> r.dragStartDelay == Some(DelayOrZero(config.value.dragStartDelay))
    ensures config.Some? ==> r == AssignDefaults(inputs, config.value)
  {
    match config
    case None => inputs
    case Some(c) => AssignDefaults(inputs, c)
  }

  /** `getClosestMatchingAncestor`: starting from the parent element (never
      the element itself), the nearest element that matches the selector.
      `matching` is the set of nodes the selector matches. */
  method ClosestMatchingAncestor(t: Tree, element: NodeId, matching: set<NodeId>)
    returns (r: Option<NodeId>)
    requires Valid(t)
    ensures r == FirstIn(ElementChain(t, element)[1..], matching)
    ensures r.Some? ==> r.value in matching && r.value in ElementChain(t, element)[1..]
    ensures r.None? ==> forall k :: 1 <= k < |ElementChain(t, element)| ==>
                          ElementChain(t, element)[k] !in matching
  {
    var current := ParentElement(t, element);
    while current.Some?
      invariant current.None? ==> ElementChain(t, element)[1..] == [] ||
                                  FirstIn(ElementChain(t, element)[1..], matching) == None
      invariant current.Some? ==>
        FirstIn(ElementChain(t, element)[1..], matching) == FirstIn(ElementChain(t, current.value), matching)
      decreases if current.Some? then Depth(t, current.value) + 1 else 0
    {
      var node := current.value;
      if node in matching {
        return Some(node);
      }
      var next := ParentElement(t, node);
      assert ElementChain(t, node)[1..] == if next.Some? then ElementChain(t, next.value) else [];
      current := next;
    }
    return None;
  }

  /** `_updateRootElement`: the matching ancestor when a root selector is
      set, else the element itself; a non-element root throws; no match
      falls back to the element. */
  method UpdateRootElement(t: Tree, element: NodeId, rootSelector: string, matching: set<NodeId>)
    returns (r: Result<NodeId, DragError>)
    requires Valid(t)
    ensures rootSelector == "" ==>
              (element in t.elements ==> r == Ok(element)) &&
              (element !in t.elements ==> r == Err(NotAnElementNode(element)))
    ensures rootSelector != "" ==>
              var found := FirstIn(ElementChain(t, element)[1..], matching);
              r == if found.Some? then Ok(found.value) else Ok(element)
    ensures r.Ok? && r.value != element ==> r.value in t.elements && r.value in matching
    ensures r.Err? ==> rootSelector == "" && element !in t.elements
  {
    var root: Option<NodeId>;
    if rootSelector != "" {
      root := ClosestMatchingAncestor(t, element, matching);
      if root.Some? {
        ElementChainMembersAreElements(t, element, root.value);
      }
    } else {
      root := Some(element);
    }
    if root.Some? && root.value !in t.elements {
      return Err(NotAnElementNode(root.value));
    }
    if root.Some? {
      return Ok(root.value);
    }
    return Ok(element);
  }

  /** Everything after the head of an element chain is an element. */
  lemma {:induction false} ElementChainMembersAreElements(t: Tree, n: NodeId, a: NodeId)
    requires Valid(t)
    requires a in ElementChain(t, n)[1..]
    ensures a in t.elements
    decreases Depth(t, n)
  {
    var p := ParentElement(t, n).value;
    if a != p {
      ElementChainMembersAreElements(t, p, a);
    }
  }

  /** `_getBoundaryElement`: nothing when unset, the closest matching
      ancestor for a selector, the node itself otherwise; in dev mode a node
      that does not contain the draggable throws. */
  method GetBoundaryElement(t: Tree, element: NodeId, boundary: Boundary, matching: set<NodeId>, devMode: bool)
    returns (r: Result<Option<NodeId>, DragError>)
    requires Valid(t)
    ensures !BoundaryTruthy(boundary) ==> r == Ok(None)
    ensures boundary.BoundarySelector? && boundary.selector != "" ==>
              r == Ok(FirstIn(ElementChain(t, element)[1..], matching))
    ensures boundary.BoundaryNode? ==>
              r == if devMode && !Contains(t, boundary.node, element)
                   then Err(NotInsideBoundary(boundary.node)) else Ok(Some(boundary.node))
  {
    match boundary {
      case NoBoundary =>
        return Ok(None);
      case BoundarySelector(s) =>
        if s == "" {
          return Ok(None);
        }
        var found := ClosestMatchingAncestor(t, element, matching);
        return Ok(found);
      case BoundaryNode(n) =>
        if devMode && !Contains(t, n, element) {
          return Err(NotInsideBoundary(n));
        }
        return Ok(Some(n));
    }
  }

  /** A string boundary that resolves to something always contains the
      draggable, so only node boundaries can fail the dev-mode check. */
  lemma SelectorBoundaryContainsElement(t: Tree, element: NodeId, matching: set<NodeId>)
    requires Valid(t)
    requires FirstIn(ElementChain(t, element)[1..], matching).Some?
    ensures Contains(t, FirstIn(ElementChain(t, element)[1..], matching).value, element)
  {
    var b := FirstIn(ElementChain(t, element)[1..], matching).value;
    ElementChainInNodeChain(t, element, b);
  }

  datatype Point = Point(x: int, y: int)

  /** One `SimpleChange`: only whether it is the first one matters here. */
  datatype Change = Change(firstChange: bool)

  /** What `ngOnChanges` asks of the drag reference. */
  datatype ChangeActions = ChangeActions(updateRootElement: bool, setFreeDragPosition: Option<Point>)

  /** `ngOnChanges`: first changes of the root selector and free position
      are left to `ngAfterViewInit`; later ones are applied at once. */
  function OnChanges(rootSelectorChange: Option<Change>, positionChange: Option<Change>,
                     freeDragPosition: Option<Point>): (r: ChangeActions)
    ensures r.updateRootElement <==> rootSelectorChange.Some? && !rootSelectorChange.value.firstChange
    ensures r.setFreeDragPosition.Some? <==>
              positionChange.Some? && !positionChange.value.firstChange && freeDragPosition.Some?
    ensures r.setFreeDragPosition.Some? ==> r.setFreeDragPosition == freeDragPosition
  {
    var updateRoot := rootSelectorChange.Some? && !rootSelectorChange.value.firstChange;
    var setPosition := if positionChange.Some? && !positionChange.value.firstChange && freeDragPosition.Some?
                       then freeDragPosition else None;
    ChangeActions(updateRoot, setPosition)
  }
}

=== FILE: drag_session.dfy ===
/** The drag-session bookkeeping of the experimental `CdkDrag`: the
    registry's "is dragging" guard on pointer down/move/up, the free-drag
    transform with its active-to-passive hand-off, exit-then-enter when the
    pointer reaches a sibling container, the item's index among the
    draggable siblings in the DOM, handle selection, the preview and
    placeholder lifecycle, and the early exits of the drop animation.
    Pointer coordinates arrive already converted to page coordinates; the
    geometry of the preview and the sorting inside a container are left to
    the container. */
module DragSession {
  import opened Wrappers
  import opened Dom

  type ContainerId = nat

  datatype Point = Point(x: int, y: int)

  /** Events in the order the item emits them. */
  datatype DragEvent =
    | Started
    | Exited(container: ContainerId)
    | Entered(container: ContainerId)
    | Ended
    | Dropped(currentIndex: int, previousIndex: int, container: ContainerId, previousContainer: ContainerId)

  /** The visual proxies created while dragging inside a container. */
  datatype Proxies = Proxies(preview: Option<NodeId>, previewView: Option<nat>,
                             placeholder: Option<NodeId>, placeholderView: Option<nat>)

  datatype Session = Session(
    dragging: bool,                       // the registry's `isDragging(this)`
    hasMoved: bool,
    passiveTransform: Point,
    activeTransform: Point,
    pickupInElement: Point,
    pickupOnPage: Point,
    previewTransform: Point,
    container: Option<ContainerId>,
    initialContainer: Option<ContainerId>,
    proxies: Proxies,
    detached: set<NodeId>,                // nodes removed from the document by cleanup
    events: seq<DragEvent>)

  const Origin := Point(0, 0)

  /** A freshly constructed item inside `container` (or standalone). */
  function Initial(container: Option<ContainerId>): (s: Session)
    ensures !s.dragging && !s.hasMoved && s.events == []
    ensures s.passiveTransform == Origin && s.activeTransform == Origin
  {
    Session(false, false, Origin, Origin, Origin, Origin, Origin, container, None,
            Proxies(None, None, None, None), {}, [])
  }

  /** `_startDragging`: which element the drag starts from. With handles,
      the first handle that is the target or contains it; with none, the
      item's own element. `None` means the press is ignored. */
  function ReferenceElement(t: Tree, element: NodeId, handles: seq<NodeId>, target: Option<NodeId>): (r: Option<NodeId>)
    requires Valid(t)
    ensures |handles| == 0 ==> r == Some(element)
    ensures |handles| > 0 && r.Some? ==>
              target.Some? &&
              exists k :: 0 <= k < |handles| && handles[k] == r.value && Contains(t, handles[k], target.value) &&
                          forall j :: 0 <= j < k ==> !Contains(t, handles[j], target.value)
    ensures |handles| > 0 && r.None? ==>
              target.None? || forall k :: 0 <= k < |handles| ==> !Contains(t, handles[k], target.value)
  {
    if |handles| == 0 then Some(element)
    else if target.None? then None
    else FirstContaining(t, handles, target.value)
  }

  /** The first handle in `handles` that contains `target`. */
  function FirstContaining(t: Tree, handles: seq<NodeId>, target: NodeId): (r: Option<NodeId>)
    requires Valid(t)
    ensures r.Some? ==> exists k :: 0 <= k < |handles| && handles[k] == r.value && Contains(t, handles[k], target) &&
                                    forall j :: 0 <= j < k ==> !Contains(t, handles[j], target)
    ensures r.None? <==> forall k :: 0 <= k < |handles| ==> !Contains(t, handles[k], target)
  {
    if |handles| == 0 then None
    else if Contains(t, handles[0], target) then Some(handles[0])
    else
      var r := FirstContaining(t, handles[1..], target);
      assert forall k :: 1 <= k < |handles| ==> handles[k] == handles[1..][k - 1];
      r
  }

  /** `_pointerDown` as written. `pointer` is the page position of the
      press, `pointerInElement` where it hit the element, and `preview` /
      `placeholder` the proxies created when the item has a container. */
  function PointerDownAsWritten(s: Session, pointer: Point, pointerInElement: Point, hasPreviewTemplate: bool,
                                preview: NodeId, previewView: Option<nat>,
                                placeholder: NodeId, placeholderView: Option<nat>): (r: Session)
    ensures s.dragging ==> r == s
    ensures !s.dragging ==> r.dragging && r.hasMoved == s.hasMoved
  {
    if s.dragging then s
    else
      var started := s.(dragging := true,
                        initialContainer := s.container,
                        pickupInElement := if hasPreviewTemplate then Origin else pointerInElement,
                        pickupOnPage := pointer,
                        events := s.events + [Started]);
      if s.container.Some? then
        started.(proxies := Proxies(Some(preview), previewView, Some(placeholder), placeholderView))
      else started
  }

  /** `_pointerDown` with the moved flag cleared for the new gesture; the
      rest of the model uses this one. */
  function PointerDown(s: Session, pointer: Point, pointerInElement: Point, hasPreviewTemplate: bool,
                       preview: NodeId, previewView: Option<nat>,
                       placeholder: NodeId, placeholderView: Option<nat>): (r: Session)
    ensures s.dragging ==> r == s
    ensures !s.dragging ==> r.dragging && !r.hasMoved && r.pickupOnPage == pointer
    ensures !s.dragging ==> r.initialContainer == s.container && r.container == s.container
    ensures !s.dragging ==> r.events == s.events + [Started]
    ensures !s.dragging ==> r.passiveTransform == s.passiveTransform
    ensures !s.dragging ==> (r.pickupInElement == if hasPreviewTemplate then Origin else pointerInElement)
    ensures !s.dragging && s.container.Some? ==> r.proxies.preview == Some(preview) && r.proxies.placeholder == Some(placeholder)
    ensures !s.dragging && s.container.None? ==> r.proxies == s.proxies
  {
    if s.dragging then s
    else PointerDownAsWritten(s, pointer, pointerInElement, hasPreviewTemplate,
                              preview, previewView, placeholder, placeholderView).(hasMoved := false)
  }

  /** The free-drag transform on one axis. */
  function FreeAxis(pointer: int, pickup: int, passive: int): int
  {
    pointer - pickup + passive
  }

  /** `_pointerMove`. `sibling` is what the container reports for the
      pointer position (`_getSiblingContainerFromPosition`). */
  function PointerMove(s: Session, pointer: Point, sibling: Option<ContainerId>): (r: Session)
    ensures !s.dragging ==> r == s
    ensures s.dragging ==> r.hasMoved && r.dragging
    ensures s.dragging && s.container.None? ==>
              r.activeTransform.x - s.passiveTransform.x == pointer.x - s.pickupOnPage.x &&
              r.activeTransform.y - s.passiveTransform.y == pointer.y - s.pickupOnPage.y
    ensures s.dragging && s.container.None? ==> r.events == s.events && r.container == s.container
    ensures s.dragging && s.container.Some? ==> r.activeTransform == s.activeTransform
  {
    if !s.dragging then s
    else
      var moved := s.(hasMoved := true);
      if s.container.Some? then UpdateActiveDropContainer(moved, pointer, sibling)
      else moved.(activeTransform := Point(FreeAxis(pointer.x, s.pickupOnPage.x, s.passiveTransform.x),
                                           FreeAxis(pointer.y, s.pickupOnPage.y, s.passiveTransform.y)))
  }

  /** `_updateActiveDropContainer`: on reaching a sibling container the old
      one is exited before the new one is entered, and the item moves over;
      the preview follows the pointer either way. */
  function UpdateActiveDropContainer(s: Session, pointer: Point, sibling: Option<ContainerId>): (r: Session)
    requires s.container.Some?
    ensures sibling.None? ==> r.events == s.events && r.container == s.container
    ensures sibling.Some? ==> r.events == s.events + [Exited(s.container.value), Entered(sibling.value)]
    ensures sibling.Some? ==> r.container == sibling
    ensures r.previewTransform == Point(pointer.x - s.pickupInElement.x, pointer.y - s.pickupInElement.y)
    ensures r.dragging == s.dragging && r.hasMoved == s.hasMoved && r.proxies == s.proxies
  {
    var switched :=
      if sibling.Some? then
        s.(events := s.events + [Exited(s.container.value), Entered(sibling.value)], container := sibling)
      else s;
    switched.(previewTransform := Point(pointer.x - s.pickupInElement.x, pointer.y - s.pickupInElement.y))
  }

  /** What `_animatePreviewToPlaceholder` does before cleanup. */
  datatype Animation = ResolveImmediately | AwaitTransitionEnd

  /** The drop animation resolves at once when the item never moved or the
      preview has no transition. The wait's timeout is left to the caller. */
  function AnimatePreviewToPlaceholder(hasMoved: bool, transitionMs: int): (r: Animation)
    ensures r == ResolveImmediately <==> !hasMoved || transitionMs == 0
  {
    if !hasMoved then ResolveImmediately
    else if transitionMs == 0 then ResolveImmediately
    else AwaitTransitionEnd
  }

  /** `_removeElement` of a proxy reference. */
  function RemoveNode(detached: set<NodeId>, n: Option<NodeId>): set<NodeId>
  {
    if n.Some? then detached + {n.value} else detached
  }

  /** `_destroyPreview`. */
  function DestroyPreview(s: Session): (r: Session)
    ensures r.proxies.preview.None? && r.proxies.previewView.None?
    ensures r.proxies.placeholder == s.proxies.placeholder
    ensures s.proxies.preview.Some? ==> s.proxies.preview.value in r.detached
    ensures s.detached <= r.detached
  {
    s.(detached := RemoveNode(s.detached, s.proxies.preview),
       proxies := s.proxies.(preview := None, previewView := None))
  }

  /** `_destroyPlaceholder`. */
  function DestroyPlaceholder(s: Session): (r: Session)
    ensures r.proxies.placeholder.None? && r.proxies.placeholderView.None?
    ensures r.proxies.preview == s.proxies.preview
    ensures s.proxies.placeholder.Some? ==> s.proxies.placeholder.value in r.detached
    ensures s.detached <= r.detached
  {
    s.(detached := RemoveNode(s.detached, s.proxies.placeholder),
       proxies := s.proxies.(placeholder := None, placeholderView := None))
  }

  /** Destroying the proxies nulls both and can be repeated safely. */
  lemma DestroyIsIdempotent(s: Session)
    ensures DestroyPlaceholder(DestroyPreview(DestroyPlaceholder(DestroyPreview(s)))) ==
            DestroyPlaceholder(DestroyPreview(s))
    ensures DestroyPlaceholder(DestroyPreview(s)).proxies == Proxies(None, None, None, None)
  {
  }

  /** `_pointerUp`. Without a container the active transform becomes the
      passive one and the drag ends; with one, the returned animation
      decides when `CleanupDragArtifacts` runs. */
  function PointerUp(s: Session, transitionMs: int): (r: (Session, Option<Animation>))
    ensures !s.dragging ==> r == (s, None)
    ensures s.dragging ==> !r.0.dragging
    ensures s.dragging && s.container.None? ==>
              r.0.passiveTransform == s.activeTransform && r.0.events == s.events + [Ended] && r.1.None?
    ensures s.dragging && s.container.Some? ==>
              r.1 == Some(AnimatePreviewToPlaceholder(s.hasMoved, transitionMs)) && r.0.events == s.events
  {
    if !s.dragging then (s, None)
    else
      var stopped := s.(dragging := false);
      if s.container.None? then
        (stopped.(passiveTransform := s.activeTransform, events := s.events + [Ended]), None)
      else (stopped, Some(AnimatePreviewToPlaceholder(s.hasMoved, transitionMs)))
  }

  /** `_cleanupDragArtifacts`: the proxies go, then `ended` and `dropped`
      are emitted in that order with the index found in the DOM and the
      index the item had in its initial container. */
  function CleanupDragArtifacts(s: Session, currentIndex: int, previousIndex: int): (r: Session)
    requires s.container.Some? && s.initialContainer.Some?
    ensures r.proxies == Proxies(None, None, None, None)
    ensures r.events == s.events + [Ended, Dropped(currentIndex, previousIndex, s.container.value, s.initialContainer.value)]
  {
    var cleaned := DestroyPlaceholder(DestroyPreview(s));
    cleaned.(events := s.events + [Ended, Dropped(currentIndex, previousIndex, s.container.value, s.initialContainer.value)])
  }

  /** `ngOnDestroy`: the proxies are removed, and an item destroyed while
      being dragged also has its own element removed (it sits at the end of
      the body at that point) and leaves the registry. */
  function Destroy(s: Session, element: NodeId): (r: Session)
    ensures r.proxies == Proxies(None, None, None, None) && !r.dragging
    ensures s.dragging ==> element in r.detached
    ensures !s.dragging ==> r.detached == RemoveNode(RemoveNode(s.detached, s.proxies.preview), s.proxies.placeholder)
    ensures r.events == s.events
  {
    var cleaned := DestroyPlaceholder(DestroyPreview(s));
    if s.dragging then cleaned.(detached := cleaned.detached + {element}, dragging := false)
    else cleaned
  }

  /** Number of elements of `s` that belong to `others`. */
  function CountIn(s: seq<NodeId>, others: set<NodeId>): nat
  {
    if |s| == 0 then 0 else CountIn(s[..|s| - 1], others) + (if s[|s| - 1] in others then 1 else 0)
  }

  /** Index of the first occurrence of `x` in `s`, or -1. */
  function IndexOf(s: seq<NodeId>, x: NodeId): (r: int)
    ensures -1 <= r < |s|
    ensures r >= 0 ==> s[r] == x && x !in s[..r]
    ensures r == -1 <==> x !in s
  {
    if |s| == 0 then -1
    else if s[0] == x then 0
    else var k := IndexOf(s[1..], x); if k == -1 then -1 else k + 1
  }

  /** `_getElementIndexInDom`: -1 without a parent element or if the
      element is not among its parent's children; otherwise the number of
      earlier siblings that are the elements of the container's other
      draggables. */
  method ElementIndexInDom(hasParent: bool, siblings: seq<NodeId>, element: NodeId, otherDraggables: set<NodeId>)
    returns (index: int)
    ensures !hasParent ==> index == -1
    ensures hasParent && element !in siblings ==> index == -1
    ensures hasParent && element in siblings ==>
              index == CountIn(siblings[..IndexOf(siblings, element)], otherDraggables)
    ensures index >= -1
  {
    if !hasParent {
      return -1;
    }
    var count := 0;
    var i := 0;
    while i < |siblings|
      invariant 0 <= i <= |siblings|
      invariant element !in siblings[..i]
      invariant count == CountIn(siblings[..i], otherDraggables)
    {
      if siblings[i] == element {
        assert IndexOf(siblings, element) == i by { IndexOfFirst(siblings, element, i); }
        return count;
      } else if siblings[i] in otherDraggables {
        count := count + 1;
      }
      assert siblings[..i + 1][..i] == siblings[..i];
      i := i + 1;
    }
    assert siblings[..i] == siblings;
    return -1;
  }

  lemma {:induction false} IndexOfFirst(s: seq<NodeId>, x: NodeId, i: nat)
    requires i < |s| && s[i] == x && x !in s[..i]
    ensures IndexOf(s, x) == i
    decreases i
  {
    if i > 0 {
      assert s[1..][..i - 1] == s[..i][1..];
      IndexOfFirst(s[1..], x, i - 1);
    }
  }

  /** A free drag keeps its place: after a drag ends, the next one starts
      from the dropped position, so the element sits at the pickup-relative
      pointer offset plus where the previous drag left it. */
  lemma FreeDragContinues(s: Session, down1: Point, move1: Point, down2: Point, move2: Point,
                          inElement: Point, preview: NodeId, placeholder: NodeId)
    requires !s.dragging && s.container.None?
    ensures
      var a := PointerDown(s, down1, inElement, false, preview, None, placeholder, None);
      var b := PointerMove(a, move1, None);
      var c := PointerUp(b, 0).0;
      var d := PointerDown(c, down2, inElement, false, preview, None, placeholder, None);
      var e := PointerMove(d, move2, None);
      && c.passiveTransform == Point(move1.x - down1.x + s.passiveTransform.x, move1.y - down1.y + s.passiveTransform.y)
      && e.activeTransform == Point(move2.x - down2.x + c.passiveTransform.x, move2.y - down2.y + c.passiveTransform.y)
      && e.events == s.events + [Started, Ended, Started]
  {
  }

  /** Guards: a second press while dragging, and moves or releases while
      not dragging, change nothing. */
  lemma GuardsIgnoreOutOfSessionEvents(s: Session, p: Point, q: Point, sibling: Option<ContainerId>, ms: int,
                                       preview: NodeId, placeholder: NodeId)
    ensures s.dragging ==> PointerDown(s, p, q, false, preview, None, placeholder, None) == s
    ensures !s.dragging ==> PointerMove(s, p, sibling) == s && PointerUp(s, ms).0 == s
  {
  }

  /** Exit-then-enter ordering: switching container appends exactly the
      exit of the old container followed by the entry into the new one. */
  lemma ContainerSwitchOrder(s: Session, p: Point, sibling: ContainerId)
    requires s.dragging && s.container.Some?
    ensures var r := PointerMove(s, p, Some(sibling));
            r.events[|s.events|..] == [Exited(s.container.value), Entered(sibling)] && r.container == Some(sibling)
  {
  }

  /** As written, a press that follows a drag in which the pointer moved
      keeps the moved flag, so releasing it without moving does not take
      the early exit of the drop animation. */
  lemma MovedFlagSurvivesNewPress(c: ContainerId, pointer: Point, preview: NodeId, placeholder: NodeId)
    ensures
      var s0 := Initial(Some(c));
      var s1 := PointerDownAsWritten(s0, pointer, Origin, false, preview, None, placeholder, None);
      var s2 := PointerMove(s1, pointer, None);
      var s3 := PointerUp(s2, 150).0;
      var s4 := PointerDownAsWritten(s3, pointer, Origin, false, preview, None, placeholder, None);
      s4.hasMoved && PointerUp(s4, 150).1 == Some(AwaitTransitionEnd)
  {
  }

  /** With the flag cleared on each press, a press released without a move
      always resolves the drop animation at once. */
  lemma UnmovedReleaseResolvesImmediately(s: Session, pointer: Point, inElement: Point, preview: NodeId,
                                          placeholder: NodeId, ms: int)
    requires !s.dragging && s.container.Some?
    ensures
      var d := PointerDown(s, pointer, inElement, false, preview, None, placeholder, None);
      PointerUp(d, ms).1 == Some(ResolveImmediately)
  {
  }
}

=== FILE: input_container.dfy ===
/** `MdInputDirective` and `MdInputContainer`: the input type check, the
    emptiness rule, change notifications, hint and placeholder
    validation, the `aria-describedby` list and the floating-placeholder
    setting. The set of input types the browser supports is a parameter,
    as it comes from feature detection. */
module InputContainer {
  import opened Wrappers
  import opened Strings

  /** Types that make the `type` setter throw. */
  const InvalidTypes: seq<string> :=
    ["button", "checkbox", "color", "file", "hidden", "image", "radio", "range", "reset", "submit"]

  /** Types whose input always shows something, before filtering by
      browser support. */
  const NeverEmptyCandidates: seq<string> := ["date", "datetime", "datetime-local", "month", "time", "week"]

  datatype InputError =
    | UnsupportedType(inputType: string)
    | DuplicatedHint(align: string)
    | PlaceholderConflict
    | MissingInput

  /** The input directive's state; `value` is the native element's value
      (`None` for null), `stateChanges` counts `_stateChanges` emissions
      and `nativeType` is the type written to the native element. */
  datatype Input = Input(
    inputType: string,
    nativeType: Option<string>,
    value: Option<string>,
    focused: bool,
    readonly: bool,
    isTextarea: bool,
    stateChanges: nat)

  /** A JavaScript string that may be null, read for truthiness. */
  predicate Truthy(s: Option<string>)
  {
    s.Some? && s.value != ""
  }

  /** The `type` setter: a falsy value becomes "text", the new type is
      stored before it is validated, and a supported type on a non-textarea
      is mirrored to the native element. */
  function SetType(i: Input, value: Option<string>, supported: set<string>): (r: (Input, Option<InputError>))
    ensures r.0.inputType == if Truthy(value) then value.value else "text"
    ensures r.1.Some? <==> r.0.inputType in InvalidTypes
    ensures r.1.Some? ==> r.1.value == UnsupportedType(r.0.inputType) && r.0.nativeType == i.nativeType
    ensures r.1.None? && !i.isTextarea && r.0.inputType in supported ==> r.0.nativeType == Some(r.0.inputType)
    ensures r.1.None? && (i.isTextarea || r.0.inputType !in supported) ==> r.0.nativeType == i.nativeType
    ensures r.0.value == i.value && r.0.focused == i.focused && r.0.stateChanges == i.stateChanges
  {
    var t := if Truthy(value) then value.value else "text";
    var stored := i.(inputType := t);
    if t in InvalidTypes then (stored, Some(UnsupportedType(t)))
    else if !i.isTextarea && t in supported then (stored.(nativeType := Some(t)), None)
    else (stored, None)
  }

  /** An unset or empty type is accepted and becomes "text". */
  lemma EmptyTypeIsText(i: Input, supported: set<string>)
    ensures SetType(i, None, supported).0.inputType == "text" && SetType(i, None, supported).1.None?
    ensures SetType(i, Some(""), supported) == SetType(i, None, supported)
  {
  }

  /** `_neverEmptyInputTypes`: the candidates the browser supports, in
      order. */
  function NeverEmptyTypes(supported: set<string>): (r: seq<string>)
    ensures forall t :: t in r <==> t in NeverEmptyCandidates && t in supported
  {
    FilterSupported(NeverEmptyCandidates, supported)
  }

  function FilterSupported(types: seq<string>, supported: set<string>): (r: seq<string>)
    ensures forall t :: t in r <==> t in types && t in supported
    ensures |r| <= |types|
  {
    if |types| == 0 then []
    else if types[0] in supported then [types[0]] + FilterSupported(types[1..], supported)
    else FilterSupported(types[1..], supported)
  }

  /** The `empty` getter. `badInput` is the native validity's flag, `None`
      where the element has no `validity` (server rendering). */
  function Empty(i: Input, supported: set<string>, badInput: Option<bool>): (r: bool)
    ensures i.inputType in NeverEmptyCandidates && i.inputType in supported ==> !r
    ensures !(i.inputType in NeverEmptyCandidates && i.inputType in supported) ==>
              (r <==> (i.value.None? || i.value == Some("")) && badInput != Some(true))
  {
    && i.inputType !in NeverEmptyTypes(supported)
    && (i.value.None? || i.value.value == "")
    && !(badInput.Some? && badInput.value)
  }

  /** The `value` setter: write and notify only on a different value. */
  function SetValue(i: Input, value: string): (r: Input)
    ensures r.value == Some(value)
    ensures r.stateChanges == i.stateChanges + (if i.value == Some(value) then 0 else 1)
    ensures i.value == Some(value) ==> r == i
  {
    if i.value != Some(value) then i.(value := Some(value), stateChanges := i.stateChanges + 1) else i
  }

  /** `_focusChanged`: record and notify only on a different state. */
  function FocusChanged(i: Input, isFocused: bool): (r: Input)
    ensures r.focused == isFocused
    ensures r.stateChanges == i.stateChanges + (if i.focused == isFocused then 0 else 1)
    ensures i.focused == isFocused ==> r == i
  {
    if isFocused != i.focused then i.(focused := isFocused, stateChanges := i.stateChanges + 1) else i
  }

  /** Repeating a value or focus change notifies nothing more. */
  lemma ChangesAreIdempotent(i: Input, value: string, isFocused: bool)
    ensures SetValue(SetValue(i, value), value) == SetValue(i, value)
    ensures FocusChanged(FocusChanged(i, isFocused), isFocused) == FocusChanged(i, isFocused)
  {
  }

  /** `_onFocus`: a readonly input does not become focused. */
  function OnFocus(i: Input): (r: Input)
    ensures r.focused <==> i.focused || !i.readonly
    ensures r.stateChanges == i.stateChanges
  {
    if !i.readonly then i.(focused := true) else i
  }

  datatype Hint = Hint(id: string, align: string)
  datatype ErrorChild = ErrorChild(id: string)

  /** Number of hints with the given alignment. */
  function CountAlign(hints: seq<Hint>, align: string): nat
  {
    if |hints| == 0 then 0
    else CountAlign(hints[..|hints| - 1], align) + (if hints[|hints| - 1].align == align then 1 else 0)
  }

  lemma {:induction false} CountAlignPrefix(hints: seq<Hint>, align: string, i: nat)
    requires i <= |hints|
    ensures CountAlign(hints[..i], align) <= CountAlign(hints, align)
    decreases |hints| - i
  {
    if i < |hints| {
      CountAlignPrefix(hints, align, i + 1);
      var p := hints[..i + 1];
      assert p[..|p| - 1] == hints[..i];
    } else {
      assert hints[..i] == hints;
    }
  }

  /** The promise of `_validateHints`: at most one start hint, at most
      one end hint, and no start hint next to a hint label. */
  predicate HintsValid(hints: seq<Hint>, hintLabel: string)
  {
    && CountAlign(hints, "start") <= 1
    && CountAlign(hints, "end") <= 1
    && (CountAlign(hints, "start") == 0 || hintLabel == "")
  }

  /** `_validateHints`: walk the hints and throw at the first start hint
      after another start hint or next to a hint label, or the first end
      hint after another end hint. Without hint children nothing is
      checked. */
  method ValidateHints(hints: Option<seq<Hint>>, hintLabel: string) returns (r: Option<InputError>)
    ensures r.None? <==> hints.None? || HintsValid(hints.value, hintLabel)
    ensures r.Some? && r.value == DuplicatedHint("start") ==>
              CountAlign(hints.value, "start") > 1 || (CountAlign(hints.value, "start") > 0 && hintLabel != "")
    ensures r.Some? && r.value == DuplicatedHint("end") ==> CountAlign(hints.value, "end") > 1
    ensures r.Some? ==> r.value == DuplicatedHint("start") || r.value == DuplicatedHint("end")
  {
    if hints.None? {
      return None;
    }
    var hs := hints.value;
    var seenStart := false;
    var seenEnd := false;
    var i := 0;
    while i < |hs|
      invariant 0 <= i <= |hs|
      invariant HintsValid(hs[..i], hintLabel)
      invariant seenStart <==> CountAlign(hs[..i], "start") > 0
      invariant seenEnd <==> CountAlign(hs[..i], "end") > 0
    {
      assert hs[..i + 1][..i] == hs[..i];
      if hs[i].align == "start" {
        if seenStart || hintLabel != "" {
          CountAlignPrefix(hs, "start", i + 1);
          return Some(DuplicatedHint("start"));
        }
        seenStart := true;
      } else if hs[i].align == "end" {
        if seenEnd {
          CountAlignPrefix(hs, "end", i + 1);
          return Some(DuplicatedHint("end"));
        }
        seenEnd := true;
      }
      i := i + 1;
    }
    assert hs[..i] == hs;
    return None;
  }

  /** `_getDisplayedMessages`. */
  datatype Messages = ErrorMessages | HintMessages

  function GetDisplayedMessages(errors: Option<seq<ErrorChild>>, isErrorState: bool): (r: Messages)
    ensures r == ErrorMessages <==> errors.Some? && |errors.value| > 0 && isErrorState
  {
    if errors.Some? && |errors.value| > 0 && isErrorState then ErrorMessages else HintMessages
  }

  /** `QueryList.find`: the first hint with the given alignment. */
  function FindHint(hints: seq<Hint>, align: string): (r: Option<Hint>)
    ensures r.Some? ==> exists k :: 0 <= k < |hints| && hints[k] == r.value && hints[k].align == align &&
                                    forall j :: 0 <= j < k ==> hints[j].align != align
    ensures r.None? <==> forall k :: 0 <= k < |hints| ==> hints[k].align != align
    ensures r.None? <==> CountAlign(hints, align) == 0
  {
    CountZeroIffNone(hints, align);
    if |hints| == 0 then None
    else if hints[0].align == align then Some(hints[0])
    else
      var r := FindHint(hints[1..], align);
      assert forall k :: 1 <= k < |hints| ==> hints[k] == hints[1..][k - 1];
      r
  }

  lemma {:induction false} CountZeroIffNone(hints: seq<Hint>, align: string)
    ensures CountAlign(hints, align) == 0 <==> forall k :: 0 <= k < |hints| ==> hints[k].align != align
    decreases |hints|
  {
    if |hints| > 0 {
      CountZeroIffNone(hints[..|hints| - 1], align);
      assert forall k :: 0 <= k < |hints| - 1 ==> hints[..|hints| - 1][k] == hints[k];
    }
  }

  /** The ids `_syncAriaDescribedby` lists. In hint mode: the start hint's
      id, else the hint label's id when there is a label, then the end
      hint's id. In error mode: every error's id. */
  function DescribedByIds(hints: Option<seq<Hint>>, hintLabel: string, hintLabelId: string,
                          errors: Option<seq<ErrorChild>>, isErrorState: bool): (ids: seq<string>)
    ensures GetDisplayedMessages(errors, isErrorState) == ErrorMessages ==>
              |ids| == |errors.value| && forall k :: 0 <= k < |ids| ==> ids[k] == errors.value[k].id
    ensures GetDisplayedMessages(errors, isErrorState) == HintMessages ==>
              var start := if hints.Some? then FindHint(hints.value, "start") else None;
              var end := if hints.Some? then FindHint(hints.value, "end") else None;
              ids == (if start.Some? then [start.value.id] else if hintLabel != "" then [hintLabelId] else [])
                     + (if end.Some? then [end.value.id] else [])
  {
    if GetDisplayedMessages(errors, isErrorState) == HintMessages then
      var start := if hints.Some? then FindHint(hints.value, "start") else None;
      var end := if hints.Some? then FindHint(hints.value, "end") else None;
      (if start.Some? then [start.value.id] else if hintLabel != "" then [hintLabelId] else [])
        + (if end.Some? then [end.value.id] else [])
    else ErrorIds(errors.value)
  }

  /** The errors' ids, in order. */
  function ErrorIds(errors: seq<ErrorChild>): (ids: seq<string>)
    ensures |ids| == |errors| && forall k :: 0 <= k < |ids| ==> ids[k] == errors[k].id
  {
    if |errors| == 0 then [] else [errors[0].id] + ErrorIds(errors[1..])
  }

  /** `_syncAriaDescribedby`: the ids joined by single spaces. */
  function AriaDescribedby(hints: Option<seq<Hint>>, hintLabel: string, hintLabelId: string,
                           errors: Option<seq<ErrorChild>>, isErrorState: bool): (r: string)
    ensures |DescribedByIds(hints, hintLabel, hintLabelId, errors, isErrorState)| == 0 ==> r == ""
  {
    Join(DescribedByIds(hints, hintLabel, hintLabelId, errors, isErrorState), ' ')
  }

  /** Splitting the attribute on spaces gives back the listed ids, when
      there are any and none contains a space. */
  lemma AriaDescribedbySplitsIntoIds(hints: Option<seq<Hint>>, hintLabel: string, hintLabelId: string,
                                     errors: Option<seq<ErrorChild>>, isErrorState: bool)
    requires var ids := DescribedByIds(hints, hintLabel, hintLabelId, errors, isErrorState);
             |ids| >= 1 && forall k :: 0 <= k < |ids| ==> ' ' !in ids[k]
    ensures Split(AriaDescribedby(hints, hintLabel, hintLabelId, errors, isErrorState), ' ')
            == DescribedByIds(hints, hintLabel, hintLabelId, errors, isErrorState)
  {
    SplitJoin(DescribedByIds(hints, hintLabel, hintLabelId, errors, isErrorState), ' ');
  }

  /** In hint mode at most two ids are listed, and the hint label's id
      only when there is no start hint. */
  lemma HintModeListsAtMostTwo(hints: Option<seq<Hint>>, hintLabel: string, hintLabelId: string,
                               errors: Option<seq<ErrorChild>>, isErrorState: bool)
    requires GetDisplayedMessages(errors, isErrorState) == HintMessages
    requires hints.Some? && CountAlign(hints.value, "start") > 0
    ensures var ids := DescribedByIds(hints, hintLabel, hintLabelId, errors, isErrorState);
            1 <= |ids| <= 2 && ids[0] == FindHint(hints.value, "start").value.id
  {
  }

  /** `_validatePlaceholders`: an input placeholder and a placeholder
      child together are a conflict. */
  function ValidatePlaceholders(placeholder: Option<string>, hasPlaceholderChild: bool): (r: Option<InputError>)
    ensures r.Some? <==> Truthy(placeholder) && hasPlaceholderChild
    ensures r.Some? ==> r.value == PlaceholderConflict
  {
    if Truthy(placeholder) && hasPlaceholderChild then Some(PlaceholderConflict) else None
  }

  /** `_hasPlaceholder`. */
  function HasPlaceholder(placeholder: Option<string>, hasPlaceholderChild: bool): (r: bool)
    ensures r <==> Truthy(placeholder) || hasPlaceholderChild
  {
    Truthy(placeholder) || hasPlaceholderChild
  }

  /** A valid placeholder configuration has at most one placeholder. */
  lemma ValidPlaceholdersAreSingle(placeholder: Option<string>, hasPlaceholderChild: bool)
    requires ValidatePlaceholders(placeholder, hasPlaceholderChild).None? && HasPlaceholder(placeholder, hasPlaceholderChild)
    ensures Truthy(placeholder) != hasPlaceholderChild
  {
  }

  datatype FloatPlaceholder = Always | Never | Auto

  /** The container's `floatPlaceholder` field, `None` before the
      constructor first sets it. */
  datatype Container = Container(floatPlaceholder: Option<FloatPlaceholder>, globalFloat: Option<FloatPlaceholder>, checks: nat)

  /** The `floatPlaceholder` setter: a different value is stored, a falsy
      one falling back to the global option and then to 'auto'. */
  function SetFloatPlaceholder(c: Container, value: Option<FloatPlaceholder>): (r: Container)
    ensures value == c.floatPlaceholder ==> r == c
    ensures value != c.floatPlaceholder ==> r.floatPlaceholder.Some? && r.checks == c.checks + 1
    ensures value != c.floatPlaceholder && value.Some? ==> r.floatPlaceholder == value
    ensures value != c.floatPlaceholder && value.None? && c.globalFloat.Some? ==> r.floatPlaceholder == c.globalFloat
    ensures value != c.floatPlaceholder && value.None? && c.globalFloat.None? ==> r.floatPlaceholder == Some(Auto)
  {
    if value != c.floatPlaceholder then
      c.(floatPlaceholder := Some(value.OrElse(c.globalFloat).OrElse(Some(Auto)).value), checks := c.checks + 1)
    else c
  }

  /** The constructor: `floatPlaceholder` starts at the global option or
      'auto'. */
  function NewContainer(globalFloat: Option<FloatPlaceholder>): (r: Container)
    ensures r.floatPlaceholder == Some(globalFloat.OrElse(Some(Auto)).value)
    ensures r.globalFloat == globalFloat
  {
    SetFloatPlaceholder(Container(None, globalFloat, 0), Some(globalFloat.OrElse(Some(Auto)).value))
  }

  /** `_shouldAlwaysFloat`. */
  function ShouldAlwaysFloat(c: Container): (r: bool)
    ensures r <==> c.floatPlaceholder == Some(Always)
  {
    c.floatPlaceholder == Some(Always)
  }

  /** `_canPlaceholderFloat`. */
  function CanPlaceholderFloat(c: Container): (r: bool)
    ensures r <==> c.floatPlaceholder != Some(Never)
  {
    c.floatPlaceholder != Some(Never)
  }

  /** A placeholder that always floats can float. */
  lemma AlwaysFloatCanFloat(c: Container)
    ensures ShouldAlwaysFloat(c) ==> CanPlaceholderFloat(c)
  {
  }

  /** `_validateInputChild`. */
  function ValidateInputChild(hasInputChild: bool): (r: Option<InputError>)
    ensures r.Some? <==> !hasInputChild
  {
    if hasInputChild then None else Some(MissingInput)
  }
}

=== FILE: menu_directive.dfy ===
/** `MdMenu`: its position attributes, the class map handed to `ngClass`
    and focusing the first item. */
module MenuDirective {
  import opened Wrappers
  import opened Strings

  datatype PositionX = Before | After
  datatype PositionY = Above | Below

  datatype MenuError = InvalidPositionX | InvalidPositionY | NoItems

  /** The menu's state: positions, the class map and the key manager's
      focused index. */
  datatype Menu = Menu(positionX: PositionX, positionY: PositionY, classList: map<string, bool>,
                       itemCount: nat, focusedItemIndex: Option<nat>, focusedItems: seq<nat>)

  /** `_setPositionX`: only "before" and "after" are accepted. */
  function ParsePositionX(pos: string): (r: Result<PositionX, MenuError>)
    ensures r == Ok(Before) <==> pos == "before"
    ensures r == Ok(After) <==> pos == "after"
    ensures r.Err? <==> pos != "before" && pos != "after"
    ensures r.Err? ==> r.error == InvalidPositionX
  {
    if pos == "before" then Ok(Before) else if pos == "after" then Ok(After) else Err(InvalidPositionX)
  }

  /** `_setPositionY`: only "above" and "below" are accepted. */
  function ParsePositionY(pos: string): (r: Result<PositionY, MenuError>)
    ensures r == Ok(Above) <==> pos == "above"
    ensures r == Ok(Below) <==> pos == "below"
    ensures r.Err? <==> pos != "above" && pos != "below"
    ensures r.Err? ==> r.error == InvalidPositionY
  {
    if pos == "above" then Ok(Above) else if pos == "below" then Ok(Below) else Err(InvalidPositionY)
  }

  /** The constructor: an absent or empty attribute keeps the default
      'after' / 'below'; a present one must be valid. */
  function NewMenu(posX: Option<string>, posY: Option<string>): (r: Result<Menu, MenuError>)
    ensures (posX.None? || posX.value == "") && (posY.None? || posY.value == "") ==>
              r.Ok? && r.value.positionX == After && r.value.positionY == Below
    ensures r.Ok? && posX.Some? && posX.value != "" ==> Ok(r.value.positionX) == ParsePositionX(posX.value)
    ensures r.Ok? && posY.Some? && posY.value != "" ==> Ok(r.value.positionY) == ParsePositionY(posY.value)
    ensures r.Err? <==> (posX.Some? && posX.value != "" && ParsePositionX(posX.value).Err?) ||
                        (posY.Some? && posY.value != "" && ParsePositionY(posY.value).Err?)
    ensures r.Err? && posX.Some? && posX.value != "" && ParsePositionX(posX.value).Err? ==> r.error == InvalidPositionX
  {
    var x :- if posX.Some? && posX.value != "" then ParsePositionX(posX.value) else Ok(After);
    var y :- if posY.Some? && posY.value != "" then ParsePositionY(posY.value) else Ok(Below);
    Ok(Menu(x, y, map[], 0, None, []))
  }

  /** `reduce` over the class names, setting each to true. */
  function ClassMap(names: seq<string>): (r: map<string, bool>)
    ensures forall n :: n in r <==> n in names
    ensures forall n :: n in r ==> r[n]
  {
    if |names| == 0 then map[]
    else ClassMap(names[..|names| - 1])[names[|names| - 1] := true]
  }

  /** The `class` input: the string split on single spaces, each piece
      a key mapped to true. */
  function ClassList(classes: string): (r: map<string, bool>)
    ensures forall n :: n in r <==> n in Split(classes, ' ')
    ensures forall n :: n in r ==> r[n]
    ensures forall n :: n in r ==> ' ' !in n
  {
    ClassMap(Split(classes, ' '))
  }

  /** An empty class string and doubled spaces contribute an empty key. */
  lemma EmptyClassStringHasEmptyKey()
    ensures ClassList("") == map["" := true]
    ensures "" in ClassList("a  b")
  {
    assert Split("", ' ') == [""];
    assert Split("a  b", ' ') == ["a", "", "b"] by {
      assert "a  b" == ['a'] + [' '] + (" b");
      SplitPrefix("a", ' ', " b");
      assert " b" == [] + [' '] + "b";
      SplitPrefix("", ' ', "b");
      SplitWord("b", ' ');
    }
  }

  /** Class names written once each, separated by single spaces, are
      exactly the keys. */
  lemma ClassListOfJoinedNames(names: seq<string>)
    requires |names| >= 1 && forall k :: 0 <= k < |names| ==> ' ' !in names[k]
    ensures forall n :: n in ClassList(Join(names, ' ')) <==> n in names
  {
    SplitJoin(names, ' ');
  }

  /** `_focusFirstItem`: focus the first item and point the key manager
      at it; with no items there is no first item to focus. */
  function FocusFirstItem(m: Menu): (r: Result<Menu, MenuError>)
    ensures r.Err? <==> m.itemCount == 0
    ensures r.Ok? ==> r.value.focusedItemIndex == Some(0) && r.value.focusedItems == m.focusedItems + [0]
    ensures r.Ok? ==> r.value.positionX == m.positionX && r.value.positionY == m.positionY && r.value.itemCount == m.itemCount
  {
    if m.itemCount == 0 then Err(NoItems)
    else Ok(m.(focusedItemIndex := Some(0), focusedItems := m.focusedItems + [0]))
  }
}

=== FILE: menu_trigger.dfy ===
/** `MdMenuTrigger`: opening and closing the menu's overlay, the events
    it emits, the keyboard-open flag that decides where focus goes, and
    the overlay's connected position. The overlay service is reduced to
    an overlay that exists or not and is attached or not. */
module MenuTrigger {
  import opened Wrappers
  import opened MenuDirective

  const ENTER := 13
  const SPACE := 32

  datatype MenuEvent = MenuOpened | MenuClosed

  /** Trigger state: `overlay` is the overlay reference's id, if any;
      `overlaysCreated` counts `Overlay.create` calls. */
  datatype Trigger = Trigger(
    menuOpen: bool,
    overlay: Option<nat>,
    attached: bool,
    overlaysCreated: nat,
    backdropSubscribed: bool,
    openedFromKeyboard: bool,
    events: seq<MenuEvent>,
    firstItemFocuses: nat,
    triggerFocuses: nat)

  const Initial := Trigger(false, None, false, 0, false, false, [], 0, 0)

  /** An open menu is shown in an attached overlay that listens for
      backdrop clicks. */
  predicate Consistent(t: Trigger)
  {
    (t.menuOpen ==> t.overlay.Some? && t.attached && t.backdropSubscribed)
    && (t.attached ==> t.overlay.Some?)
  }

  /** `_setIsMenuOpen`: record the state and emit the matching event. */
  function SetIsMenuOpen(t: Trigger, isOpen: bool): (r: Trigger)
    ensures r.menuOpen == isOpen
    ensures r.events == t.events + [if isOpen then MenuOpened else MenuClosed]
  {
    t.(menuOpen := isOpen, events := t.events + [if isOpen then MenuOpened else MenuClosed])
  }

  /** `_createOverlay`: create the overlay only when there is none. */
  function CreateOverlay(t: Trigger): (r: Trigger)
    ensures r.overlay.Some?
    ensures t.overlay.Some? ==> r == t
    ensures t.overlay.None? ==> r.overlaysCreated == t.overlaysCreated + 1
  {
    if t.overlay.None? then t.(overlay := Some(t.overlaysCreated), overlaysCreated := t.overlaysCreated + 1) else t
  }

  /** `openMenu`: when closed, create the overlay if needed, attach it,
      listen to the backdrop and mark the menu open; opened from the
      keyboard, the first item gets focus. */
  function OpenMenu(t: Trigger): (r: Trigger)
    ensures t.menuOpen ==> r == t
    ensures !t.menuOpen ==> r.menuOpen && r.overlay.Some? && r.attached && r.backdropSubscribed
    ensures !t.menuOpen ==> r.events == t.events + [MenuOpened]
    ensures !t.menuOpen ==> r.firstItemFocuses == t.firstItemFocuses + (if t.openedFromKeyboard then 1 else 0)
    ensures r.overlaysCreated == t.overlaysCreated + (if !t.menuOpen && t.overlay.None? then 1 else 0)
    ensures Consistent(t) ==> Consistent(r)
  {
    if t.menuOpen then t
    else
      var created := CreateOverlay(t).(attached := true, backdropSubscribed := true);
      var shown := SetIsMenuOpen(created, true);
      if t.openedFromKeyboard then shown.(firstItemFocuses := shown.firstItemFocuses + 1) else shown
  }

  /** `closeMenu`: with an overlay, detach it, stop listening to the
      backdrop and mark the menu closed; opened from the keyboard, focus
      returns to the trigger and the flag is cleared. Without an overlay
      nothing happens. */
  function CloseMenu(t: Trigger): (r: Trigger)
    ensures t.overlay.None? ==> r == t
    ensures t.overlay.Some? ==> !r.menuOpen && !r.attached && !r.backdropSubscribed && r.overlay == t.overlay
    ensures t.overlay.Some? ==> r.events == t.events + [MenuClosed] && !r.openedFromKeyboard
    ensures t.overlay.Some? ==> r.triggerFocuses == t.triggerFocuses + (if t.openedFromKeyboard then 1 else 0)
    ensures r.overlaysCreated == t.overlaysCreated
    ensures Consistent(t) ==> Consistent(r)
  {
    if t.overlay.None? then t
    else
      var closed := SetIsMenuOpen(t.(attached := false, backdropSubscribed := false), false);
      if t.openedFromKeyboard then closed.(triggerFocuses := closed.triggerFocuses + 1, openedFromKeyboard := false)
      else closed
  }

  /** `toggleMenu`. */
  function ToggleMenu(t: Trigger): (r: Trigger)
    ensures t.menuOpen ==> r == CloseMenu(t)
    ensures !t.menuOpen ==> r == OpenMenu(t)
  {
    if t.menuOpen then CloseMenu(t) else OpenMenu(t)
  }

  /** In a consistent state, toggling flips whether the menu is open and
      keeps the state consistent. */
  lemma ToggleFlips(t: Trigger)
    requires Consistent(t)
    ensures ToggleMenu(t).menuOpen == !t.menuOpen
    ensures Consistent(ToggleMenu(t))
  {
  }

  /** Opening twice is opening once: the overlay is created at most once
      and one open event is emitted. */
  lemma OpenIsIdempotent(t: Trigger)
    ensures OpenMenu(OpenMenu(t)) == OpenMenu(t)
  {
  }

  /** Once an overlay exists, any number of open and close cycles create
      no further overlay. */
  lemma OverlayCreatedOnce(t: Trigger)
    requires t.overlay.Some?
    ensures OpenMenu(t).overlaysCreated == t.overlaysCreated
    ensures OpenMenu(CloseMenu(t)).overlaysCreated == t.overlaysCreated
    ensures CloseMenu(OpenMenu(t)).overlay == t.overlay
  {
  }

  /** `destroyMenu`: dispose of the overlay and stop listening to the
      backdrop; safe without an overlay. The open flag is left as it is. */
  function DestroyMenu(t: Trigger): (r: Trigger)
    ensures r.overlay.None?
    ensures t.overlay.None? ==> r == t
    ensures t.overlay.Some? ==> !r.attached && !r.backdropSubscribed
    ensures r.menuOpen == t.menuOpen && r.events == t.events
  {
    if t.overlay.None? then t
    else t.(overlay := None, attached := false, backdropSubscribed := false)
  }

  /** Destroying an open menu leaves it marked open with no overlay, so
      later open and close calls do nothing. */
  lemma DestroyedOpenMenuIsInert(t: Trigger)
    requires t.menuOpen && t.overlay.Some?
    ensures var d := DestroyMenu(t);
            d.menuOpen && OpenMenu(d) == d && CloseMenu(d) == d && !Consistent(d)
  {
  }

  /** `_handleKeydown`: only ENTER and SPACE mark the menu as opened from
      the keyboard. */
  function HandleKeydown(t: Trigger, keyCode: int): (r: Trigger)
    ensures keyCode == ENTER || keyCode == SPACE ==> r == t.(openedFromKeyboard := true)
    ensures keyCode != ENTER && keyCode != SPACE ==> r == t
  {
    if keyCode == ENTER || keyCode == SPACE then t.(openedFromKeyboard := true) else t
  }

  /** A keyboard-opened menu focuses its first item, and closing it gives
      focus back to the trigger and clears the flag. */
  lemma KeyboardOpenCloseFocus(t: Trigger)
    requires !t.menuOpen && Consistent(t)
    ensures var shown := OpenMenu(HandleKeydown(t, ENTER));
            && shown.firstItemFocuses == t.firstItemFocuses + 1
            && CloseMenu(shown).triggerFocuses == t.triggerFocuses + 1
            && !CloseMenu(shown).openedFromKeyboard
    ensures OpenMenu(t).firstItemFocuses == t.firstItemFocuses + (if t.openedFromKeyboard then 1 else 0)
  {
  }

  /** `_checkMenu`: a trigger without a menu is an error. */
  function CheckMenu(hasMenu: bool): (r: Option<string>)
    ensures r.Some? <==> !hasMenu
  {
    if hasMenu then None else Some("MdMenuMissingError")
  }

  datatype HorizontalPos = Start | End
  datatype VerticalPos = Top | Bottom

  /** `_getPosition`: the origin and overlay connection points, the same
      for both. */
  function GetPosition(x: PositionX, y: PositionY): (r: (HorizontalPos, VerticalPos))
    ensures r.0 == End <==> x == Before
    ensures r.1 == Bottom <==> y == Above
  {
    (if x == Before then End else Start, if y == Above then Bottom else Top)
  }
}

=== FILE: paginator_intl.dfy ===
/** The custom paginator labels of the legacy paginator
    internationalisation example: fixed button labels and the
    "Page x of y" range label. */
module PaginatorIntl {
  import opened Strings

  const FirstPageLabel: string := "First page"
  const ItemsPerPageLabel: string := "Items per page:"
  const LastPageLabel: string := "Last page"
  const NextPageLabel: string := "Next page"
  const PreviousPageLabel: string := "Previous page"

  /** The value of `Math.ceil(length / pageSize)` for a positive length:
      a page count, or `Infinity` when the page size is zero. */
  datatype PageCount = Pages(n: nat) | Infinity

  /** The number of pages needed to show `length` items `pageSize` at a
      time: the least count whose pages hold every item. */
  function AmountPages(length: nat, pageSize: nat): (r: PageCount)
    requires length > 0
    ensures pageSize == 0 <==> r.Infinity?
    ensures r.Pages? ==> r.n * pageSize >= length && (r.n - 1) * pageSize < length
    ensures r.Pages? ==> r.n >= 1
  {
    if pageSize == 0 then Infinity else Pages((length + pageSize - 1) / pageSize)
  }

  /** The ceiling is unique: no other count of pages is both large enough
      and one page short of too large. */
  lemma AmountPagesIsLeast(length: nat, pageSize: nat, m: nat)
    requires length > 0 && pageSize > 0
    requires m * pageSize >= length && (m - 1) * pageSize < length
    ensures AmountPages(length, pageSize) == Pages(m)
  {
    var n := AmountPages(length, pageSize).n;
    if m < n {
      assert m <= n - 1;
      assert m * pageSize <= (n - 1) * pageSize by { MulMonotone(m, n - 1, pageSize); }
    } else if m > n {
      assert false;
    }
  }

  lemma MulMonotone(a: nat, b: nat, c: nat)
    requires a <= b
    ensures a * c <= b * c
  {
  }

  function CountText(c: PageCount): string
  {
    match c
    case Pages(n) => NatToString(n)
    case Infinity => "Infinity"
  }

  /** `getRangeLabel`: an empty list is always "Page 1 of 1"; otherwise
      the one-based page number and the page count. */
  function GetRangeLabel(page: nat, pageSize: nat, length: nat): (r: string)
    ensures length == 0 ==> r == "Page 1 of 1"
    ensures length > 0 ==> r == "Page " + NatToString(page + 1) + " of " + CountText(AmountPages(length, pageSize))
  {
    if length == 0 then "Page 1 of 1"
    else "Page " + NatToString(page + 1) + " of " + CountText(AmountPages(length, pageSize))
  }

  predicate AllDigits(s: string)
  {
    forall k :: 0 <= k < |s| ==> '0' <= s[k] <= '9'
  }

  /** Inside a label, the page part starts after "Page " and is followed
      by a space. */
  lemma LabelChars(a: string, b: string, i: nat)
    requires i <= |a|
    ensures i < |a| ==> ("Page " + a + " of " + b)[5 + i] == a[i]
    ensures i == |a| ==> ("Page " + a + " of " + b)[5 + i] == ' '
  {
  }

  /** The label is unambiguous: two labels of the "Page x of y" form with
      decimal page numbers are equal only when their parts are. */
  lemma {:induction false} LabelPartsDetermined(a: string, b: string, c: string, d: string)
    requires AllDigits(a) && AllDigits(c)
    requires "Page " + a + " of " + b == "Page " + c + " of " + d
    ensures a == c && b == d
  {
    var l := "Page " + a + " of " + b;
    var r := "Page " + c + " of " + d;
    if |a| < |c| {
      LabelChars(a, b, |a|);
      LabelChars(c, d, |a|);
      assert false;
    } else if |c| < |a| {
      LabelChars(c, d, |c|);
      LabelChars(a, b, |c|);
      assert false;
    }
    assert a == l[5..5 + |a|] == r[5..5 + |c|] == c;
    assert b == l[9 + |a|..] == r[9 + |c|..] == d;
  }

  /** The label of a non-empty list tells the page back: different pages
      never share a label. */
  lemma LabelDeterminesPage(p1: nat, p2: nat, pageSize: nat, length: nat)
    requires length > 0
    requires GetRangeLabel(p1, pageSize, length) == GetRangeLabel(p2, pageSize, length)
    ensures p1 == p2
  {
    var t := CountText(AmountPages(length, pageSize));
    LabelPartsDetermined(NatToString(p1 + 1), t, NatToString(p2 + 1), t);
    NatToStringInjective(p1 + 1, p2 + 1);
  }

  /** The label of a non-empty list tells the page count back. */
  lemma LabelDeterminesCount(page: nat, s1: nat, l1: nat, s2: nat, l2: nat)
    requires l1 > 0 && l2 > 0 && s1 > 0 && s2 > 0
    requires GetRangeLabel(page, s1, l1) == GetRangeLabel(page, s2, l2)
    ensures AmountPages(l1, s1) == AmountPages(l2, s2)
  {
    var n1 := AmountPages(l1, s1).n;
    var n2 := AmountPages(l2, s2).n;
    var p := NatToString(page + 1);
    LabelPartsDetermined(p, NatToString(n1), p, NatToString(n2));
    NatToStringInjective(n1, n2);
  }
}

=== FILE: platform.dfy ===
/** `Platform`: browser and engine flags derived from the user agent and
    a few globals. The environment is a parameter. */
module Platform {
  import opened Strings

  /** What the flags are computed from: whether this is a browser, the
      user agent, whether `window.chrome` or `Intl.v8BreakIterator` is
      present, whether `CSS` is defined, and whether `MSStream` is a
      property of `window`. */
  datatype Env = Env(isBrowser: bool, userAgent: string, chrome: bool, v8BreakIterator: bool,
                     cssDefined: bool, msStream: bool)

  datatype Flags = Flags(isBrowser: bool, edge: bool, trident: bool, blink: bool, webkit: bool,
                         ios: bool, firefox: bool, android: bool, safari: bool)

  predicate Edge(e: Env)
  {
    e.isBrowser && ContainsIgnoringCase(e.userAgent, "edge")
  }

  predicate Trident(e: Env)
  {
    e.isBrowser && (ContainsIgnoringCase(e.userAgent, "msie") || ContainsIgnoringCase(e.userAgent, "trident"))
  }

  predicate Blink(e: Env)
  {
    e.isBrowser && (e.chrome || e.v8BreakIterator) && e.cssDefined && !Edge(e) && !Trident(e)
  }

  predicate Webkit(e: Env)
  {
    e.isBrowser && ContainsIgnoringCase(e.userAgent, "applewebkit") && !Blink(e) && !Edge(e) && !Trident(e)
  }

  /** iOS is matched case-sensitively. */
  predicate IOS(e: Env)
  {
    e.isBrowser && (Contains(e.userAgent, "iPad") || Contains(e.userAgent, "iPhone") || Contains(e.userAgent, "iPod")) && !e.msStream
  }

  predicate Firefox(e: Env)
  {
    e.isBrowser && (ContainsIgnoringCase(e.userAgent, "firefox") || ContainsIgnoringCase(e.userAgent, "minefield"))
  }

  predicate Android(e: Env)
  {
    e.isBrowser && ContainsIgnoringCase(e.userAgent, "android") && !Trident(e)
  }

  predicate Safari(e: Env)
  {
    e.isBrowser && ContainsIgnoringCase(e.userAgent, "safari") && Webkit(e)
  }

  /** The flags of a `Platform` instance. */
  function Detect(e: Env): (r: Flags)
    ensures !e.isBrowser ==> r == Flags(false, false, false, false, false, false, false, false, false)
    ensures r.blink ==> !r.edge && !r.trident
    ensures r.webkit ==> ContainsIgnoringCase(e.userAgent, "applewebkit") && !r.blink && !r.edge && !r.trident
    ensures r.safari ==> r.webkit
    ensures r.android ==> !r.trident
    ensures r.ios ==> !e.msStream && (Contains(e.userAgent, "iPad") || Contains(e.userAgent, "iPhone") || Contains(e.userAgent, "iPod"))
    ensures r.isBrowser == e.isBrowser
  {
    Flags(e.isBrowser, Edge(e), Trident(e), Blink(e), Webkit(e), IOS(e), Firefox(e), Android(e), Safari(e))
  }

  /** At most one of the engines Blink, WebKit, EdgeHTML and Trident is
      reported, except that EdgeHTML and Trident may both match. */
  lemma EnginesExclusive(e: Env)
    ensures var f := Detect(e);
            !(f.blink && f.webkit) && !(f.blink && (f.edge || f.trident)) && !(f.webkit && (f.edge || f.trident))
  {
  }

  lemma LowerIdempotent(s: string)
    ensures Lower(Lower(s)) == Lower(s)
  {
  }

  /** Every flag but IOS ignores the case of the user agent. */
  lemma CaseInsensitiveFlags(e: Env)
    ensures var f := Detect(e);
            var g := Detect(e.(userAgent := Lower(e.userAgent)));
            f == g.(ios := f.ios)
  {
    LowerIdempotent(e.userAgent);
  }

  /** IOS does not: a lower-case "ipad" is not iOS, an "iPad" is. */
  lemma IOSIsCaseSensitive()
    ensures !Detect(Env(true, "ipad", false, false, true, false)).ios
    ensures Detect(Env(true, "iPad", false, false, true, false)).ios
  {
    assert "iPad"[..4] == "iPad";
    assert "ipad"[1] != "iPad"[1] && "ipad"[1] != "iPod"[1];
    assert "ipad"[1..] == "pad";
    LongerPatternAbsent("pad", "iPad");
    LongerPatternAbsent("pad", "iPod");
    LongerPatternAbsent("ipad", "iPhone");
  }

  lemma {:induction false} LongerPatternAbsent(s: string, pat: string)
    requires |pat| > |s|
    ensures !Contains(s, pat)
    decreases |s|
  {
    if |s| > 0 {
      LongerPatternAbsent(s[1..], pat);
    }
  }
}

=== FILE: scroll_dispatcher.dfy ===
/** `ScrollDispatcher`: the registry of scrollables, the reference-counted
    global scroll listener behind `scrolled()`, and the containment query
    over the parent-element chain. The registry is a JavaScript `Map`,
    modelled as an insertion-ordered list with unique keys. */
module ScrollDispatcher {
  import opened Wrappers
  import opened Dom

  /** A registered scrollable (`id` stands for object identity), its host
      element and the subscription to its scroll events. */
  datatype Entry = Entry(scrollable: nat, element: NodeId, subscription: nat)

  datatype Dispatcher = Dispatcher(
    entries: seq<Entry>,
    liveSubscriptions: set<nat>,
    nextSubscription: nat,
    globalListener: bool,
    scrolledCount: int)

  /** No scrollable appears twice. */
  predicate UniqueKeys(entries: seq<Entry>)
  {
    |entries| == 0 || (entries[0].scrollable !in Keys(entries[1..]) && UniqueKeys(entries[1..]))
  }

  function Keys(entries: seq<Entry>): (r: set<nat>)
    ensures forall k :: 0 <= k < |entries| ==> entries[k].scrollable in r
  {
    if |entries| == 0 then {} else {entries[0].scrollable} + Keys(entries[1..])
  }

  /** `Map.get`. */
  function Lookup(entries: seq<Entry>, scrollable: nat): (r: Option<Entry>)
    ensures r.Some? ==> r.value in entries && r.value.scrollable == scrollable
    ensures r.None? <==> scrollable !in Keys(entries)
  {
    if |entries| == 0 then None
    else if entries[0].scrollable == scrollable then Some(entries[0])
    else Lookup(entries[1..], scrollable)
  }

  /** `Map.set`: an existing key keeps its position and takes the new
      value; a new key goes last. */
  function MapSet(entries: seq<Entry>, e: Entry): (r: seq<Entry>)
    requires UniqueKeys(entries)
    ensures UniqueKeys(r)
    ensures Keys(r) == Keys(entries) + {e.scrollable}
    ensures Lookup(r, e.scrollable) == Some(e)
    ensures forall s :: s != e.scrollable ==> Lookup(r, s) == Lookup(entries, s)
    ensures e.scrollable !in Keys(entries) ==> r == entries + [e]
    ensures e.scrollable in Keys(entries) ==> |r| == |entries|
  {
    if |entries| == 0 then [e]
    else
      assert entries == [entries[0]] + entries[1..];
      ConsUnfolds(entries[0], entries[1..]);
      if entries[0].scrollable == e.scrollable then
        ConsUnfolds(e, entries[1..]);
        [e] + entries[1..]
      else
        var rest := MapSet(entries[1..], e);
        ConsUnfolds(entries[0], rest);
        [entries[0]] + rest
  }

  /** Keys and lookups of a list with a first entry. */
  lemma ConsUnfolds(x: Entry, rest: seq<Entry>)
    ensures ([x] + rest)[0] == x && ([x] + rest)[1..] == rest
    ensures Keys([x] + rest) == {x.scrollable} + Keys(rest)
    ensures Lookup([x] + rest, x.scrollable) == Some(x)
    ensures forall s :: s != x.scrollable ==> Lookup([x] + rest, s) == Lookup(rest, s)
    ensures UniqueKeys([x] + rest) <==> x.scrollable !in Keys(rest) && UniqueKeys(rest)
  {
    assert ([x] + rest)[1..] == rest;
  }

  /** `Map.delete`. */
  function MapDelete(entries: seq<Entry>, scrollable: nat): (r: seq<Entry>)
    requires UniqueKeys(entries)
    ensures UniqueKeys(r)
    ensures Keys(r) == Keys(entries) - {scrollable}
    ensures forall s :: s != scrollable ==> Lookup(r, s) == Lookup(entries, s)
    ensures scrollable !in Keys(entries) ==> r == entries
  {
    if |entries| == 0 then []
    else if entries[0].scrollable == scrollable then
      entries[1..]
    else
      var rest := MapDelete(entries[1..], scrollable);
        ConsUnfolds(entries[0], rest);
        [entries[0]] + rest
  }

  /** `register`: subscribe to the scrollable's events and store the
      subscription under it. A subscription stored before for the same
      scrollable is replaced without being unsubscribed. */
  function Register(d: Dispatcher, scrollable: nat, element: NodeId): (r: Dispatcher)
    requires UniqueKeys(d.entries)
    ensures UniqueKeys(r.entries)
    ensures Lookup(r.entries, scrollable) == Some(Entry(scrollable, element, d.nextSubscription))
    ensures forall s :: s != scrollable ==> Lookup(r.entries, s) == Lookup(d.entries, s)
    ensures r.liveSubscriptions == d.liveSubscriptions + {d.nextSubscription}
    ensures r.globalListener == d.globalListener && r.scrolledCount == d.scrolledCount
  {
    var sub := d.nextSubscription;
    d.(entries := MapSet(d.entries, Entry(scrollable, element, sub)),
       liveSubscriptions := d.liveSubscriptions + {sub},
       nextSubscription := sub + 1)
  }

  /** `deregister`: unsubscribe and forget a registered scrollable; an
      unknown one is ignored. */
  function Deregister(d: Dispatcher, scrollable: nat): (r: Dispatcher)
    requires UniqueKeys(d.entries)
    ensures UniqueKeys(r.entries)
    ensures Lookup(d.entries, scrollable).None? ==> r == d
    ensures Lookup(d.entries, scrollable).Some? ==>
              && Keys(r.entries) == Keys(d.entries) - {scrollable}
              && r.liveSubscriptions == d.liveSubscriptions - {Lookup(d.entries, scrollable).value.subscription}
    ensures forall s :: s != scrollable ==> Lookup(r.entries, s) == Lookup(d.entries, s)
    ensures r.globalListener == d.globalListener && r.scrolledCount == d.scrolledCount
  {
    match Lookup(d.entries, scrollable)
    case None => d
    case Some(e) =>
      d.(entries := MapDelete(d.entries, scrollable), liveSubscriptions := d.liveSubscriptions - {e.subscription})
  }

  /** Registering a new scrollable and deregistering it restores the
      registry and the set of live subscriptions. */
  lemma RegisterThenDeregister(d: Dispatcher, scrollable: nat, element: NodeId)
    requires UniqueKeys(d.entries) && scrollable !in Keys(d.entries) && d.nextSubscription !in d.liveSubscriptions
    ensures Deregister(Register(d, scrollable, element), scrollable).liveSubscriptions == d.liveSubscriptions
    ensures Keys(Deregister(Register(d, scrollable, element), scrollable).entries) == Keys(d.entries)
    ensures forall s :: Lookup(Deregister(Register(d, scrollable, element), scrollable).entries, s) == Lookup(d.entries, s)
  {
  }

  /** Subscribing to `scrolled()`: outside the browser an empty stream and
      no change; in the browser the global listener is created if missing
      and the subscriber count goes up. */
  function Subscribe(d: Dispatcher, isBrowser: bool): (r: Dispatcher)
    ensures !isBrowser ==> r == d
    ensures isBrowser ==> r.globalListener && r.scrolledCount == d.scrolledCount + 1
    ensures r.entries == d.entries && r.liveSubscriptions == d.liveSubscriptions
  {
    if !isBrowser then d
    else d.(globalListener := true, scrolledCount := d.scrolledCount + 1)
  }

  /** Unsubscribing from a browser `scrolled()` stream: the count goes
      down, and the global listener goes away once no scrollable is
      registered and no subscriber is left. */
  function Unsubscribe(d: Dispatcher): (r: Dispatcher)
    ensures r.scrolledCount == d.scrolledCount - 1
    ensures r.globalListener <==> d.globalListener && (|d.entries| > 0 || d.scrolledCount - 1 != 0)
    ensures r.entries == d.entries && r.liveSubscriptions == d.liveSubscriptions
  {
    var counted := d.(scrolledCount := d.scrolledCount - 1);
    if counted.globalListener && |counted.entries| == 0 && counted.scrolledCount == 0 then counted.(globalListener := false)
    else counted
  }

  /** With nothing registered, one subscription and its release leave the
      dispatcher without a listener and with the count it had. */
  lemma SubscribeUnsubscribeBalances(d: Dispatcher)
    requires |d.entries| == 0 && d.scrolledCount == 0
    ensures Unsubscribe(Subscribe(d, true)) == d.(globalListener := false)
  {
  }

  /** While a registered scrollable remains, releasing subscribers never
      removes the global listener. */
  lemma RegisteredKeepsListener(d: Dispatcher)
    requires d.globalListener && |d.entries| > 0
    ensures Unsubscribe(d).globalListener
  {
  }

  /** `scrollableContainsElement`: walk from the element up its parent
      elements, looking for the scrollable's element. */
  method ScrollableContainsElement(t: Tree, scrollableElement: NodeId, element: NodeId) returns (r: bool)
    requires Valid(t)
    ensures r <==> scrollableElement in ElementChain(t, element)
  {
    var current := element;
    while true
      invariant scrollableElement in ElementChain(t, element) <==> scrollableElement in ElementChain(t, current)
      decreases Depth(t, current)
    {
      if current == scrollableElement {
        return true;
      }
      match ParentElement(t, current)
      case None =>
        assert ElementChain(t, current) == [current];
        return false;
      case Some(p) =>
        assert ElementChain(t, current) == [current] + ElementChain(t, p);
        current := p;
    }
  }

  /** An element inside a scrollable by the parent-element walk is inside
      it in the DOM. */
  lemma ContainedElementIsDescendant(t: Tree, scrollableElement: NodeId, element: NodeId)
    requires Valid(t) && scrollableElement in ElementChain(t, element)
    ensures Dom.Contains(t, scrollableElement, element)
  {
    ElementChainInNodeChain(t, element, scrollableElement);
  }

  /** The scrollables of `entries`, in entry order, whose element is the
      element or one of its parent elements. */
  function ContainersIn(t: Tree, entries: seq<Entry>, element: NodeId): (r: seq<nat>)
    requires Valid(t)
    ensures |r| <= |entries|
    ensures forall s :: s in r <==> exists k :: 0 <= k < |entries| && entries[k].scrollable == s &&
                                          entries[k].element in ElementChain(t, element)
  {
    if |entries| == 0 then []
    else
      var rest := ContainersIn(t, entries[1..], element);
      assert forall k :: 1 <= k < |entries| ==> entries[k] == entries[1..][k - 1];
      (if entries[0].element in ElementChain(t, element) then [entries[0].scrollable] else []) + rest
  }

  /** The containers of two runs of entries are those of the first run,
      then those of the second: registration order is kept. */
  lemma {:induction false} ContainersInOrder(t: Tree, a: seq<Entry>, b: seq<Entry>, element: NodeId)
    requires Valid(t)
    ensures ContainersIn(t, a + b, element) == ContainersIn(t, a, element) + ContainersIn(t, b, element)
    decreases |a|
  {
    if |a| == 0 {
      assert a + b == b;
    } else {
      assert (a + b)[0] == a[0] && (a + b)[1..] == a[1..] + b;
      ContainersInOrder(t, a[1..], b, element);
    }
  }

  /** `getScrollContainers`: the registered scrollables containing the
      element, in registration order. */
  method GetScrollContainers(t: Tree, d: Dispatcher, element: NodeId) returns (r: seq<nat>)
    requires Valid(t)
    ensures |r| <= |d.entries|
    ensures forall s :: s in r <==> exists k :: 0 <= k < |d.entries| && d.entries[k].scrollable == s &&
                                          d.entries[k].element in ElementChain(t, element)
    ensures r == ContainersIn(t, d.entries, element)
  {
    r := [];
    var i := 0;
    while i < |d.entries|
      invariant 0 <= i <= |d.entries|
      invariant r == ContainersIn(t, d.entries[..i], element)
    {
      var inside := ScrollableContainsElement(t, d.entries[i].element, element);
      ContainersInOrder(t, d.entries[..i], [d.entries[i]], element);
      assert d.entries[..i + 1] == d.entries[..i] + [d.entries[i]];
      assert [d.entries[i]][1..] == [];
      if inside {
        r := r + [d.entries[i].scrollable];
      }
      i := i + 1;
    }
    assert d.entries[..i] == d.entries;
  }
}

=== FILE: selection_list.dfy ===
/** `MatSelectionList` and its `MatListOption`s: toggling, clicks,
    select-all and deselect-all, the SPACE key, option focus and the
    focus fallback when a focused option is destroyed. The selection
    model is the set of selected option ids; the focus key manager is
    reduced to its active index and the keys it is handed. */
module SelectionList {
  import opened Wrappers

  const SPACE := 32

  /** An option; `id` stands for object identity. */
  datatype ListOption = ListOption(id: nat, ownDisabled: bool, selected: bool, hasFocus: bool)

  datatype List = List(
    options: seq<ListOption>,
    disabled: bool,
    selectedOptions: set<nat>,
    activeIndex: Option<int>,
    tabIndex: int,
    forwardedKeys: seq<int>)

  /** Options are distinct objects. */
  predicate DistinctIds(options: seq<ListOption>)
  {
    forall i, j :: 0 <= i < j < |options| ==> options[i].id != options[j].id
  }

  /** Every option's `selected` flag agrees with the selection model. */
  predicate Synced(l: List)
  {
    forall k :: 0 <= k < |l.options| ==> (l.options[k].selected <==> l.options[k].id in l.selectedOptions)
  }

  function Ids(options: seq<ListOption>): (r: set<nat>)
    ensures forall k :: 0 <= k < |options| ==> options[k].id in r
    ensures forall id :: id in r ==> exists k :: 0 <= k < |options| && options[k].id == id
  {
    set k | 0 <= k < |options| :: options[k].id
  }

  /** The option `disabled` getter: the list's flag or the option's own. */
  predicate OptionDisabled(l: List, k: int)
    requires 0 <= k < |l.options|
  {
    l.disabled || l.options[k].ownDisabled
  }

  /** `SelectionModel.toggle`. */
  function ToggleIn(model: set<nat>, id: nat): (r: set<nat>)
    ensures id in r <==> id !in model
    ensures forall x :: x != id ==> (x in r <==> x in model)
  {
    if id in model then model - {id} else model + {id}
  }

  /** `MatListOption.toggle`: flip the option's flag and its membership in
      the selection model. */
  function Toggle(l: List, k: int): (r: List)
    requires 0 <= k < |l.options|
    ensures |r.options| == |l.options|
    ensures r.options[k] == l.options[k].(selected := !l.options[k].selected)
    ensures forall j :: 0 <= j < |l.options| && j != k ==> r.options[j] == l.options[j]
    ensures l.options[k].id in r.selectedOptions <==> l.options[k].id !in l.selectedOptions
    ensures forall x :: x != l.options[k].id ==> (x in r.selectedOptions <==> x in l.selectedOptions)
    ensures r.disabled == l.disabled && r.activeIndex == l.activeIndex
  {
    var o := l.options[k];
    l.(options := l.options[k := o.(selected := !o.selected)], selectedOptions := ToggleIn(l.selectedOptions, o.id))
  }

  /** Toggling keeps the options and the selection model in step. */
  lemma ToggleKeepsSynced(l: List, k: int)
    requires 0 <= k < |l.options| && DistinctIds(l.options) && Synced(l)
    ensures Synced(Toggle(l, k))
  {
  }

  /** Toggling twice restores the list. */
  lemma ToggleTwice(l: List, k: int)
    requires 0 <= k < |l.options|
    ensures Toggle(Toggle(l, k), k) == l
  {
    var o := l.options[k];
    assert ToggleIn(ToggleIn(l.selectedOptions, o.id), o.id) == l.selectedOptions;
    assert l.options[k := o.(selected := !o.selected)][k := o] == l.options;
  }

  /** `_handleClick`: a disabled option ignores clicks. */
  function HandleClick(l: List, k: int): (r: List)
    requires 0 <= k < |l.options|
    ensures OptionDisabled(l, k) ==> r == l
    ensures !OptionDisabled(l, k) ==> r == Toggle(l, k)
    ensures r.options[k].selected == (l.options[k].selected != !OptionDisabled(l, k))
  {
    if !OptionDisabled(l, k) then Toggle(l, k) else l
  }

  /** `MatListOption.ngOnInit`: an option that starts selected enters the
      selection model. */
  function OptionInit(l: List, k: int): (r: List)
    requires 0 <= k < |l.options|
    ensures r.options == l.options
    ensures l.options[k].selected ==> r.selectedOptions == l.selectedOptions + {l.options[k].id}
    ensures !l.options[k].selected ==> r == l
  {
    if l.options[k].selected then l.(selectedOptions := l.selectedOptions + {l.options[k].id}) else l
  }

  /** Initialising the options in order syncs the model of a list whose
      model starts empty. */
  lemma {:induction false} OptionInitsSync(l: List, n: nat)
    requires n <= |l.options| && DistinctIds(l.options) && l.selectedOptions == {}
    ensures var r := InitAll(l, n);
            r.options == l.options &&
            forall k :: 0 <= k < n ==> (l.options[k].selected <==> l.options[k].id in r.selectedOptions)
    ensures forall x :: x in InitAll(l, n).selectedOptions ==> exists k :: 0 <= k < n && l.options[k].id == x
    decreases n
  {
    if n > 0 {
      OptionInitsSync(l, n - 1);
    }
  }

  /** The first `n` options run `ngOnInit`, in order. */
  function InitAll(l: List, n: nat): List
    requires n <= |l.options|
    ensures InitAll(l, n).options == l.options
  {
    if n == 0 then l else OptionInit(InitAll(l, n - 1), n - 1)
  }

  /** `MatListOption.ngAfterContentInit` for every option plus the list's
      own: a disabled list disables every option and leaves the tab
      order. */
  function AfterContentInit(l: List): (r: List)
    ensures |r.options| == |l.options|
    ensures forall k :: 0 <= k < |l.options| ==>
              r.options[k] == l.options[k].(ownDisabled := l.options[k].ownDisabled || l.disabled)
    ensures r.tabIndex == if l.disabled then -1 else l.tabIndex
    ensures r.selectedOptions == l.selectedOptions
  {
    if l.disabled then
      l.(options := DisableAll(l.options), tabIndex := -1)
    else l
  }

  function DisableAll(options: seq<ListOption>): (r: seq<ListOption>)
    ensures |r| == |options| && forall k :: 0 <= k < |options| ==> r[k] == options[k].(ownDisabled := true)
  {
    if |options| == 0 then [] else [options[0].(ownDisabled := true)] + DisableAll(options[1..])
  }

  /** Toggle the option when its flag is not `value` yet. */
  function SetSelected(l: List, k: int, value: bool): (r: List)
    requires 0 <= k < |l.options|
    ensures |r.options| == |l.options|
    ensures r.options[k] == l.options[k].(selected := value)
    ensures forall j :: 0 <= j < |l.options| && j != k ==> r.options[j] == l.options[j]
    ensures r.disabled == l.disabled && r.activeIndex == l.activeIndex
  {
    if l.options[k].selected != value then Toggle(l, k) else l
  }

  /** On a synced list, setting one option's flag adds its id to the model
      or removes it, and keeps the list synced. */
  lemma SetSelectedKeepsSynced(l: List, k: int, value: bool)
    requires 0 <= k < |l.options| && DistinctIds(l.options) && Synced(l)
    ensures Synced(SetSelected(l, k, value))
    ensures value ==> SetSelected(l, k, value).selectedOptions == l.selectedOptions + {l.options[k].id}
    ensures !value ==> SetSelected(l, k, value).selectedOptions == l.selectedOptions - {l.options[k].id}
  {
    if l.options[k].selected != value {
      ToggleKeepsSynced(l, k);
    }
  }

  /** The ids of one more option of a prefix. */
  lemma IdsOfLongerPrefix(options: seq<ListOption>, i: int)
    requires 0 <= i < |options|
    ensures Ids(options[..i + 1]) == Ids(options[..i]) + {options[i].id}
  {
    assert options[..i + 1] == options[..i] + [options[i]];
  }

  /** Every option's flags other than `selected` agree with the original
      list's, so its ids stay distinct. */
  predicate SameButSelected(a: seq<ListOption>, b: seq<ListOption>)
  {
    |a| == |b| && forall k :: 0 <= k < |a| ==> a[k].(selected := b[k].selected) == b[k]
  }

  lemma SameButSelectedDistinct(a: seq<ListOption>, b: seq<ListOption>)
    requires SameButSelected(a, b) && DistinctIds(b)
    ensures DistinctIds(a)
  {
    forall i, j | 0 <= i < j < |a| ensures a[i].id != a[j].id {
      assert a[i].id == b[i].id && a[j].id == b[j].id;
    }
  }

  /** `selectAll`: toggle every option that is not selected. */
  method SelectAll(l: List) returns (r: List)
    requires DistinctIds(l.options)
    ensures |r.options| == |l.options|
    ensures forall k :: 0 <= k < |r.options| ==> r.options[k] == l.options[k].(selected := true)
    ensures Synced(l) ==> Synced(r) && r.selectedOptions == l.selectedOptions + Ids(l.options)
    ensures r.disabled == l.disabled && r.activeIndex == l.activeIndex
  {
    r := SetAll(l, true);
  }

  /** `deselectAll`: toggle every option that is selected. */
  method DeselectAll(l: List) returns (r: List)
    requires DistinctIds(l.options)
    ensures |r.options| == |l.options|
    ensures forall k :: 0 <= k < |r.options| ==> r.options[k] == l.options[k].(selected := false)
    ensures Synced(l) ==> Synced(r) && r.selectedOptions == l.selectedOptions - Ids(l.options)
    ensures r.disabled == l.disabled && r.activeIndex == l.activeIndex
  {
    r := SetAll(l, false);
  }

  /** The loop shared by `selectAll` and `deselectAll`: bring every
      option's flag to `value`, toggling only the options that differ. */
  method SetAll(l: List, value: bool) returns (r: List)
    requires DistinctIds(l.options)
    ensures |r.options| == |l.options|
    ensures forall k :: 0 <= k < |r.options| ==> r.options[k] == l.options[k].(selected := value)
    ensures Synced(l) && value ==> Synced(r) && r.selectedOptions == l.selectedOptions + Ids(l.options)
    ensures Synced(l) && !value ==> Synced(r) && r.selectedOptions == l.selectedOptions - Ids(l.options)
    ensures r.disabled == l.disabled && r.activeIndex == l.activeIndex
  {
    r := l;
    var i := 0;
    while i < |l.options|
      invariant 0 <= i <= |l.options|
      invariant |r.options| == |l.options|
      invariant forall k :: 0 <= k < i ==> r.options[k] == l.options[k].(selected := value)
      invariant forall k :: i <= k < |l.options| ==> r.options[k] == l.options[k]
      invariant SameButSelected(r.options, l.options)
      invariant Synced(l) ==> Synced(r)
      invariant Synced(l) && value ==> r.selectedOptions == l.selectedOptions + Ids(l.options[..i])
      invariant Synced(l) && !value ==> r.selectedOptions == l.selectedOptions - Ids(l.options[..i])
      invariant r.disabled == l.disabled && r.activeIndex == l.activeIndex
    {
      IdsOfLongerPrefix(l.options, i);
      if Synced(l) {
        SameButSelectedDistinct(r.options, l.options);
        SetSelectedKeepsSynced(r, i, value);
      }
      r := SetSelected(r, i, value);
      i := i + 1;
    }
    assert l.options[..i] == l.options;
  }

  /** `_isValidIndex`. */
  predicate IsValidIndex(l: List, index: int)
  {
    0 <= index < |l.options|
  }

  /** The key manager's active item is an option of the list. */
  predicate HasValidFocus(l: List)
  {
    l.activeIndex.Some? && IsValidIndex(l, l.activeIndex.value)
  }

  /** `_toggleSelectOnFocusedOption` as written: the focused option is
      toggled whether or not it is disabled. */
  function ToggleFocusedAsWritten(l: List): (r: List)
    ensures l.activeIndex.Some? && IsValidIndex(l, l.activeIndex.value) ==> r == Toggle(l, l.activeIndex.value)
    ensures !(l.activeIndex.Some? && IsValidIndex(l, l.activeIndex.value)) ==> r == l
  {
    if l.activeIndex.Some? && IsValidIndex(l, l.activeIndex.value) then Toggle(l, l.activeIndex.value) else l
  }

  /** `_toggleSelectOnFocusedOption` with the disabled check a click has. */
  function ToggleFocused(l: List): (r: List)
    ensures l.activeIndex.Some? && IsValidIndex(l, l.activeIndex.value) ==> r == HandleClick(l, l.activeIndex.value)
    ensures !(l.activeIndex.Some? && IsValidIndex(l, l.activeIndex.value)) ==> r == l
  {
    if l.activeIndex.Some? && IsValidIndex(l, l.activeIndex.value) then HandleClick(l, l.activeIndex.value) else l
  }

  /** The outcome of a keydown: the list and whether the default action
      was prevented. */
  datatype KeyOutcome = KeyOutcome(list: List, preventDefault: bool)

  /** `_keydown` as written. */
  function KeydownAsWritten(l: List, keyCode: int): (r: KeyOutcome)
    ensures keyCode == SPACE ==> r == KeyOutcome(ToggleFocusedAsWritten(l), true)
    ensures keyCode != SPACE ==> r == KeyOutcome(l.(forwardedKeys := l.forwardedKeys + [keyCode]), false)
  {
    if keyCode == SPACE then KeyOutcome(ToggleFocusedAsWritten(l), true)
    else KeyOutcome(l.(forwardedKeys := l.forwardedKeys + [keyCode]), false)
  }

  /** `_keydown`: SPACE toggles the focused, enabled option and prevents
      scrolling; every other key goes to the key manager. */
  function Keydown(l: List, keyCode: int): (r: KeyOutcome)
    ensures keyCode == SPACE ==> r.preventDefault && r.list.forwardedKeys == l.forwardedKeys
    ensures keyCode == SPACE && HasValidFocus(l) && !OptionDisabled(l, l.activeIndex.value) ==>
              r.list == Toggle(l, l.activeIndex.value)
    ensures keyCode == SPACE && HasValidFocus(l) && OptionDisabled(l, l.activeIndex.value) ==> r.list == l
    ensures keyCode == SPACE && !HasValidFocus(l) ==> r.list == l
    ensures keyCode != SPACE ==> r == KeyOutcome(l.(forwardedKeys := l.forwardedKeys + [keyCode]), false)
  {
    if keyCode == SPACE then KeyOutcome(ToggleFocused(l), true)
    else KeyOutcome(l.(forwardedKeys := l.forwardedKeys + [keyCode]), false)
  }

  /** As written, SPACE selects a disabled option that a click would
      leave alone: one disabled option, focused and unselected. */
  lemma SpaceTogglesDisabledOption()
    ensures var l := List([ListOption(0, true, false, true)], false, {}, Some(0), 0, []);
            && OptionDisabled(l, 0)
            && HandleClick(l, 0) == l
            && KeydownAsWritten(l, SPACE).list.options[0].selected
  {
  }

  /** With the check, SPACE never changes a disabled option, and on an
      enabled focused option it does what a click does: it flips the
      option's flag and its membership in the selection model. */
  lemma SpaceRespectsDisabled(l: List, k: int)
    requires 0 <= k < |l.options|
    ensures OptionDisabled(l, k) ==> Keydown(l, SPACE).list.options[k] == l.options[k]
    ensures OptionDisabled(l, k) ==>
              Keydown(l, SPACE).list.selectedOptions == l.selectedOptions || (l.activeIndex.Some? && l.activeIndex.value != k)
    ensures l.activeIndex == Some(k) ==> Keydown(l, SPACE).list == HandleClick(l, k)
    ensures l.activeIndex == Some(k) && !OptionDisabled(l, k) ==>
              && Keydown(l, SPACE).list.options[k].selected == !l.options[k].selected
              && (l.options[k].id in Keydown(l, SPACE).list.selectedOptions <==> l.options[k].id !in l.selectedOptions)
  {
  }

  /** SPACE keeps the options and the selection model in step. */
  lemma SpaceKeepsSynced(l: List)
    requires DistinctIds(l.options) && Synced(l)
    ensures Synced(Keydown(l, SPACE).list)
  {
    if l.activeIndex.Some? && IsValidIndex(l, l.activeIndex.value) && !OptionDisabled(l, l.activeIndex.value) {
      ToggleKeepsSynced(l, l.activeIndex.value);
    }
  }

  /** `indexOf` over the options, -1 when absent. */
  function IndexOfOption(options: seq<ListOption>, id: nat): (r: int)
    ensures -1 <= r < |options|
    ensures r >= 0 ==> options[r].id == id && forall j :: 0 <= j < r ==> options[j].id != id
    ensures r == -1 <==> forall j :: 0 <= j < |options| ==> options[j].id != id
  {
    if |options| == 0 then -1
    else if options[0].id == id then 0
    else
      var rest := IndexOfOption(options[1..], id);
      if rest == -1 then -1 else rest + 1
  }

  /** The focus subscription: a focused option becomes the key manager's
      active item. */
  function OptionFocused(l: List, id: nat): (r: List)
    ensures r.activeIndex == Some(IndexOfOption(l.options, id))
    ensures r.options == l.options && r.selectedOptions == l.selectedOptions
  {
    l.(activeIndex := Some(IndexOfOption(l.options, id)))
  }

  /** `_handleFocus`: the option records that it has had focus. */
  function HandleFocus(l: List, k: int): (r: List)
    requires 0 <= k < |l.options|
    ensures |r.options| == |l.options| && r.options[k] == l.options[k].(hasFocus := true)
    ensures forall j :: 0 <= j < |l.options| && j != k ==> r.options[j] == l.options[j]
    ensures r.selectedOptions == l.selectedOptions && r.activeIndex == l.activeIndex
  {
    l.(options := l.options[k := l.options[k].(hasFocus := true)])
  }

  /** `_handleBlur` only removes the focus style: the option's focus flag
      stays set. */
  function HandleBlur(l: List, k: int): (r: List)
    requires 0 <= k < |l.options|
    ensures r == l
  {
    l
  }

  /** Once focused, an option keeps its focus flag through a blur. */
  lemma FocusFlagSurvivesBlur(l: List, k: int)
    requires 0 <= k < |l.options|
    ensures HandleBlur(HandleFocus(l, k), k).options[k].hasFocus
  {
  }

  /** The destroy subscription, given the destroyed option: when it had
      focus, focus moves to its index unless it was the last option, else
      to the one before it if there is one. */
  function OptionDestroyed(l: List, option: ListOption): (r: List)
    ensures r.options == l.options && r.selectedOptions == l.selectedOptions
    ensures !option.hasFocus ==> r == l
    ensures var i := IndexOfOption(l.options, option.id);
            option.hasFocus ==>
              && (i < |l.options| - 1 ==> r.activeIndex == Some(i))
              && (i == |l.options| - 1 && i >= 1 ==> r.activeIndex == Some(i - 1))
              && (i == |l.options| - 1 && i < 1 ==> r.activeIndex == l.activeIndex)
  {
    var i := IndexOfOption(l.options, option.id);
    if !option.hasFocus then l
    else if i < |l.options| - 1 then l.(activeIndex := Some(i))
    else if i - 1 >= 0 then l.(activeIndex := Some(i - 1))
    else l
  }

  /** Destroying a focused option of a list with two or more options
      keeps the active index in range: its own index, or the previous one
      when it was the last option. */
  lemma DestroyedFocusStaysInRange(l: List, k: int)
    requires 0 <= k < |l.options| && |l.options| >= 2 && DistinctIds(l.options) && l.options[k].hasFocus
    ensures var r := OptionDestroyed(l, l.options[k]);
            r.activeIndex.Some? && IsValidIndex(l, r.activeIndex.value)
    ensures k == |l.options| - 1 ==> OptionDestroyed(l, l.options[k]).activeIndex == Some(k - 1)
    ensures k < |l.options| - 1 ==> OptionDestroyed(l, l.options[k]).activeIndex == Some(k)
  {
    var i := IndexOfOption(l.options, l.options[k].id);
    assert i == k;
  }
}

=== FILE: slider_template.dfy ===
/** The `mat-slider` template migrator of the MDC migration schematic:
    which elements produce an update, and how an element's bindings are
    classified into inputs, outputs, attributes and two-way bindings. A
    template is the list of its elements in the order the element visitor
    reaches them; binding names and values are cut out of the template
    file's text by their spans. */
module SliderTemplate {

  datatype BindingType = InputBinding | OutputBinding | AttributeBinding | TwoWayBinding

  /** A binding; `node` stands for the compiler's AST node. */
  datatype Binding = Binding(node: nat, bindingType: BindingType, name: string, value: string)

  /** `[prop]="value"`: key span and value span in the file. */
  datatype BoundAttribute = BoundAttribute(node: nat, keyStart: nat, keyEnd: nat, valueStart: nat, valueEnd: nat)
  /** `(event)="handler"`: key span and handler span in the file. */
  datatype BoundEvent = BoundEvent(node: nat, keyStart: nat, keyEnd: nat, handlerStart: nat, handlerEnd: nat)
  /** A plain `name="value"` attribute. */
  datatype TextAttribute = TextAttribute(node: nat, name: string, value: string)

  datatype Element = Element(name: string, startOffset: nat, inputs: seq<BoundAttribute>,
                             outputs: seq<BoundEvent>, attributes: seq<TextAttribute>)

  /** An update at a source offset; the migrator's update function. */
  datatype Update = Update(offset: nat, updateFn: string -> string)

  /** `String.prototype.slice` for non-negative offsets: both ends are
      capped at the length, and an end before the start gives "". */
  function Slice(s: string, start: nat, end: nat): (r: string)
    ensures start <= end <= |s| ==> r == s[start..end]
    ensures end <= start ==> r == ""
  {
    var a := if start <= |s| then start else |s|;
    var b := if end <= |s| then end else |s|;
    if a < b then s[a..b] else ""
  }

  /** `getUpdates`: one identity update per `mat-slider`, at its start
      offset, in visiting order. */
  function GetUpdates(elements: seq<Element>): (r: seq<Update>)
    ensures |r| == CountSliders(elements)
    ensures forall u :: u in r ==> forall html :: u.updateFn(html) == html
    ensures forall u :: u in r ==> exists k :: 0 <= k < |elements| && elements[k].name == "mat-slider" &&
                                           u.offset == elements[k].startOffset
  {
    if |elements| == 0 then []
    else
      var rest := GetUpdates(elements[1..]);
      if elements[0].name == "mat-slider" then [Update(elements[0].startOffset, html => html)] + rest else rest
  }

  function CountSliders(elements: seq<Element>): nat
  {
    if |elements| == 0 then 0 else (if elements[0].name == "mat-slider" then 1 else 0) + CountSliders(elements[1..])
  }

  /** Elements other than `mat-slider` never produce an update. */
  lemma {:induction false} NoSliderNoUpdate(elements: seq<Element>)
    requires forall k :: 0 <= k < |elements| ==> elements[k].name != "mat-slider"
    ensures GetUpdates(elements) == []
    decreases |elements|
  {
    if |elements| > 0 {
      NoSliderNoUpdate(elements[1..]);
    }
  }

  /** The updates of two template parts are those of each part in
      order. */
  lemma {:induction false} UpdatesOfConcat(a: seq<Element>, b: seq<Element>)
    ensures GetUpdates(a + b) == GetUpdates(a) + GetUpdates(b)
    decreases |a|
  {
    if |a| == 0 {
      assert a + b == b;
    } else {
      assert (a + b)[1..] == a[1..] + b;
      UpdatesOfConcat(a[1..], b);
    }
  }

  /** `_getInputs`. */
  function GetInputs(content: string, inputs: seq<BoundAttribute>): (r: seq<Binding>)
    ensures |r| == |inputs|
    ensures forall k :: 0 <= k < |r| ==>
              r[k] == Binding(inputs[k].node, InputBinding, Slice(content, inputs[k].keyStart, inputs[k].keyEnd),
                              Slice(content, inputs[k].valueStart, inputs[k].valueEnd))
  {
    if |inputs| == 0 then []
    else [Binding(inputs[0].node, InputBinding, Slice(content, inputs[0].keyStart, inputs[0].keyEnd),
                  Slice(content, inputs[0].valueStart, inputs[0].valueEnd))] + GetInputs(content, inputs[1..])
  }

  /** `_getOutputs`. */
  function GetOutputs(content: string, outputs: seq<BoundEvent>): (r: seq<Binding>)
    ensures |r| == |outputs|
    ensures forall k :: 0 <= k < |r| ==>
              r[k] == Binding(outputs[k].node, OutputBinding, Slice(content, outputs[k].keyStart, outputs[k].keyEnd),
                              Slice(content, outputs[k].handlerStart, outputs[k].handlerEnd))
  {
    if |outputs| == 0 then []
    else [Binding(outputs[0].node, OutputBinding, Slice(content, outputs[0].keyStart, outputs[0].keyEnd),
                  Slice(content, outputs[0].handlerStart, outputs[0].handlerEnd))] + GetOutputs(content, outputs[1..])
  }

  /** `_getAttributes`: name and value unchanged. */
  function GetAttributes(attributes: seq<TextAttribute>): (r: seq<Binding>)
    ensures |r| == |attributes|
    ensures forall k :: 0 <= k < |r| ==>
              r[k] == Binding(attributes[k].node, AttributeBinding, attributes[k].name, attributes[k].value)
  {
    if |attributes| == 0 then []
    else [Binding(attributes[0].node, AttributeBinding, attributes[0].name, attributes[0].value)] + GetAttributes(attributes[1..])
  }

  /** Some binding in `bs` has this name (`Array.some` on names). */
  predicate HasName(bs: seq<Binding>, name: string)
  {
    exists k :: 0 <= k < |bs| && bs[k].name == name
  }

  /** `_getTwoWayBindings`: the inputs that share a name with an output,
      retyped as two-way bindings. */
  function GetTwoWayBindings(inputs: seq<Binding>, outputs: seq<Binding>): (r: seq<Binding>)
    ensures |r| <= |inputs|
    ensures forall b :: b in r <==> exists k :: 0 <= k < |inputs| && HasName(outputs, inputs[k].name) &&
                                               b == inputs[k].(bindingType := TwoWayBinding)
    ensures forall k :: 0 <= k < |inputs| && HasName(outputs, inputs[k].name) ==> inputs[k].(bindingType := TwoWayBinding) in r
    ensures forall b :: b in r ==> b.bindingType == TwoWayBinding && HasName(outputs, b.name) && HasName(inputs, b.name)
  {
    if |inputs| == 0 then []
    else
      var rest := GetTwoWayBindings(inputs[1..], outputs);
      if HasName(outputs, inputs[0].name) then [inputs[0].(bindingType := TwoWayBinding)] + rest else rest
  }

  /** `Array.filter` keeping bindings whose name no binding of `drop`
      has. */
  function WithoutNames(bs: seq<Binding>, drop: seq<Binding>): (r: seq<Binding>)
    ensures |r| <= |bs|
    ensures forall b :: b in r <==> b in bs && !HasName(drop, b.name)
  {
    if |bs| == 0 then []
    else
      var rest := WithoutNames(bs[1..], drop);
      if !HasName(drop, bs[0].name) then [bs[0]] + rest else rest
  }

  /** A two-way name is one both an input and an output have. */
  lemma TwoWayNames(inputs: seq<Binding>, outputs: seq<Binding>, name: string)
    ensures HasName(GetTwoWayBindings(inputs, outputs), name) <==> HasName(inputs, name) && HasName(outputs, name)
  {
    var tw := GetTwoWayBindings(inputs, outputs);
    if HasName(inputs, name) && HasName(outputs, name) {
      var k :| 0 <= k < |inputs| && inputs[k].name == name;
      var b := inputs[k].(bindingType := TwoWayBinding);
      assert b in tw;
      var j :| 0 <= j < |tw| && tw[j] == b;
      assert tw[j].name == name;
    }
    if HasName(tw, name) {
      var j :| 0 <= j < |tw| && tw[j].name == name;
      assert tw[j] in tw;
    }
  }

  /** Where a binding kind goes in the result: inputs, outputs,
      attributes, two-way bindings. */
  function Rank(t: BindingType): nat
  {
    match t
    case InputBinding => 0
    case OutputBinding => 1
    case AttributeBinding => 2
    case TwoWayBinding => 3
  }

  predicate AllOfType(bs: seq<Binding>, t: BindingType)
  {
    forall k :: 0 <= k < |bs| ==> bs[k].bindingType == t
  }

  /** The four groups `_getBindings` concatenates: inputs that are not
      two-way, outputs that are not two-way, attributes, two-way
      bindings. */
  datatype Groups = Groups(inputs: seq<Binding>, outputs: seq<Binding>, attributes: seq<Binding>, twoWay: seq<Binding>)

  function GroupBindings(content: string, e: Element): (g: Groups)
    ensures AllOfType(g.inputs, InputBinding) && AllOfType(g.outputs, OutputBinding)
    ensures AllOfType(g.attributes, AttributeBinding) && AllOfType(g.twoWay, TwoWayBinding)
    ensures var allInputs := GetInputs(content, e.inputs);
            var allOutputs := GetOutputs(content, e.outputs);
            && (forall b :: b in g.inputs <==> b in allInputs && !HasName(allOutputs, b.name))
            && (forall b :: b in g.outputs <==> b in allOutputs && !HasName(allInputs, b.name))
            && g.attributes == GetAttributes(e.attributes)
            && g.twoWay == GetTwoWayBindings(allInputs, allOutputs)
  {
    var allInputs := GetInputs(content, e.inputs);
    var allOutputs := GetOutputs(content, e.outputs);
    var twoWay := GetTwoWayBindings(allInputs, allOutputs);
    var ins := WithoutNames(allInputs, twoWay);
    var outs := WithoutNames(allOutputs, twoWay);
    forall n { TwoWayNames(allInputs, allOutputs, n); }
    assert AllOfType(ins, InputBinding) by {
      forall k | 0 <= k < |ins| ensures ins[k].bindingType == InputBinding { assert ins[k] in allInputs; }
    }
    assert AllOfType(outs, OutputBinding) by {
      forall k | 0 <= k < |outs| ensures outs[k].bindingType == OutputBinding { assert outs[k] in allOutputs; }
    }
    assert AllOfType(twoWay, TwoWayBinding) by {
      forall k | 0 <= k < |twoWay| ensures twoWay[k].bindingType == TwoWayBinding { assert twoWay[k] in twoWay; }
    }
    Groups(ins, outs, GetAttributes(e.attributes), twoWay)
  }

  /** `_getBindings`: inputs, then outputs, then attributes, then two-way
      bindings. */
  function GetBindings(content: string, e: Element): (r: seq<Binding>)
    ensures forall i, j :: 0 <= i < j < |r| ==> Rank(r[i].bindingType) <= Rank(r[j].bindingType)
    ensures var g := GroupBindings(content, e);
            r == g.inputs + g.outputs + g.attributes + g.twoWay
  {
    var g := GroupBindings(content, e);
    GroupsInOrder(g);
    g.inputs + g.outputs + g.attributes + g.twoWay
  }

  /** Four groups, each of one kind, concatenated in rank order are
      ordered by rank. */
  lemma GroupsInOrder(g: Groups)
    requires AllOfType(g.inputs, InputBinding) && AllOfType(g.outputs, OutputBinding)
    requires AllOfType(g.attributes, AttributeBinding) && AllOfType(g.twoWay, TwoWayBinding)
    ensures var r := g.inputs + g.outputs + g.attributes + g.twoWay;
            forall i, j :: 0 <= i < j < |r| ==> Rank(r[i].bindingType) <= Rank(r[j].bindingType)
  {
    var r := g.inputs + g.outputs + g.attributes + g.twoWay;
    var a := |g.inputs|;
    var b := a + |g.outputs|;
    var c := b + |g.attributes|;
    forall k | 0 <= k < |r|
      ensures Rank(r[k].bindingType) == if k < a then 0 else if k < b then 1 else if k < c then 2 else 3
    {
      if k < a { assert r[k] == g.inputs[k]; }
      else if k < b { assert r[k] == g.outputs[k - a]; }
      else if k < c { assert r[k] == g.attributes[k - b]; }
      else { assert r[k] == g.twoWay[k - c]; }
    }
  }

  /** Which bindings the result holds: an input or output only when no
      binding of the other direction shares its name, every attribute
      unchanged, and as two-way bindings exactly the inputs that share a
      name with an output, retyped. */
  lemma BindingsClassified(content: string, e: Element)
    ensures var r := GetBindings(content, e);
            var allInputs := GetInputs(content, e.inputs);
            var allOutputs := GetOutputs(content, e.outputs);
            && (forall b :: b in r && b.bindingType == InputBinding <==> b in allInputs && !HasName(allOutputs, b.name))
            && (forall b :: b in r && b.bindingType == OutputBinding <==> b in allOutputs && !HasName(allInputs, b.name))
            && (forall b :: b in r && b.bindingType == AttributeBinding <==> b in GetAttributes(e.attributes))
            && (forall b :: b in r && b.bindingType == TwoWayBinding <==>
                  exists k :: 0 <= k < |allInputs| && HasName(allOutputs, allInputs[k].name) &&
                              b == allInputs[k].(bindingType := TwoWayBinding))
  {
    GroupsByType(GroupBindings(content, e));
  }

  /** In four concatenated groups, each of one kind, the bindings of a
      kind are exactly the members of that kind's group. */
  lemma GroupsByType(g: Groups)
    requires AllOfType(g.inputs, InputBinding) && AllOfType(g.outputs, OutputBinding)
    requires AllOfType(g.attributes, AttributeBinding) && AllOfType(g.twoWay, TwoWayBinding)
    ensures var r := g.inputs + g.outputs + g.attributes + g.twoWay;
            && (forall b :: b in r && b.bindingType == InputBinding <==> b in g.inputs)
            && (forall b :: b in r && b.bindingType == OutputBinding <==> b in g.outputs)
            && (forall b :: b in r && b.bindingType == AttributeBinding <==> b in g.attributes)
            && (forall b :: b in r && b.bindingType == TwoWayBinding <==> b in g.twoWay)
  {
    var r := g.inputs + g.outputs + g.attributes + g.twoWay;
    assert forall b :: b in r <==> b in g.inputs || b in g.outputs || b in g.attributes || b in g.twoWay;
    forall b | b in g.inputs ensures b.bindingType == InputBinding {
      var k :| 0 <= k < |g.inputs| && g.inputs[k] == b;
    }
    forall b | b in g.outputs ensures b.bindingType == OutputBinding {
      var k :| 0 <= k < |g.outputs| && g.outputs[k] == b;
    }
    forall b | b in g.attributes ensures b.bindingType == AttributeBinding {
      var k :| 0 <= k < |g.attributes| && g.attributes[k] == b;
    }
    forall b | b in g.twoWay ensures b.bindingType == TwoWayBinding {
      var k :| 0 <= k < |g.twoWay| && g.twoWay[k] == b;
    }
  }
}

=== FILE: snack_bar.dfy ===
/** `MdSnackBarContainer`: the animation state, the one-shot exit
    notification and the content-attachment checks. The exit subject is
    reduced to how many notifications it has delivered and whether it has
    completed; a completed subject delivers nothing more. */
module SnackBar {
  import opened Wrappers

  datatype SnackBarState = Initial | Visible | Complete | Void

  datatype SnackBarError = ContentAlreadyAttached | NotYetImplemented

  datatype Container = Container(animationState: SnackBarState, exitNotifications: nat, exitCompleted: bool, attached: bool)

  /** A new container: 'initial', nothing attached, no exit yet. */
  const NewContainer := Container(Initial, 0, false, false)

  /** The exit notification is delivered at most once, and only together
      with completing the stream. */
  predicate ExitAtMostOnce(c: Container)
  {
    c.exitNotifications <= 1 && (c.exitNotifications == 1 <==> c.exitCompleted)
  }

  /** `attachComponentPortal`: attaching over existing content throws. */
  function AttachComponentPortal(c: Container): (r: Result<Container, SnackBarError>)
    ensures c.attached ==> r == Err(ContentAlreadyAttached)
    ensures !c.attached ==> r == Ok(c.(attached := true))
  {
    if c.attached then Err(ContentAlreadyAttached) else Ok(c.(attached := true))
  }

  /** `attachTemplatePortal` always throws. */
  function AttachTemplatePortal(c: Container): (r: Result<Container, SnackBarError>)
    ensures r == Err(NotYetImplemented)
  {
    Err(NotYetImplemented)
  }

  /** `enter`: start the entrance animation. */
  function Enter(c: Container): (r: Container)
    ensures r.animationState == Visible
    ensures r.(animationState := c.animationState) == c
  {
    c.(animationState := Visible)
  }

  /** `exit`: start the exit animation. */
  function Exit(c: Container): (r: Container)
    ensures r.animationState == Complete
    ensures r.(animationState := c.animationState) == c
  {
    c.(animationState := Complete)
  }

  /** `markAsExited`, on the end of an animation from `fromState` to
      `toState`: leaving 'visible' for 'void' or 'complete' notifies and
      completes the exit stream. */
  function MarkAsExited(c: Container, fromState: SnackBarState, toState: SnackBarState): (r: Container)
    ensures r.animationState == c.animationState && r.attached == c.attached
    ensures !(fromState == Visible && (toState == Void || toState == Complete)) ==> r == c
    ensures fromState == Visible && (toState == Void || toState == Complete) ==> r.exitCompleted
    ensures r.exitNotifications == c.exitNotifications + (if fromState == Visible && (toState == Void || toState == Complete) && !c.exitCompleted then 1 else 0)
  {
    if fromState == Visible && (toState == Void || toState == Complete) then
      if c.exitCompleted then c else c.(exitNotifications := c.exitNotifications + 1, exitCompleted := true)
    else c
  }

  /** Every operation keeps the exit notification one-shot. */
  lemma ExitNotifiesAtMostOnce(c: Container, fromState: SnackBarState, toState: SnackBarState)
    requires ExitAtMostOnce(c)
    ensures ExitAtMostOnce(MarkAsExited(c, fromState, toState))
    ensures ExitAtMostOnce(Enter(c)) && ExitAtMostOnce(Exit(c))
    ensures AttachComponentPortal(c).Ok? ==> ExitAtMostOnce(AttachComponentPortal(c).value)
  {
  }

  /** The animation's steps from a new container, entering then exiting,
      notify exactly once even if the end event repeats. */
  lemma EnterExitNotifiesOnce()
    ensures var shown := Enter(NewContainer);
            var leaving := Exit(shown);
            var done := MarkAsExited(leaving, Visible, Complete);
            && done.exitNotifications == 1
            && MarkAsExited(done, Visible, Complete).exitNotifications == 1
            && MarkAsExited(NewContainer, Initial, Visible).exitNotifications == 0
  {
  }
}

=== FILE: strings.dfy ===
/** String helpers with JavaScript semantics: `String.prototype.split` on a
    single-character separator, `Array.prototype.join`, substring search and
    the decimal rendering of integers used by template literals. */
module Strings {

  /** `s.split(sep)`: the pieces between occurrences of `sep`; an empty string
      yields one empty piece, and adjacent separators yield empty pieces. */
  function Split(s: string, sep: char): (r: seq<string>)
    ensures |r| >= 1
    ensures forall k :: 0 <= k < |r| ==> sep !in r[k]
    decreases |s|
  {
    if |s| == 0 then [""]
    else if s[0] == sep then [""] + Split(s[1..], sep)
    else
      var rest := Split(s[1..], sep);
      [[s[0]] + rest[0]] + rest[1..]
  }

  /** `parts.join(sep)`. */
  function Join(parts: seq<string>, sep: char): string
  {
    if |parts| == 0 then ""
    else if |parts| == 1 then parts[0]
    else parts[0] + [sep] + Join(parts[1..], sep)
  }

  /** Splitting a string that starts with a separator-free word `w`
      followed by `sep` peels `w` off as the first piece. */
  lemma {:induction false} SplitPrefix(w: string, sep: char, tail: string)
    requires sep !in w
    ensures Split(w + [sep] + tail, sep) == [w] + Split(tail, sep)
    decreases |w|
  {
    if |w| == 0 {
      assert w + [sep] + tail == [sep] + tail;
      assert ([sep] + tail)[1..] == tail;
    } else {
      var s := w + [sep] + tail;
      assert s[0] == w[0];
      assert s[1..] == w[1..] + [sep] + tail;
      SplitPrefix(w[1..], sep, tail);
      assert [w[0]] + w[1..] == w;
    }
  }

  /** A separator-free word is a single piece. */
  lemma {:induction false} SplitWord(w: string, sep: char)
    requires sep !in w
    ensures Split(w, sep) == [w]
    decreases |w|
  {
    if |w| > 0 {
      SplitWord(w[1..], sep);
      assert [w[0]] + w[1..] == w;
    }
  }

  /** Joining separator-free pieces and splitting the result gives the
      pieces back (a non-empty list is needed: `[].join(' ')` is `""`, which
      splits into `[""]`). */
  lemma {:induction false} SplitJoin(parts: seq<string>, sep: char)
    requires |parts| >= 1
    requires forall k :: 0 <= k < |parts| ==> sep !in parts[k]
    ensures Split(Join(parts, sep), sep) == parts
    decreases |parts|
  {
    if |parts| == 1 {
      SplitWord(parts[0], sep);
    } else {
      SplitJoin(parts[1..], sep);
      SplitPrefix(parts[0], sep, Join(parts[1..], sep));
      assert [parts[0]] + parts[1..] == parts;
    }
  }

  /** The joined string is as long as the pieces plus one separator between
      each neighbouring pair. */
  lemma {:induction false} JoinLength(parts: seq<string>, sep: char)
    requires |parts| >= 1
    ensures |Join(parts, sep)| == SumLengths(parts) + |parts| - 1
    decreases |parts|
  {
    if |parts| > 1 {
      JoinLength(parts[1..], sep);
    }
  }

  function SumLengths(parts: seq<string>): nat
  {
    if |parts| == 0 then 0 else |parts[0]| + SumLengths(parts[1..])
  }

  /** ASCII lower-casing: what a JavaScript regular expression without the
      `u` flag folds when it runs with `i` against an ASCII pattern. */
  function LowerChar(c: char): char
  {
    if 'A' <= c <= 'Z' then (c as int + 32) as char else c
  }

  function Lower(s: string): (r: string)
    ensures |r| == |s|
    ensures forall k :: 0 <= k < |s| ==> r[k] == LowerChar(s[k])
  {
    seq(|s|, k requires 0 <= k < |s| => LowerChar(s[k]))
  }

  /** `pat` occurs in `s` starting at index `at`. */
  predicate OccursAt(s: string, pat: string, at: int)
  {
    0 <= at && at + |pat| <= |s| && s[at..at + |pat|] == pat
  }

  /** Reference definition of substring containment. */
  ghost predicate Occurs(s: string, pat: string)
  {
    exists at :: OccursAt(s, pat, at)
  }

  /** Substring search, scanning start positions left to right. */
  function Contains(s: string, pat: string): (r: bool)
    decreases |s|
  {
    if |pat| <= |s| && s[..|pat|] == pat then true
    else if |s| == 0 then false
    else Contains(s[1..], pat)
  }

  lemma {:induction false} ContainsIsOccurs(s: string, pat: string)
    ensures Contains(s, pat) <==> Occurs(s, pat)
    decreases |s|
  {
    if |pat| <= |s| && s[..|pat|] == pat {
      assert OccursAt(s, pat, 0);
    } else if |s| == 0 {
      assert |pat| > 0;
      assert forall at :: !OccursAt(s, pat, at);
    } else {
      ContainsIsOccurs(s[1..], pat);
      if Occurs(s, pat) {
        var at :| OccursAt(s, pat, at);
        assert at != 0;
        assert s[1..][at - 1..at - 1 + |pat|] == s[at..at + |pat|];
        assert OccursAt(s[1..], pat, at - 1);
      }
      if Occurs(s[1..], pat) {
        var at :| OccursAt(s[1..], pat, at);
        assert s[at + 1..at + 1 + |pat|] == s[1..][at..at + |pat|];
        assert OccursAt(s, pat, at + 1);
      }
    }
  }

  /** Case-insensitive containment of an all-lower-case ASCII pattern, the
      meaning of `/pat/i.test(s)`. */
  predicate ContainsIgnoringCase(s: string, lowerPat: string)
  {
    Contains(Lower(s), lowerPat)
  }

  /** The decimal digit of `d`. */
  function DigitChar(d: nat): char
    requires d < 10
  {
    ('0' as int + d) as char
  }

  /** Decimal rendering of a natural number, without leading zeros. */
  function NatToString(n: nat): (r: string)
    ensures |r| >= 1
    ensures forall k :: 0 <= k < |r| ==> '0' <= r[k] <= '9'
    decreases n
  {
    if n < 10 then [DigitChar(n)] else NatToString(n / 10) + [DigitChar(n % 10)]
  }

  /** Value of a string of decimal digits. */
  function ParseDigits(s: string): nat
    requires forall k :: 0 <= k < |s| ==> '0' <= s[k] <= '9'
    decreases |s|
  {
    if |s| == 0 then 0
    else ParseDigits(s[..|s| - 1]) * 10 + (s[|s| - 1] as int - '0' as int)
  }

  lemma {:induction false} ParseNatToString(n: nat)
    ensures ParseDigits(NatToString(n)) == n
    decreases n
  {
    if n >= 10 {
      var s := NatToString(n);
      assert s[..|s| - 1] == NatToString(n / 10);
      ParseNatToString(n / 10);
    }
  }

  /** Distinct numbers render to distinct strings. */
  lemma NatToStringInjective(a: nat, b: nat)
    requires NatToString(a) == NatToString(b)
    ensures a == b
  {
    ParseNatToString(a);
    ParseNatToString(b);
  }
}

=== FILE: table.dfy ===
/** The definition bookkeeping of `CdkTable`: the column map with its
    duplicate-name check, the row definitions with at most one default,
    the choice of row definition per data row, the per-row index context,
    the cell templates of a row, the content check after content is
    checked, and switching data sources. Rendering through view containers
    and the iterable differ stay outside the model; a rendered row is
    represented by the cell templates it receives. */
module CdkTable {
  import opened Wrappers

  type TemplateId = nat

  /** A `CdkColumnDef`: its name and the cell templates it provides. `id`
      stands for object identity. */
  datatype ColumnDef = ColumnDef(id: nat, name: string, headerCell: TemplateId, cell: TemplateId, footerCell: TemplateId)

  /** A `CdkRowDef`: `when`, if present, decides for (index, data) whether
      the definition applies; `columns` is the list of column ids. */
  datatype RowDef<!T> = RowDef(id: nat, when: Option<(int, T) -> bool>, columns: Option<seq<string>>, template: TemplateId)

  datatype RowKind = HeaderRow | DataRow | FooterRow

  /** What `_getCellTemplates` needs of a header, footer or data row
      definition. */
  datatype BaseRowDef = BaseRowDef(kind: RowKind, columns: Option<seq<string>>, template: TemplateId)

  datatype TableError =
    | DuplicateColumnName(name: string)
    | MultipleDefaultRowDefs
    | MissingMatchingRowDef
    | UnknownColumn(name: string)
    | MissingRowDefs

  /** `Set.add`: insertion order is kept and an element already present is
      not added again. */
  function AddDef<D(==)>(defs: seq<D>, d: D): (r: seq<D>)
    ensures d in r
    ensures d in defs ==> r == defs
    ensures d !in defs ==> r == defs + [d]
  {
    if d in defs then defs else defs + [d]
  }

  /** `Set.delete`: the element goes, and the others keep their insertion
      order. */
  function RemoveDef<D(==)>(defs: seq<D>, d: D): (r: seq<D>)
    ensures d !in r
    ensures forall k :: 0 <= k < |r| ==> r[k] in defs && r[k] != d
    ensures forall k :: 0 <= k < |defs| && defs[k] != d ==> defs[k] in r
    ensures |r| <= |defs|
    ensures d !in defs ==> r == defs
  {
    if |defs| == 0 then []
    else if defs[0] == d then RemoveDef(defs[1..], d)
    else [defs[0]] + RemoveDef(defs[1..], d)
  }

  /** Deleting from a concatenation deletes from each part. */
  lemma {:induction false} RemoveOfConcat<D>(a: seq<D>, b: seq<D>, d: D)
    ensures RemoveDef(a + b, d) == RemoveDef(a, d) + RemoveDef(b, d)
    decreases |a|
  {
    if |a| == 0 {
      assert a + b == b;
    } else {
      assert (a + b)[0] == a[0] && (a + b)[1..] == a[1..] + b;
      RemoveOfConcat(a[1..], b, d);
    }
  }

  /** Deleting the one occurrence of an element, at position `k`, leaves
      the definitions before and after it in their order. */
  lemma RemoveKeepsOrder<D>(defs: seq<D>, d: D, k: nat)
    requires k < |defs| && defs[k] == d && d !in defs[..k] && d !in defs[k + 1..]
    ensures RemoveDef(defs, d) == defs[..k] + defs[k + 1..]
  {
    var rest := [d] + defs[k + 1..];
    assert defs == defs[..k] + rest;
    RemoveOfConcat(defs[..k], rest, d);
    assert rest[0] == d && rest[1..] == defs[k + 1..];
  }

  /** Removing what was just added restores a set that lacked it. */
  lemma {:induction false} AddThenRemove<D>(defs: seq<D>, d: D)
    requires d !in defs
    ensures RemoveDef(AddDef(defs, d), d) == defs
    decreases |defs|
  {
    if |defs| > 0 {
      assert (defs + [d])[1..] == defs[1..] + [d];
      AddThenRemove(defs[1..], d);
      assert [defs[0]] + defs[1..] == defs;
    } else {
      assert (defs + [d])[1..] == [];
    }
  }

  predicate NamesDistinct(defs: seq<ColumnDef>)
  {
    forall i, j :: 0 <= i < j < |defs| ==> defs[i].name != defs[j].name
  }

  function Names(defs: seq<ColumnDef>): (r: set<string>)
    ensures forall k :: 0 <= k < |defs| ==> defs[k].name in r
    ensures forall n :: n in r ==> exists k :: 0 <= k < |defs| && defs[k].name == n
  {
    set k | 0 <= k < |defs| :: defs[k].name
  }

  /** `_cacheColumnDefs`: content definitions, then custom ones, keyed by
      name; a name seen twice throws with that name. */
  method CacheColumnDefs(content: seq<ColumnDef>, custom: seq<ColumnDef>)
    returns (r: Result<map<string, ColumnDef>, TableError>)
    ensures r.Ok? <==> NamesDistinct(content + custom)
    ensures r.Ok? ==> r.value.Keys == Names(content + custom)
    ensures r.Ok? ==> forall k :: 0 <= k < |content + custom| ==>
                        r.value[(content + custom)[k].name] == (content + custom)[k]
    ensures r.Err? ==> exists i, j :: 0 <= i < j < |content + custom| &&
                         (content + custom)[i].name == (content + custom)[j].name &&
                         r.error == DuplicateColumnName((content + custom)[j].name)
  {
    var defs := content + custom;
    var byName: map<string, ColumnDef> := map[];
    var i := 0;
    while i < |defs|
      invariant 0 <= i <= |defs|
      invariant NamesDistinct(defs[..i])
      invariant byName.Keys == Names(defs[..i])
      invariant forall k :: 0 <= k < i ==> byName[defs[k].name] == defs[k]
    {
      var d := defs[i];
      if d.name in byName {
        var k :| 0 <= k < |defs[..i]| && defs[..i][k].name == d.name;
        assert defs[k].name == defs[i].name;
        return Err(DuplicateColumnName(d.name));
      }
      byName := byName[d.name := d];
      assert NamesDistinct(defs[..i + 1]) by {
        assert forall a :: 0 <= a < i ==> defs[..i][a].name in Names(defs[..i]);
        assert defs[..i + 1] == defs[..i] + [d];
      }
      assert Names(defs[..i + 1]) == Names(defs[..i]) + {d.name} by {
        assert defs[..i + 1] == defs[..i] + [d];
      }
      i := i + 1;
    }
    assert defs[..i] == defs;
    return Ok(byName);
  }

  /** Number of definitions without a `when` predicate. */
  function CountDefaults<T>(defs: seq<RowDef<T>>): nat
  {
    if |defs| == 0 then 0 else CountDefaults(defs[1..]) + (if defs[0].when.None? then 1 else 0)
  }

  /** The first definition without a `when` predicate. */
  function FirstDefault<T>(defs: seq<RowDef<T>>): (r: Option<RowDef<T>>)
    ensures r.Some? ==> r.value in defs && r.value.when.None?
    ensures r.None? <==> CountDefaults(defs) == 0
  {
    if |defs| == 0 then None
    else if defs[0].when.None? then Some(defs[0])
    else FirstDefault(defs[1..])
  }

  /** The row definitions in use and the default among them. */
  datatype RowDefCache<!T> = RowDefCache(rowDefs: seq<RowDef<T>>, defaultRowDef: Option<RowDef<T>>)

  /** `_cacheRowDefs`: content definitions, then custom ones; more than
      one default throws; otherwise the default is the only predicate-less
      definition, if there is one. */
  function CacheRowDefs<T>(content: seq<RowDef<T>>, custom: seq<RowDef<T>>): (r: Result<RowDefCache<T>, TableError>)
    ensures r.Err? <==> CountDefaults(content + custom) > 1
    ensures r.Err? ==> r.error == MultipleDefaultRowDefs
    ensures r.Ok? ==> r.value.rowDefs == content + custom
    ensures r.Ok? && r.value.defaultRowDef.Some? ==>
              r.value.defaultRowDef.value in content + custom && r.value.defaultRowDef.value.when.None? &&
              forall k :: 0 <= k < |content + custom| && (content + custom)[k].when.None? ==>
                (content + custom)[k] == r.value.defaultRowDef.value
    ensures r.Ok? && r.value.defaultRowDef.None? ==>
              forall k :: 0 <= k < |content + custom| ==> (content + custom)[k].when.Some?
  {
    var defs := content + custom;
    if CountDefaults(defs) > 1 then Err(MultipleDefaultRowDefs)
    else
      UniqueDefault(defs);
      Ok(RowDefCache(defs, FirstDefault(defs)))
  }

  /** With at most one predicate-less definition, the first one is every
      one of them. */
  lemma {:induction false} UniqueDefault<T>(defs: seq<RowDef<T>>)
    requires CountDefaults(defs) <= 1
    ensures forall k :: 0 <= k < |defs| && defs[k].when.None? ==> Some(defs[k]) == FirstDefault(defs)
    ensures FirstDefault(defs).None? ==> forall k :: 0 <= k < |defs| ==> defs[k].when.Some?
    decreases |defs|
  {
    if |defs| > 0 {
      UniqueDefault(defs[1..]);
      if defs[0].when.None? {
        assert CountDefaults(defs[1..]) == 0;
        forall k | 1 <= k < |defs| ensures defs[k].when.Some? {
          assert defs[k] == defs[1..][k - 1];
          NoDefaultsAllWhen(defs[1..], k - 1);
        }
      } else {
        forall k | 1 <= k < |defs| && defs[k].when.None? ensures Some(defs[k]) == FirstDefault(defs) {
          assert defs[k] == defs[1..][k - 1];
        }
      }
    }
  }

  lemma {:induction false} NoDefaultsAllWhen<T>(defs: seq<RowDef<T>>, k: nat)
    requires CountDefaults(defs) == 0 && k < |defs|
    ensures defs[k].when.Some?
    decreases k
  {
    if k > 0 { NoDefaultsAllWhen(defs[1..], k - 1); }
  }

  /** Whether a definition's `when` holds for (index, data); a definition
      without `when` never matches. */
  predicate Matches<T>(d: RowDef<T>, data: T, index: int)
  {
    d.when.Some? && d.when.value(index, data)
  }

  /** `Array.find` over the definitions: the earliest one whose `when`
      holds for (index, data). */
  function FirstMatching<T>(defs: seq<RowDef<T>>, data: T, index: int): (r: Option<RowDef<T>>)
    ensures r.Some? ==> exists k :: 0 <= k < |defs| && defs[k] == r.value && Matches(defs[k], data, index) &&
                                    forall j :: 0 <= j < k ==> !Matches(defs[j], data, index)
    ensures r.None? <==> forall k :: 0 <= k < |defs| ==> !Matches(defs[k], data, index)
  {
    if |defs| == 0 then None
    else if Matches(defs[0], data, index) then Some(defs[0])
    else
      var r := FirstMatching(defs[1..], data, index);
      assert forall k :: 1 <= k < |defs| ==> defs[k] == defs[1..][k - 1];
      r
  }

  /** `_getRowDef`: a single definition is used unconditionally; otherwise
      the first whose `when` holds, else the default; with neither it
      throws. */
  function GetRowDef<T>(cache: RowDefCache<T>, data: T, index: int): (r: Result<RowDef<T>, TableError>)
    ensures |cache.rowDefs| == 1 ==> r == Ok(cache.rowDefs[0])
    ensures |cache.rowDefs| != 1 && r.Ok? ==>
              (exists k :: 0 <= k < |cache.rowDefs| && cache.rowDefs[k] == r.value && Matches(cache.rowDefs[k], data, index) &&
                           forall j :: 0 <= j < k ==> !Matches(cache.rowDefs[j], data, index)) ||
              (Some(r.value) == cache.defaultRowDef &&
               forall k :: 0 <= k < |cache.rowDefs| ==> !Matches(cache.rowDefs[k], data, index))
    ensures |cache.rowDefs| != 1 && r.Err? <==>
              cache.defaultRowDef.None? && |cache.rowDefs| != 1 &&
              forall k :: 0 <= k < |cache.rowDefs| ==> !Matches(cache.rowDefs[k], data, index)
    ensures r.Err? ==> r.error == MissingMatchingRowDef
  {
    if |cache.rowDefs| == 1 then Ok(cache.rowDefs[0])
    else match FirstMatching(cache.rowDefs, data, index).OrElse(cache.defaultRowDef)
      case Some(d) => Ok(d)
      case None => Err(MissingMatchingRowDef)
  }

  /** The meta context of a rendered row. */
  datatype RowContext = RowContext(index: nat, count: nat, first: bool, last: bool, even: bool, odd: bool)

  /** `_updateRowIndexContext` over `count` rendered rows. */
  method UpdateRowIndexContext(count: nat) returns (contexts: seq<RowContext>)
    ensures |contexts| == count
    ensures forall k :: 0 <= k < count ==>
              && contexts[k].index == k
              && contexts[k].count == count
              && (contexts[k].first <==> k == 0)
              && (contexts[k].last <==> k == count - 1)
              && (contexts[k].even <==> k % 2 == 0)
              && contexts[k].odd == !contexts[k].even
  {
    contexts := [];
    var index := 0;
    while index < count
      invariant 0 <= index <= count
      invariant |contexts| == index
      invariant forall k :: 0 <= k < index ==>
                  && contexts[k].index == k
                  && contexts[k].count == count
                  && (contexts[k].first <==> k == 0)
                  && (contexts[k].last <==> k == count - 1)
                  && (contexts[k].even <==> k % 2 == 0)
                  && contexts[k].odd == !contexts[k].even
    {
      var even := index % 2 == 0;
      contexts := contexts + [RowContext(index, count, index == 0, index == count - 1, even, !even)];
      index := index + 1;
    }
  }

  /** The cell template a column provides for a row kind
      (`extractCellTemplate`). */
  function CellTemplate(kind: RowKind, column: ColumnDef): TemplateId
  {
    match kind
    case HeaderRow => column.headerCell
    case DataRow => column.cell
    case FooterRow => column.footerCell
  }

  /** `_getCellTemplates`: no definition or no column list gives no
      templates; otherwise one per column id, in order; an unknown id
      throws with that id. */
  function GetCellTemplates(rowDef: Option<BaseRowDef>, byName: map<string, ColumnDef>): (r: Result<seq<TemplateId>, TableError>)
    ensures rowDef.None? || rowDef.value.columns.None? ==> r == Ok([])
    ensures rowDef.Some? && rowDef.value.columns.Some? ==>
              var ids := rowDef.value.columns.value;
              && (r.Ok? <==> forall k :: 0 <= k < |ids| ==> ids[k] in byName)
              && (r.Ok? ==>
                    |r.value| == |ids| &&
                    forall k :: 0 <= k < |ids| ==> r.value[k] == CellTemplate(rowDef.value.kind, byName[ids[k]]))
              && (r.Err? ==> exists k :: 0 <= k < |ids| && ids[k] !in byName && r.error == UnknownColumn(ids[k]))
  {
    if rowDef.None? || rowDef.value.columns.None? then Ok([])
    else TemplatesFor(rowDef.value.kind, rowDef.value.columns.value, byName)
  }

  function TemplatesFor(kind: RowKind, ids: seq<string>, byName: map<string, ColumnDef>): (r: Result<seq<TemplateId>, TableError>)
    ensures r.Ok? <==> forall k :: 0 <= k < |ids| ==> ids[k] in byName
    ensures r.Ok? ==> |r.value| == |ids| && forall k :: 0 <= k < |ids| ==> r.value[k] == CellTemplate(kind, byName[ids[k]])
    ensures r.Err? ==> exists k :: 0 <= k < |ids| && ids[k] !in byName && r.error == UnknownColumn(ids[k])
  {
    if |ids| == 0 then Ok([])
    else if ids[0] !in byName then Err(UnknownColumn(ids[0]))
    else
      match TemplatesFor(kind, ids[1..], byName)
      case Err(e) => Err(e)
      case Ok(rest) => Ok([CellTemplate(kind, byName[ids[0]])] + rest)
  }

  /** The table's data source: an array, a stream, or a `DataSource`
      object with connect/disconnect; `id` stands for object identity. */
  datatype DataSource<!T> = NoSource | ArraySource(id: nat, rows: seq<T>) | StreamSource(id: nat) | ConnectableSource(id: nat)
  {
    /** Object identity: no source, or the object's id. */
    function Identity(): Option<nat>
    {
      if NoSource? then None else Some(id)
    }
  }

  /** The table state the model tracks. */
  datatype Table<!T> = Table(
    contentColumnDefs: seq<ColumnDef>,
    customColumnDefs: seq<ColumnDef>,
    contentRowDefs: seq<RowDef<T>>,
    customRowDefs: seq<RowDef<T>>,
    headerRowDef: Option<BaseRowDef>,
    footerRowDef: Option<BaseRowDef>,
    headerRowDefChanged: bool,
    footerRowDefChanged: bool,
    columnDefsByName: map<string, ColumnDef>,
    rowDefCache: RowDefCache<T>,
    dataSource: DataSource<T>,
    data: seq<T>,
    subscribed: bool,
    renderedRowCount: nat,
    renderedHeader: Option<seq<TemplateId>>,
    renderedFooter: Option<seq<TemplateId>>,
    disconnected: seq<nat>)

  /** `ngOnInit`: content header/footer definitions are marked changed so
      the first content check renders them. */
  function OnInit<T>(t: Table<T>): (r: Table<T>)
    ensures r.headerRowDefChanged <==> t.headerRowDef.Some?
    ensures r.footerRowDefChanged <==> t.footerRowDef.Some?
  {
    t.(headerRowDefChanged := t.headerRowDef.Some?, footerRowDefChanged := t.footerRowDef.Some?)
  }

  /** `setHeaderRowDef`. */
  function SetHeaderRowDef<T>(t: Table<T>, def: BaseRowDef): (r: Table<T>)
    ensures r.headerRowDef == Some(def) && r.headerRowDefChanged
    ensures r.footerRowDef == t.footerRowDef && r.footerRowDefChanged == t.footerRowDefChanged
  {
    t.(headerRowDef := Some(def), headerRowDefChanged := true)
  }

  /** `setFooterRowDef`. */
  function SetFooterRowDef<T>(t: Table<T>, def: BaseRowDef): (r: Table<T>)
    ensures r.footerRowDef == Some(def) && r.footerRowDefChanged
    ensures r.headerRowDef == t.headerRowDef && r.headerRowDefChanged == t.headerRowDefChanged
  {
    t.(footerRowDef := Some(def), footerRowDefChanged := true)
  }

  /** A header or footer definition that names a column no definition
      provides. */
  predicate NamesUnknownColumn(def: Option<BaseRowDef>, names: set<string>)
  {
    def.Some? && def.value.columns.Some? &&
    exists k :: 0 <= k < |def.value.columns.value| && def.value.columns.value[k] !in names
  }

  /** A header or footer that is about to be re-rendered names an unknown
      column. */
  predicate ChangedRowNamesUnknownColumn<T>(t: Table<T>)
  {
    var names := Names(t.contentColumnDefs + t.customColumnDefs);
    (t.headerRowDefChanged && NamesUnknownColumn(t.headerRowDef, names)) ||
    (t.footerRowDefChanged && NamesUnknownColumn(t.footerRowDef, names))
  }

  /** The definitions are well formed and at least one row definition
      exists, so the content check gets as far as rendering. */
  predicate ReachesRender<T>(t: Table<T>)
  {
    CacheRowDefs(t.contentRowDefs, t.customRowDefs).Ok? &&
    NamesDistinct(t.contentColumnDefs + t.customColumnDefs) &&
    !(t.headerRowDef.None? && t.footerRowDef.None? && |t.contentRowDefs + t.customRowDefs| == 0)
  }

  /** Rendering a header or footer against the column map fails iff the
      row names a column the map lacks, and then with that error. */
  lemma RenderFailsIffUnknown(def: Option<BaseRowDef>, byName: map<string, ColumnDef>, names: set<string>)
    requires byName.Keys == names
    ensures GetCellTemplates(def, byName).Err? <==> NamesUnknownColumn(def, names)
    ensures GetCellTemplates(def, byName).Err? ==> GetCellTemplates(def, byName).error.UnknownColumn?
  {
  }

  /** `ngAfterContentChecked` without the column-diff re-render: cache the
      row then column definitions, require at least one header, footer or
      row definition, render a changed header and footer, and connect to a
      data source once there are row definitions. */
  method AfterContentChecked<T>(t: Table<T>) returns (r: Result<Table<T>, TableError>)
    ensures CacheRowDefs(t.contentRowDefs, t.customRowDefs).Err? ==> r == Err(MultipleDefaultRowDefs)
    ensures (CacheRowDefs(t.contentRowDefs, t.customRowDefs).Ok? && !NamesDistinct(t.contentColumnDefs + t.customColumnDefs)) ==>
              r.Err? && r.error.DuplicateColumnName?
    ensures r.Err? && r.error == MissingRowDefs <==>
              CacheRowDefs(t.contentRowDefs, t.customRowDefs).Ok? &&
              NamesDistinct(t.contentColumnDefs + t.customColumnDefs) &&
              t.headerRowDef.None? && t.footerRowDef.None? && |t.contentRowDefs + t.customRowDefs| == 0
    ensures r.Ok? ==> !r.value.headerRowDefChanged && !r.value.footerRowDefChanged
    ensures r.Ok? ==> r.value.rowDefCache.rowDefs == t.contentRowDefs + t.customRowDefs
    ensures r.Ok? ==> Ok(r.value.rowDefCache) == CacheRowDefs(t.contentRowDefs, t.customRowDefs)
    ensures r.Ok? ==> r.value.columnDefsByName.Keys == Names(t.contentColumnDefs + t.customColumnDefs)
    ensures r.Ok? ==> forall k :: 0 <= k < |t.contentColumnDefs + t.customColumnDefs| ==>
              r.value.columnDefsByName[(t.contentColumnDefs + t.customColumnDefs)[k].name] ==
                (t.contentColumnDefs + t.customColumnDefs)[k]
    ensures ReachesRender(t) && ChangedRowNamesUnknownColumn(t) ==> r.Err? && r.error.UnknownColumn?
    ensures r.Err? && r.error.UnknownColumn? ==> ReachesRender(t) && ChangedRowNamesUnknownColumn(t)
    ensures ReachesRender(t) && !ChangedRowNamesUnknownColumn(t) ==> r.Ok?
    ensures r.Ok? && t.headerRowDefChanged ==>
              r.value.renderedHeader.Some? && Ok(r.value.renderedHeader.value) == GetCellTemplates(t.headerRowDef, r.value.columnDefsByName)
    ensures r.Ok? && !t.headerRowDefChanged ==> r.value.renderedHeader == t.renderedHeader
    ensures r.Ok? && t.footerRowDefChanged ==>
              r.value.renderedFooter.Some? && Ok(r.value.renderedFooter.value) == GetCellTemplates(t.footerRowDef, r.value.columnDefsByName)
    ensures r.Ok? && !t.footerRowDefChanged ==> r.value.renderedFooter == t.renderedFooter
    ensures r.Ok? ==> (r.value.subscribed <==>
              t.subscribed || (!t.dataSource.NoSource? && |r.value.rowDefCache.rowDefs| > 0))
  {
    var cache :- CacheRowDefs(t.contentRowDefs, t.customRowDefs);
    var byName :- CacheColumnDefs(t.contentColumnDefs, t.customColumnDefs);
    RenderFailsIffUnknown(t.headerRowDef, byName, Names(t.contentColumnDefs + t.customColumnDefs));
    RenderFailsIffUnknown(t.footerRowDef, byName, Names(t.contentColumnDefs + t.customColumnDefs));
    if t.headerRowDef.None? && t.footerRowDef.None? && |cache.rowDefs| == 0 {
      return Err(MissingRowDefs);
    }
    var next := t.(rowDefCache := cache, columnDefsByName := byName);
    if t.headerRowDefChanged {
      var cells :- GetCellTemplates(t.headerRowDef, byName);
      next := next.(renderedHeader := Some(cells), headerRowDefChanged := false);
    }
    if t.footerRowDefChanged {
      var cells :- GetCellTemplates(t.footerRowDef, byName);
      next := next.(renderedFooter := Some(cells), footerRowDefChanged := false);
    }
    if !t.dataSource.NoSource? && |cache.rowDefs| > 0 && !t.subscribed {
      next := next.(subscribed := true);
    }
    return Ok(next);
  }

  /** The `dataSource` setter: the same source is a no-op; a different one
      resets the data, disconnects an old `DataSource`, drops the
      subscription, and clears the rendered rows when the new source is
      empty. */
  function SetDataSource<T>(t: Table<T>, source: DataSource<T>): (r: Table<T>)
    ensures source.Identity() == t.dataSource.Identity() ==> r == t
    ensures source.Identity() != t.dataSource.Identity() ==> r.dataSource == source && r.data == [] && !r.subscribed
    ensures source.Identity() != t.dataSource.Identity() && source.NoSource? ==> r.renderedRowCount == 0
    ensures source.Identity() != t.dataSource.Identity() && !source.NoSource? ==> r.renderedRowCount == t.renderedRowCount
    ensures source.Identity() != t.dataSource.Identity() && t.dataSource.ConnectableSource? ==>
              r.disconnected == t.disconnected + [t.dataSource.id]
    ensures source.Identity() != t.dataSource.Identity() && !t.dataSource.ConnectableSource? ==> r.disconnected == t.disconnected
    ensures r.rowDefCache == t.rowDefCache && r.columnDefsByName == t.columnDefsByName
  {
    if source.Identity() == t.dataSource.Identity() then t
    else
      var disconnected := if t.dataSource.ConnectableSource? then t.disconnected + [t.dataSource.id] else t.disconnected;
      var rows := if source.NoSource? then 0 else t.renderedRowCount;
      t.(data := [], disconnected := disconnected, subscribed := false, renderedRowCount := rows, dataSource := source)
  }

  /** Setting a source twice is the same as setting it once. */
  lemma SetDataSourceIdempotent<T>(t: Table<T>, source: DataSource<T>)
    ensures SetDataSource(SetDataSource(t, source), source) == SetDataSource(t, source)
  {
  }
}

=== FILE: wrappers.dfy ===
/** Failure-compatible result types shared by every component model.
    `Option` stands for a nullable reference, `Result` for an operation that
    either returns a value or throws the component's error. */
module Wrappers {

  datatype Option<+T> = None | Some(value: T) {
    predicate IsFailure() { None? }

    function PropagateFailure<U>(): Option<U>
      requires None?
    {
      None
    }

    function Extract(): T
      requires Some?
    {
      value
    }

    /** The JavaScript `a || b` idiom on a nullable reference. */
    function OrElse(other: Option<T>): Option<T> {
      if Some? then this else other
    }
  }

  datatype Result<+T, +E> = Ok(value: T) | Err(error: E) {
    predicate IsFailure() { Err? }

    function PropagateFailure<U>(): Result<U, E>
      requires Err?
    {
      Err(error)
    }

    function Extract(): T
      requires Ok?
    {
      value
    }
  }
}
